=== FILE: README.md ===
# think-tank, modelled in Dafny

A model of the core of think-tank, a Python tool that runs a structured,
round-by-round debate between expert personas and a synthesizer, then keeps
a memory of lessons, forecasts and per-expert statistics. The model covers:

- **Records and their JSON form** (`schemas.dfy`, over the JSON values of
  `json.dfy`): experts, claims, moves, debate states, lessons, forecasts and
  expert performance. It includes the derived `total_claims` and
  `brier_score`, `to_dict`/`from_dict` with their defaults, and round trips.
- **Memory** (`memory.dfy`, `performance.dfy`): bootstrap plus learned
  lessons, the last-20 context window, and appending extracted lessons. It
  covers adding, resolving and reporting forecasts, and the per-expert
  performance fold with its running mean and challenge counts. The memory
  directory is a `Store` of four optional parsed files.
- **Agent responses** (`agent.dfy`, `payload.dfy`): the window of prior
  moves an agent is shown and its truncation bounds, and fenced-payload
  extraction. It also covers the three move shapes `_parse_response` can
  return (synthesis, parsed, fallback) and token copying in `make_move`.
- **The debate loop** (`runner.dfy`): the agent table, the turn loop as a
  fold over rounds and agent ids, and move numbering. It covers error moves,
  token totals, the initial and final state, and the post-debate memory step.
- **Loading and validation** (`loader.dfy`): expert and round field
  mapping with defaults, and validation of a spec against a panel.
- **Token accounting** (`cost.py` as `cost.dfy`): bucketing of actual token
  usage and the integer per-round estimate.

Effects are parameters:

- The language model is a function from a participant and its prompt to a
  `Result<Response>`.
- The JSON/YAML parser is a partial function `string -> Option<Json>`.
- Clock readings and generated ids are plain strings.
- Files are JSON values.
- A Python exception is an `Err` carrying its message.

`results.dfy`, `text.dfy` and `realmath.dfy` hold the supporting Result type,
string helpers and real-arithmetic facts.

## Model

| member | source | states |
|---|---|---|
| Schemas.DisplayTitle | think_tank/schemas.py:23-24 | the title is the name, then " (", the title, then ")" |
| Schemas.ListIds | think_tank/schemas.py:152-153 | the ids of the experts, one per expert, in panel order |
| Schemas.FirstWith | think_tank/schemas.py:146-150 | the index found holds the id and no earlier element has it; none means no element has it (the search of `get_expert` and of `resolve_forecast`) |
| Schemas.GetExpert | think_tank/schemas.py:146-150 | an expert is found iff the id is listed, and it is the first expert with that id |
| Schemas.TotalClaimsCountsClaims | think_tank/schemas.py:178-180 | total_claims equals the number of claims over all moves |
| Schemas.TotalClaimsAppend | think_tank/schemas.py:178-180 | appending a move adds exactly its claim count |
| Schemas.BrierScore | think_tank/schemas.py:252-257 | a score exists iff resolved with an outcome; it lies in [0,1] for a probability in [0,1], and is 0 iff the prediction was exact |
| Schemas.BrierExamples | think_tank/schemas.py:252-257 | 0.9 with outcome true scores 0.01, with false 0.81, and without an outcome nothing |
| Schemas.EvidenceFromJson | think_tank/schemas.py:86 | `Evidence(**e)` accepts only the declared keys and needs "source" |
| Schemas.ClaimFromJson | think_tank/schemas.py:81-91 | succeeds iff every present field has the claim's type; each field is the value under its key, or when the key is absent the default (confidence 0.7, stance "neutral", empty strings and lists); other keys are ignored |
| Schemas.MoveFromJson | think_tank/schemas.py:79-104 | succeeds iff every present field has the move's type; each of the eleven fields is the value under its key, or when the key is absent the default (move_type "claim", round 0, empty strings and lists, zero tokens); other keys are ignored |
| Schemas.EvidenceRoundTrip | think_tank/schemas.py:37-38 | evidence survives to_dict then from_dict |
| Schemas.ClaimRoundTrip | think_tank/schemas.py:51-54 | a claim, with its evidence and assumptions in order, survives to_dict then from_dict |
| Schemas.MoveRoundTrip | think_tank/schemas.py:74-104 | every field of a move, nested claims and targets in order, survives to_dict then from_dict |
| Schemas.DebateStateToJson | think_tank/schemas.py:182-197 | the dictionary carries total_moves = number of moves and total_claims = claim count |
| Schemas.DebateStateRoundTrip | think_tank/schemas.py:182-214 | every stored field and the exact move order survive a save and reload |
| Schemas.DerivedKeysIgnored | think_tank/schemas.py:199-214 | whatever total_moves and total_claims hold, reloading gives back the same state |
| Schemas.LessonFromJson | think_tank/schemas.py:233-235 | a lesson needs id, text and source_debate; created_at defaults to the current time |
| Schemas.LessonRoundTrip | think_tank/schemas.py:230-235 | a lesson survives to_dict then from_dict |
| Schemas.ForecastToJson | think_tank/schemas.py:259-262 | the dictionary carries the derived brier_score |
| Schemas.ForecastFromJson | think_tank/schemas.py:264-267 | probability and deadline are required; a missing "resolved" reads as unresolved |
| Schemas.BrierKeyIgnored | think_tank/schemas.py:264-267 | whatever the stored brier_score holds, reading ignores it |
| Schemas.ForecastRoundTrip | think_tank/schemas.py:259-267 | a forecast survives to_dict then from_dict; its score is recomputed |
| Schemas.PerformanceFromJson | think_tank/schemas.py:283-286 | expert_id is required and read back as the record's id |
| Schemas.PerformanceDefaults | think_tank/schemas.py:271-278 | a record with only expert_id has all counters and the average at zero |
| Schemas.PerformanceRoundTrip | think_tank/schemas.py:280-286 | a performance record survives to_dict then from_dict |
| Memory.LoadJsonList | think_tank/memory.py:282-287 | a missing file or a non-list contributes nothing; a list decodes element by element |
| Memory.ListFileRoundTrip | think_tank/memory.py:282-287 | a saved list reads back unchanged when each element round-trips |
| Memory.LessonFileRoundTrip | think_tank/memory.py:43-47 | saved lessons read back unchanged |
| Memory.LoadLessons | think_tank/memory.py:29-41 | loading succeeds iff both files decode |
| Memory.LoadSavedLessons | think_tank/memory.py:29-41 | the result is the bootstrap lessons followed by the learned lessons |
| Memory.AbsentBootstrapAddsNothing | think_tank/memory.py:33-35 | a missing or non-list bootstrap file contributes nothing |
| Memory.AbsentLearnedAddsNothing | think_tank/memory.py:37-39 | a missing or non-list lessons file contributes nothing |
| Memory.ContextLine | think_tank/memory.py:57 | a context line is never empty |
| Memory.ContextLines | think_tank/memory.py:55-57 | one line per lesson, in order |
| Memory.ContextText | think_tank/memory.py:49-58 | the context is empty iff there are no lessons |
| Memory.LoadContext | think_tank/memory.py:49-58 | fails iff loading fails, and is "" iff there are no lessons |
| Memory.ContextShowsRecent | think_tank/memory.py:56-58 | each of the last 20 lessons appears, with its text, in the context |
| Memory.ContextIgnoresOlder | think_tank/memory.py:56 | lessons before the last 20 do not affect the context |
| Memory.Classify | think_tank/memory.py:157 | a JSONDecodeError or ValueError is swallowed; any other error propagates |
| Memory.NewLesson | think_tank/memory.py:135-141 | source_debate is the debate title; missing id, category, confidence and text take their defaults |
| Memory.NewLessonDefaults | think_tank/memory.py:135-141 | a payload with only text gives the generated id, "methodology" and 0.7 |
| Memory.NewLessonRoundTrip | think_tank/memory.py:135-141 | an element with every key gives the lesson it describes, tied to this debate |
| Memory.PayloadItems | think_tank/memory.py:129-131 | a list payload is used as is; anything else is wrapped in a one-element list |
| Memory.ParseLessons | think_tank/memory.py:118-142 | succeeds iff the fence closes, the payload parses and every item maps; lesson i is the lesson built from item i |
| Memory.MergeLessons | think_tank/memory.py:145-157 | saves iff the lesson files load, and the lessons file becomes the learned lessons followed by the new ones; a failing load is swallowed or raised by its kind |
| Memory.ExtractLessons | think_tank/memory.py:60-158 | a failed model call raises. A reply that parses, with loadable files, is saved with exactly the parsed lessons. A parse error, or a lesson-file load error after a good parse, is swallowed or raised by its kind |
| Memory.ExtractionAppends | think_tank/memory.py:145-153 | a reply that parses is saved: learned lessons become old learned followed by new; bootstrap, forecasts and performance are untouched |
| Memory.ParseFailureSavesNothing | think_tank/memory.py:118-158 | an unclosed fence or unparsable payload is swallowed and nothing is saved |
| Memory.ForecastFileRoundTrip | think_tank/memory.py:162-170 | saved forecasts read back unchanged |
| Memory.LoadForecasts | think_tank/memory.py:162-165 | a missing forecasts file means no forecasts |
| Memory.SaveForecasts | think_tank/memory.py:167-170 | the saved forecasts read back, and the other files are untouched |
| Memory.SavedForecastsLoad | think_tank/memory.py:162-170 | whatever the clock, saved forecasts read back unchanged |
| Memory.AddForecast | think_tank/memory.py:172-175 | the forecast is appended at the end of the stored list |
| Memory.ResolveIn | think_tank/memory.py:177-186 | length, ids and every forecast with another id are unchanged |
| Memory.ResolveFirstOnly | think_tank/memory.py:180-185 | only the first match is marked resolved with the outcome, and then has a score |
| Memory.ResolveUnknown | think_tank/memory.py:180-186 | an unknown id changes nothing |
| Memory.ResolveTwice | think_tank/memory.py:177-186 | resolving twice leaves the second outcome |
| Memory.ResolveForecast | think_tank/memory.py:177-186 | the stored list becomes the resolved list |
| Memory.ResolvedOnes | think_tank/memory.py:195 | the resolved group holds only resolved forecasts |
| Memory.PendingOnes | think_tank/memory.py:196 | the pending group holds only unresolved forecasts |
| Memory.Report | think_tank/memory.py:188-220 | "No forecasts recorded." iff the list is empty; otherwise the two groups and the mean of the defined scores |
| Memory.CheckForecasts | think_tank/memory.py:188-220 | with the corrected report: fails iff loading fails, and the report is the sentinel iff the stored list is empty |
| Memory.CheckForecastsAsWritten | think_tank/memory.py:188-220 | as written: fails iff loading fails or a stored forecast is resolved without an outcome; otherwise it agrees with the corrected check |
| Memory.ReportAsWritten | think_tank/memory.py:204-209 | the report raises iff some resolved forecast has no outcome |
| Memory.ScorelessResolvedCrashes | think_tank/memory.py:199-209 | a resolved forecast without an outcome crashes the report as written, while its scores list is empty |
| Memory.PartitionSplits | think_tank/memory.py:195-196 | grouping distributes over concatenation, so each group keeps list order |
| Memory.PartitionCounts | think_tank/memory.py:195-196 | the two groups together are a permutation of the list |
| Memory.PartitionMembers | think_tank/memory.py:195-196 | a forecast is in the resolved group iff it is listed and resolved, and in the pending group iff listed and not |
| Memory.SumBounds | think_tank/memory.py:200 | a sum of values in [0,1] lies between 0 and the count |
| Memory.ScoresInUnit | think_tank/memory.py:199 | with probabilities in [0,1], every score lies in [0,1] |
| Memory.AverageBrierInUnit | think_tank/memory.py:199-203 | the average Brier score lies in [0,1], and is 0 when no resolved forecast has a score |
| Performance.LoadPerformance | think_tank/memory.py:224-229 | a missing file means no records; otherwise one record per key, each decoded from its value |
| Performance.PerformanceFileRoundTrip | think_tank/memory.py:224-234 | saved records read back unchanged |
| Performance.TargetIndex | think_tank/memory.py:241-245 | the index holds exactly the targets of all moves |
| Performance.Targeted | think_tank/memory.py:273-275 | counts the claims whose id is targeted: all of them iff every id is indexed, none iff none is |
| Performance.Credit | think_tank/memory.py:255-275 | one more debate, claims added, targets made added, targeted claims received added; no claims keeps the average |
| Performance.Step | think_tank/memory.py:247-275 | error and synthesis moves change nothing; otherwise only the mover's record changes, created at zero if new |
| Performance.UpdatePanelPerformance | think_tank/memory.py:236-277 | the stored records become the fold over the moves; the other files are untouched |
| Performance.FoldTallies | think_tank/memory.py:247-275 | an agent's counters rise by its counted moves, claims, targets made and claims received; others keep their records |
| Performance.RunningMeanProduct | think_tank/memory.py:260-268 | average times total claims equals the previous product plus the new confidences |
| Performance.ConfidenceSumBounds | think_tank/memory.py:261 | a sum of confidences in [0,1] lies between 0 and the claim count |
| Performance.RunningMeanInUnit | think_tank/memory.py:260-268 | with confidences in [0,1], the running average stays in [0,1] |
| Performance.CreditProduct | think_tank/memory.py:255-268 | one credited move adds its confidences to average times total claims |
| Performance.FoldMeanProduct | think_tank/memory.py:247-268 | over a whole debate, average times total claims grows by the agent's summed confidences |
| Performance.FoldMeanInUnit | think_tank/memory.py:247-268 | over a whole debate, the average stays in [0,1] |
| Payload.FencedPayload | think_tank/agent.py:180-188 | no fence means the whole text; a failure only happens with a fence and is the ValueError of `index` |
| Payload.JsonFenced | think_tank/agent.py:181-184 | the stripped text between the first "```json" and the next fence is the payload, whatever else the prefix, payload and tail hold |
| Payload.PlainFenced | think_tank/agent.py:185-188 | without a json fence, the stripped text between the first two fences is the payload, whatever the tail holds |
| Payload.UnclosedFence | think_tank/agent.py:183-187 | an opening fence with no fence after it fails, whether or not it is a json fence |
| Payload.CaughtErrors | think_tank/agent.py:218 | an unclosed fence, invalid JSON and a non-numeric confidence are all in the caught set |
| Payload.AttributeErrorEscapes | think_tank/agent.py:193 | calling `get` on a non-object is outside the caught set |
| Payload.ToFloat | think_tank/agent.py:201 | numbers and booleans convert; a string is a ValueError |
| Agent.PriorWindow | think_tank/agent.py:116-119 | a synthesizer sees all prior moves, any other agent the last min(6, n), always a suffix |
| Agent.ShowMove | think_tank/agent.py:119-128 | at most 4 claims are shown, the first ones, in order |
| Agent.PriorSection | think_tank/agent.py:116-128 | the section is omitted iff there are no prior moves, else it shows the window in order |
| Agent.ShownMoveBounds | think_tank/agent.py:120-128 | shown content is a prefix of at most 1500 characters, shown claim text a prefix of at most 250 |
| Agent.BuildPrompt | think_tank/agent.py:100-163 | lessons appear iff there is memory context; only a synthesizer gets the synthesis instruction |
| Agent.OlderMovesUnseen | think_tank/agent.py:118-119 | moves before the last six never change a non-synthesizer's prompt |
| Agent.SynthesizerSeesAll | think_tank/agent.py:118 | a synthesizer is shown every prior move |
| Agent.EvidenceFromPayload | think_tank/agent.py:194-197 | evidence needs an object; a missing quote is "" |
| Agent.ClaimFromPayload | think_tank/agent.py:198-205 | missing confidence, stance, id and evidence take 0.7, "neutral", "" and [] |
| Agent.PayloadMove | think_tank/agent.py:190-216 | id, agent and round come from the caller; the title is the display title; defaults are "claim" and the first 2000 characters; claims keep payload order |
| Agent.FallbackMove | think_tank/agent.py:218-227 | a "claim" move with no claims or targets whose content is the first min(3000, n) characters of the text |
| Agent.ParseResponse | think_tank/agent.py:165-227 | a synthesizer gets a "synthesize" move with the whole text; otherwise a successful parse is returned as is, a caught error gives the fallback move, and only uncaught errors escape |
| Agent.ClaimPayloadRoundTrip | think_tank/agent.py:194-205 | a claim written with every key, evidence included, is read back unchanged |
| Agent.PayloadRoundTrip | think_tank/agent.py:190-216 | a well-typed payload object gives a move with its type, content, claims in order and targets, under the caller's id, agent and round |
| Agent.ParsedPayloadKept | think_tank/agent.py:179-216 | a reply whose json fence holds a well-typed payload is recorded as the move it describes, not as the fallback |
| Agent.UnclosedFenceFallsBack | think_tank/agent.py:179-227 | an unclosed fence yields the fallback move |
| Agent.InvalidJsonFallsBack | think_tank/agent.py:190-227 | an unparsable payload yields the fallback move |
| Agent.EmptyPayloadDefaults | think_tank/agent.py:207-216 | an empty object yields a "claim" move with the first 2000 characters and nothing else |
| Agent.NonObjectPayloadEscapes | think_tank/agent.py:190-193 | a payload that parses to a non-object raises out of the parser |
| Agent.MakeMove | think_tank/agent.py:33-65 | a failed call raises. Otherwise it succeeds exactly when the reply parses, and the move is the parsed one with the response's token counts |
| Runner.LastWithId | think_tank/runner.py:67-73 | finds the last expert with the id, since later entries overwrite earlier ones |
| Runner.PanelAgents | think_tank/runner.py:66-73 | one ordinary agent per panel id, built from the last expert with that id |
| Runner.AgentTable | think_tank/runner.py:66-80 | the table holds exactly the panel ids plus "synthesizer", which is always the built-in synthesizer |
| Runner.DistinctIdsAgreeWithGetExpert | think_tank/runner.py:66-73 | with distinct ids, the table's expert is the one get_expert finds |
| Runner.RoundTurns | think_tank/runner.py:118 | one turn per listed agent id, in list order |
| Runner.TurnsCount | think_tank/runner.py:112-118 | there are as many turns as agent slots |
| Runner.TurnsSplit | think_tank/runner.py:112-118 | the turns of consecutive rounds follow each other |
| Runner.Resolved | think_tank/runner.py:118-122 | the resolvable turns all name a table agent, and are all turns when every id resolves |
| Runner.MoveId | think_tank/runner.py:124 | "M" followed by at least three digits that spell the counter |
| Runner.MoveIdInjective | think_tank/runner.py:124 | different counters give different move ids |
| Runner.ErrorMove | think_tank/runner.py:157-167 | an "error" move for the turn, with no claims or targets, zero tokens, and content "Agent error: " then the message |
| Runner.AgentPlayKeepsIdentity | think_tank/agent.py:207-227 | a move the agent returns carries the id, agent and round it was asked for |
| Runner.TurnMove | think_tank/runner.py:124-167 | a turn's move carries the counter's id, the turn's round and the turn's agent |
| Runner.TurnOutcome | think_tank/runner.py:128-167 | the agent sees the moves so far; its move is recorded, or an error move when it raises |
| Runner.TakeTurn | think_tank/runner.py:118-169 | a skipped id changes nothing; otherwise one move is appended and the counter advances |
| Runner.RunCounts | think_tank/runner.py:110-169 | the counter is one past the move count, one move per resolvable turn, token totals are the sums over the moves |
| Runner.ReplayStep | think_tank/runner.py:128-167 | one more turn extends the replay by exactly the move it produces |
| Runner.RunReplays | think_tank/runner.py:128-167 | move k is what the k-th resolvable turn produces from exactly the k earlier moves, as number k+1 |
| Runner.MoveIdsSequential | think_tank/runner.py:124-169 | move k is numbered k+1, so no two moves share an id |
| Runner.MovesFollowTurns | think_tank/runner.py:118-167 | move k belongs to the agent and round of the k-th resolvable turn |
| Runner.RunTurnsSnoc | think_tank/runner.py:112-118 | the turn loop over one more turn is one more step |
| Runner.RunRounds | think_tank/runner.py:110-169 | the nested loops over rounds and agents compute the fold over all turns |
| Runner.AfterDebate | think_tank/runner.py:206-216 | forecasts and bootstrap are never touched, and an escaping extraction error leaves memory unchanged. Otherwise the lessons file is the extraction's (unchanged when skipped), and the performance file is the fold over the debate's moves, or left as it was when it cannot be read |
| Runner.AfterDebateRecords | think_tank/runner.py:206-216 | with readable lesson files and a reply that parses, the learned lessons become the old ones followed by the new, and the performance file records the debate |
| Runner.RunDebate | think_tank/runner.py:82-224 | the state records spec, panel and sizes, one move per resolvable turn numbered in order, and token sums; a memory load failure aborts |
| Runner.StateIgnoresExtraction | think_tank/runner.py:206-216 | the returned state does not depend on the post-debate memory work |
| Runner.EverySlotMoves | think_tank/runner.py:118-122 | when every listed id resolves, every slot yields a move |
| Runner.AllTurnsListed | think_tank/runner.py:112-118 | when every listed id is in the table, so is every turn's id |
| Loader.PyStr | think_tank/loader.py:47 | `str` leaves a string as is and writes an integer in decimal |
| Loader.ExpertFromYaml | think_tank/loader.py:45-54 | the name defaults to "Unknown"; the id to the lower-cased name with underscores; the title falls back to role, then ""; other fields to "" |
| Loader.LoadPanel | think_tank/loader.py:29-57 | the name defaults to the file stem; experts are mapped one by one in file order |
| Loader.ExpertRoundTrip | think_tank/loader.py:45-54 | an expert written with all its fields loads back unchanged |
| Loader.PanelRoundTrip | think_tank/loader.py:40-57 | a panel written with all its fields loads back unchanged |
| Loader.RoleFormatDefaults | think_tank/loader.py:45-54 | name "Gen Test" with role "DIA Director" loads as id "gen_test" and that title |
| Loader.RoundFromYaml | think_tank/loader.py:72-77 | a round without a number gets its 1-based position; missing agents are [] |
| Loader.LoadRounds | think_tank/loader.py:70-77 | loading succeeds iff every round maps, one round per entry in order |
| Loader.LoadSpec | think_tank/loader.py:60-84 | the title defaults to the file stem; rounds are loaded in order |
| Loader.RoundNumbering | think_tank/loader.py:73 | the i-th round without a number is numbered i+1 |
| Loader.RoundRoundTrip | think_tank/loader.py:72-77 | a round written with all its fields loads back unchanged |
| Loader.SpecRoundTrip | think_tank/loader.py:60-84 | a spec written with all its fields loads back unchanged |
| Loader.IdsOf | think_tank/loader.py:92 | an id is in the set iff some expert of the panel has it |
| Loader.IdsCount | think_tank/loader.py:92-102 | the number of available experts is at most the panel size, and equal when ids are distinct |
| Loader.FlaggedTurns | think_tank/loader.py:95-103 | only unknown non-synthesizer ids are flagged; none are iff no turn has one |
| Loader.FlaggedTurnsSplit | think_tank/loader.py:95-103 | flagging keeps order: the flagged turns of a concatenation are those of each part in turn |
| Loader.FlaggedTurnsOne | think_tank/loader.py:97-103 | a single turn is kept exactly when it is flagged |
| Loader.Validate | think_tank/loader.py:87-105 | one warning per flagged occurrence, each naming its turn |
| Loader.ValidateSplit | think_tank/loader.py:95-103 | the warnings for consecutive rounds are those of each round, in round order |
| Loader.ValidateOne | think_tank/loader.py:97-103 | a round listing one agent warns once about it exactly when it is neither the synthesizer nor in the panel |
| Loader.WarningMentions | think_tank/loader.py:100-103 | each warning contains the offending id and the round number |
| Loader.SlotIsTurn | think_tank/loader.py:95-96 | every agent slot of every round is a turn |
| Loader.TurnFromSlot | think_tank/loader.py:95-96 | every turn comes from an agent slot of some round |
| Loader.ValidIff | think_tank/loader.py:87-105 | there are no warnings iff every listed id is "synthesizer" or a panel id |
| Loader.FlaggedIffSkipped | think_tank/loader.py:96-99 | an id is flagged iff the runner skips it, so flagged and played turns together make up all turns |
| Cost.PriceOf | think_tank/cost.py:10-15 | a listed model gets its table price, any other model the fallback |
| Cost.ActualUsage | think_tank/cost.py:107-118 | synthesis moves' tokens go to the synthesizer buckets, every other move's to the agent buckets |
| Cost.BucketsSplit | think_tank/cost.py:112-118 | the agent and synthesizer buckets add up to the totals over all moves |
| Cost.UsageMatchesState | think_tank/cost.py:112-118 | for a run's state, the buckets add up to the state's token totals |
| Cost.EstimateRound | think_tank/cost.py:40-64 | an ordinary round adds 4000 input and 1200 output per agent; a synthesis round adds 2500 plus the output so far, and 3600 |
| Cost.AgentEstimateClosedForm | think_tank/cost.py:56-64 | agent estimates are 4000 and 1200 tokens per slot of an ordinary round |
| Cost.OrdinaryOnly | think_tank/cost.py:41-64 | without synthesis rounds every slot is an agent call and the synthesizer is estimated at zero |
| Cost.EstimateCost | think_tank/cost.py:25-99 | counts rounds and slots, sums the agent and synthesizer estimates, and gives one detail per round in order |
| Cost.CallsBoundMoves | think_tank/cost.py:86 | the estimated call count bounds the moves a run records |

## Left out

- File and directory I/O, the output directory and its name, the per-move,
  state, report and cost files: each file is a parsed JSON value, and an
  absent file is `None`.
- The move-file write: it sits inside the runner's `try`. A failure there
  would append an error move after the agent's move, with the same id. The
  model has no write to fail, so every turn appends exactly one move.
- The language-model clients of `make_move` and `extract_lessons_from_debate`.
  Replies and failures are inputs.
- `json.loads` and `yaml.safe_load`: the decoder is a partial function
  parameter, and YAML data is the same JSON value.
- Prompt wording, the extraction summary and all `print` output. A prompt is
  a record of its parts: the memory context, the shown moves, and the
  synthesis instruction.
- `datetime.now()`: one clock reading `now` per call, and the generated
  lesson id is a parameter.
- Dollar amounts and their rounding in `estimate_cost` and
  `compute_actual_cost`. Only token counts and the price table are modelled.
- Number and percent formatting in the forecast report. The report is a
  record holding the two groups and the average.
- Report generation and `compute_actual_cost` inside `run`: their failures
  are not modelled.
- `discover_files`, `_resolve_path` and the command-line interface.
- Python's `str.lower` is modelled on ASCII letters only.
- Payload.ToFloat: a string that spells a number is rejected, where Python's
  `float` would convert it.
- Loader.PyStr: `str` of a float, list or mapping is not modelled; such ids
  are errors.
- Ill-typed field values that Python stores unchecked are decode errors,
  for example a string where `from_dict` expects an int. The round trips
  are unaffected. This includes Loader.LoadPanel and Loader.LoadSpec: when
  `experts` or `rounds` is an empty mapping or an empty string, Python
  iterates it as given (think_tank/loader.py:42, think_tank/loader.py:71) and
  loads an empty panel or spec. The model returns `Err` for any value that
  is not a list.
- Agent.ParseResponse: an ill-typed payload field, such as `{"id": 5}` in a
  claim, is an error outside the caught set. The model returns `Err` and the
  runner records one "error" move without claims or tokens. Python would store
  the value unchecked and record the parsed move. When "content" is a number,
  boolean or null, Python records two moves with the same move id. It first
  appends the parsed move and adds its tokens (think_tank/runner.py:137-139).
  Then `move.content[:120]` raises TypeError (think_tank/runner.py:150), and
  the handler appends an "error" move as well (think_tank/runner.py:157-167).
  A stored move with ill-typed content or claim text also breaks later
  prompts. `m.content[:1500]` raises for numeric or null content
  (think_tank/agent.py:123), and `c.text[:250]` raises for non-string claim
  text (think_tank/agent.py:127). Content that is a list or object fails at
  `"\n".join(parts)` (think_tank/agent.py:163). Every later ordinary turn
  whose six-move window (think_tank/agent.py:119) still holds that move, and
  every later synthesizer turn, then records an "error" move instead
  (think_tank/runner.py:157-167). The debate summary built for lesson
  extraction slices the same fields (think_tank/memory.py:77-86), so in
  Python the post-debate step fails too. The model never stores such a
  move, so it plays those turns normally.
- Memory.ExtractLessons: the same ill-typed payload gives `Raised`, so the
  post-debate step also skips the performance update. Python would save the
  lesson.
- Memory.CheckForecasts: models the corrected report; the code as written is
  Memory.CheckForecastsAsWritten (see Findings).
- The text of a propagated exception is an opaque string, not Python's
  `str(e)`.

## Findings

| source | as written | input that shows it | evidently intended | confidence | as-written member | corrected member |
|---|---|---|---|---|---|---|
| think_tank/memory.py:204-209 | every resolved forecast's score is formatted with `:.4f` | a stored forecast with `"resolved": true, "outcome": null`, which `from_dict` accepts; its `brier_score` is None and formatting raises TypeError | a scoreless forecast is tolerated, as line 199 already filters None scores out of the average | not executed | Memory.ReportAsWritten | Memory.Report |

=== FILE: agent.dfy ===
/** A debate agent (think_tank/agent.py): what it shows the model of the
    debate so far, and how it turns the model's reply into a Move. The model
    call itself is abstract; the JSON decoder is the abstract `decode`. */
module Agent {
  import opened Results
  import opened Text
  import opened Json
  import opened Payload
  import opened Schemas

  /** An expert persona, whether it synthesizes, and the model it runs on. */
  datatype Participant = Participant(expert: Expert, isSynthesizer: bool, model: string)

  /** The arguments of `make_move`. */
  datatype TurnRequest = TurnRequest(
    round: RoundSpec, context: string, prior: seq<Move>, moveId: string,
    memoryContext: string, synthesizerPrompt: string)

  /** The model's reply: its text and its token usage. */
  datatype Response = Response(text: string, inputTokens: int, outputTokens: int)

  // ── The prior-move window ───────────────────────────────

  /** How many prior moves a non-synthesizer sees. */
  const PriorWindowSize: nat := 6
  const ShownContentChars: nat := 1500
  const ShownClaims: nat := 4
  const ShownClaimChars: nat := 250

  /** The prior moves an agent sees: all of them for the synthesizer, else
      the last six. */
  function PriorWindow(p: Participant, prior: seq<Move>): (r: seq<Move>)
    ensures p.isSynthesizer ==> r == prior
    ensures !p.isSynthesizer ==> |r| == if |prior| < PriorWindowSize then |prior| else PriorWindowSize
    ensures r == prior[|prior| - |r|..]
  {
    if p.isSynthesizer then prior else Last(prior, PriorWindowSize)
  }

  datatype ShownClaim = ShownClaim(confidence: real, text: string)

  /** A prior move as the prompt shows it. */
  datatype ShownMove = ShownMove(
    agentTitle: string, round: int, moveType: string, content: string, claims: seq<ShownClaim>)

  function ShowClaim(c: Claim): ShownClaim {
    ShownClaim(c.confidence, Take(c.text, ShownClaimChars))
  }

  function ShowMove(m: Move): (r: ShownMove)
    ensures |r.claims| == if |m.claims| < ShownClaims then |m.claims| else ShownClaims
    ensures forall i :: 0 <= i < |r.claims| ==> r.claims[i] == ShowClaim(m.claims[i])
  {
    var claims := if |m.claims| < ShownClaims then m.claims else m.claims[..ShownClaims];
    ShownMove(m.agentTitle, m.round, m.moveType, Take(m.content, ShownContentChars),
              seq(|claims|, i requires 0 <= i < |claims| => ShowClaim(claims[i])))
  }

  /** The "PRIOR DEBATE MOVES" section, omitted when there are none. */
  function PriorSection(p: Participant, prior: seq<Move>): (r: Option<seq<ShownMove>>)
    ensures r.None? <==> |prior| == 0
    ensures r.Some? ==> |r.value| == |PriorWindow(p, prior)|
    ensures r.Some? ==> forall i :: 0 <= i < |r.value| ==> r.value[i] == ShowMove(PriorWindow(p, prior)[i])
  {
    if |prior| == 0 then None
    else
      var window := PriorWindow(p, prior);
      Some(seq(|window|, i requires 0 <= i < |window| => ShowMove(window[i])))
  }

  /** Every shown move is cut to 1500 characters of its content and four
      claims of at most 250 characters each, all prefixes of the original. */
  lemma ShownMoveBounds(m: Move)
    ensures |ShowMove(m).content| <= ShownContentChars
    ensures ShowMove(m).content == m.content[..|ShowMove(m).content|]
    ensures |ShowMove(m).claims| <= ShownClaims && |ShowMove(m).claims| <= |m.claims|
    ensures forall i :: 0 <= i < |ShowMove(m).claims| ==>
      |ShowMove(m).claims[i].text| <= ShownClaimChars
      && ShowMove(m).claims[i].text == m.claims[i].text[..|ShowMove(m).claims[i].text|]
  {
  }

  /** What the prompt carries, without its wording: the problem context, the
      lessons section (omitted when empty), the prior-move section, the round,
      the move id offered for claim ids, and the synthesis instruction. */
  datatype Prompt = Prompt(
    context: string, lessons: Option<string>, prior: Option<seq<ShownMove>>,
    round: RoundSpec, moveId: string, synthesisInstruction: Option<string>)

  /** The synthesis instruction used when the spec gives none. */
  const DefaultSynthesisInstruction :=
    "Produce the FINAL SYNTHESIS as a comprehensive Markdown document. "
    + "Be concrete — specific recommendations, specific timelines, "
    + "specific evidence. This is the final output."

  /** `_build_user_prompt`. */
  function BuildPrompt(p: Participant, req: TurnRequest): (r: Prompt)
    ensures r.lessons.None? <==> req.memoryContext == ""
    ensures r.prior == PriorSection(p, req.prior)
    ensures r.synthesisInstruction.Some? <==> p.isSynthesizer
  {
    Prompt(
      req.context,
      if req.memoryContext == "" then None else Some(req.memoryContext),
      PriorSection(p, req.prior),
      req.round,
      req.moveId,
      if !p.isSynthesizer then None
      else if req.synthesizerPrompt != "" then Some(req.synthesizerPrompt)
      else Some(DefaultSynthesisInstruction))
  }

  /** A non-synthesizer's prompt depends only on the last six prior moves. */
  lemma OlderMovesUnseen(p: Participant, req: TurnRequest, older: seq<Move>)
    requires !p.isSynthesizer && |req.prior| >= PriorWindowSize
    ensures BuildPrompt(p, req.(prior := older + req.prior)) == BuildPrompt(p, req)
  {
    var all := older + req.prior;
    assert PriorWindow(p, all) == PriorWindow(p, req.prior) by {
      assert all[|all| - PriorWindowSize..] == req.prior[|req.prior| - PriorWindowSize..];
    }
  }

  /** The synthesizer sees every prior move, in order. */
  lemma SynthesizerSeesAll(p: Participant, prior: seq<Move>)
    requires p.isSynthesizer && |prior| > 0
    ensures PriorSection(p, prior).Some?
    ensures |PriorSection(p, prior).value| == |prior|
    ensures forall i :: 0 <= i < |prior| ==> PriorSection(p, prior).value[i] == ShowMove(prior[i])
  {
  }

  // ── Parsing the reply ───────────────────────────────────

  const SynthesisTitle := "Debate Synthesizer"
  const DefaultContentChars: nat := 2000
  const FallbackContentChars: nat := 3000

  /** An evidence entry of the payload: `.get` on a non-object raises
      AttributeError. */
  function EvidenceFromPayload(e: Json): (r: Result<Evidence>)
    ensures r.Ok? ==> e.JObj?
    ensures r.Ok? && "quote" !in e.fields ==> r.value.quote == ""
  {
    var o :- AsObject(e);
    var source :- GetStr(o, "source", "");
    var quote :- GetStr(o, "quote", "");
    Ok(Evidence(source, quote))
  }

  /** A claim of the payload, fields read in the source's order: evidence,
      id, text, confidence (through `float`), assumptions, stance. */
  function ClaimFromPayload(c: Json): (r: Result<Claim>)
    ensures r.Ok? ==> c.JObj?
    ensures r.Ok? && "confidence" !in c.fields ==> r.value.confidence == 0.7
    ensures r.Ok? && "stance" !in c.fields ==> r.value.stance == "neutral"
    ensures r.Ok? && "id" !in c.fields ==> r.value.id == ""
    ensures r.Ok? && "evidence" !in c.fields ==> r.value.evidence == []
  {
    var o :- AsObject(c);
    var evidence :- GetList(o, "evidence", EvidenceFromPayload);
    var id :- GetStr(o, "id", "");
    var text :- GetStr(o, "text", "");
    var confidence :- if "confidence" in o then ToFloat(o["confidence"]) else Ok(0.7);
    var assumptions :- GetList(o, "assumptions", AsString);
    var stance :- GetStr(o, "stance", "neutral");
    Ok(Claim(id, text, confidence, evidence, assumptions, stance))
  }

  /** The move built from a decoded payload. Identity, title and round come
      from the caller, never from the payload. */
  function PayloadMove(p: Participant, text: string, moveId: string, round: int, data: Json, now: string)
    : (r: Result<Move>)
    ensures r.Ok? ==> data.JObj?
    ensures r.Ok? ==> r.value.moveId == moveId && r.value.agentId == p.expert.id && r.value.round == round
    ensures r.Ok? ==> r.value.agentTitle == DisplayTitle(p.expert)
    ensures r.Ok? && "move_type" !in data.fields ==> r.value.moveType == "claim"
    ensures r.Ok? && "content" !in data.fields ==> r.value.content == Take(text, DefaultContentChars)
    ensures r.Ok? && "claims" in data.fields ==>
      data.fields["claims"].JArr? && |r.value.claims| == |data.fields["claims"].items|
      && forall i :: 0 <= i < |r.value.claims| ==> ClaimFromPayload(data.fields["claims"].items[i]) == Ok(r.value.claims[i])
  {
    var o :- AsObject(data);
    var claims :- GetList(o, "claims", ClaimFromPayload);
    var moveType :- GetStr(o, "move_type", "claim");
    var content :- GetStr(o, "content", Take(text, DefaultContentChars));
    var targets :- GetList(o, "targets", AsString);
    Ok(Move(moveId, p.expert.id, DisplayTitle(p.expert), round, moveType, content, claims, targets, now, 0, 0))
  }

  /** The `try` block: fence extraction, `json.loads`, then the move. */
  function ParsedMove(p: Participant, text: string, moveId: string, round: int, decode: string -> Option<Json>, now: string)
    : (r: Result<Move>)
  {
    var payload :- FencedPayload(text);
    var data :- match decode(payload)
      case None => Err(NotJson)
      case Some(v) => Ok(v);
    PayloadMove(p, text, moveId, round, data, now)
  }

  function SynthesisMove(p: Participant, text: string, moveId: string, round: int, now: string): Move {
    Move(moveId, p.expert.id, SynthesisTitle, round, "synthesize", text, [], [], now, 0, 0)
  }

  /** The move recorded when parsing fails with a caught error. */
  function FallbackMove(p: Participant, text: string, moveId: string, round: int, now: string): (r: Move)
    ensures r.moveType == "claim" && r.claims == [] && r.targets == []
    ensures |r.content| == (if |text| < FallbackContentChars then |text| else FallbackContentChars)
    ensures |r.content| <= |text| && r.content == text[..|r.content|]
  {
    Move(moveId, p.expert.id, DisplayTitle(p.expert), round, "claim", Take(text, FallbackContentChars), [], [], now, 0, 0)
  }

  /** `_parse_response`. `Err` is an exception outside the caught set
      (AttributeError for a payload that is not an object, or an ill-typed
      field), which escapes `make_move`. */
  function ParseResponse(p: Participant, text: string, moveId: string, round: int, decode: string -> Option<Json>, now: string)
    : (r: Result<Move>)
    ensures p.isSynthesizer ==> (r.Ok? && r.value.moveType == "synthesize" && r.value.content == text
                                 && r.value.agentTitle == SynthesisTitle
                                 && r.value.claims == [] && r.value.targets == [])
    ensures r.Ok? ==> r.value.moveId == moveId && r.value.agentId == p.expert.id && r.value.round == round
    ensures r.Ok? ==> r.value.inputTokens == 0 && r.value.outputTokens == 0
    ensures !p.isSynthesizer && r.Ok? ==> r.value.agentTitle == DisplayTitle(p.expert)
    ensures !p.isSynthesizer && ParsedMove(p, text, moveId, round, decode, now).Ok? ==>
      r == ParsedMove(p, text, moveId, round, decode, now)
    ensures !p.isSynthesizer && ParsedMove(p, text, moveId, round, decode, now).Err?
            && IsValueError(ParsedMove(p, text, moveId, round, decode, now).error) ==>
      r == Ok(FallbackMove(p, text, moveId, round, now))
    ensures r.Err? ==> (!p.isSynthesizer && ParsedMove(p, text, moveId, round, decode, now).Err?
                        && !IsValueError(ParsedMove(p, text, moveId, round, decode, now).error))
  {
    if p.isSynthesizer then Ok(SynthesisMove(p, text, moveId, round, now))
    else match ParsedMove(p, text, moveId, round, decode, now)
      case Ok(m) => Ok(m)
      case Err(e) =>
        if IsValueError(e) then Ok(FallbackMove(p, text, moveId, round, now)) else Err(e)
  }

  /** A reply with a fence that is never closed falls back to a plain claim
      move carrying the first 3000 characters. */
  lemma UnclosedFenceFallsBack(p: Participant, pre: string, rest: string, moveId: string, round: int,
                               decode: string -> Option<Json>, now: string)
    requires !p.isSynthesizer && FirstAtEnd(pre, PlainFence) && OnlyAtStart(PlainFence + rest, PlainFence)
    ensures ParseResponse(p, pre + PlainFence + rest, moveId, round, decode, now)
         == Ok(FallbackMove(p, pre + PlainFence + rest, moveId, round, now))
  {
    UnclosedFence(pre, rest);
    CaughtErrors();
  }

  /** A payload that is not valid JSON falls back as well. */
  lemma InvalidJsonFallsBack(p: Participant, text: string, moveId: string, round: int,
                             decode: string -> Option<Json>, now: string)
    requires !p.isSynthesizer && FencedPayload(text).Ok? && decode(FencedPayload(text).value).None?
    ensures ParseResponse(p, text, moveId, round, decode, now) == Ok(FallbackMove(p, text, moveId, round, now))
  {
    CaughtErrors();
  }

  /** A fenced empty object gives a claim move with the defaults: the first
      2000 characters as content, no claims and no targets. */
  lemma EmptyPayloadDefaults(p: Participant, pre: string, payload: string, post: string,
                             moveId: string, round: int, decode: string -> Option<Json>, now: string)
    requires !p.isSynthesizer && FirstAtEnd(pre, JsonFence) && FirstAtEnd(payload, PlainFence)
    requires decode(Strip(payload)) == Some(JObj(map[]))
    ensures var text := pre + JsonFence + payload + PlainFence + post;
      ParseResponse(p, text, moveId, round, decode, now)
      == Ok(Move(moveId, p.expert.id, DisplayTitle(p.expert), round, "claim",
                 Take(text, DefaultContentChars), [], [], now, 0, 0))
  {
    JsonFenced(pre, payload, post);
  }

  /** The payload an agent writes for a move: its type, content, claims in
      the shape of `Claim.to_dict`, and targets. */
  function MovePayload(moveType: string, content: string, claims: seq<Claim>, targets: seq<string>): Json {
    JObj(map["move_type" := JStr(moveType), "content" := JStr(content),
             "claims" := JArr(EncodeAll(claims, ClaimToJson)), "targets" := StrList(targets)])
  }

  /** An evidence entry written with both keys is read back unchanged. */
  lemma EvidencePayloadRoundTrip(e: Evidence)
    ensures EvidenceFromPayload(EvidenceToJson(e)) == Ok(e)
  {
  }

  /** A claim written with every key is read back unchanged, evidence and
      assumptions in order. */
  lemma ClaimPayloadRoundTrip(c: Claim)
    ensures ClaimFromPayload(ClaimToJson(c)) == Ok(c)
  {
    var o := ClaimToJson(c).fields;
    forall e ensures EvidenceFromPayload(EvidenceToJson(e)) == Ok(e) {
      EvidencePayloadRoundTrip(e);
    }
    GetListRoundTrip(o, "evidence", c.evidence, EvidenceToJson, EvidenceFromPayload);
    StrListRoundTrip(o, "assumptions", c.assumptions);
  }

  /** A well-typed payload object gives the move it describes: its type,
      content, claims in order and targets, under the caller's identity. */
  lemma PayloadRoundTrip(p: Participant, text: string, moveId: string, round: int, now: string,
                         moveType: string, content: string, claims: seq<Claim>, targets: seq<string>)
    ensures PayloadMove(p, text, moveId, round, MovePayload(moveType, content, claims, targets), now)
         == Ok(Move(moveId, p.expert.id, DisplayTitle(p.expert), round, moveType, content, claims, targets, now, 0, 0))
  {
    var o := MovePayload(moveType, content, claims, targets).fields;
    forall c ensures ClaimFromPayload(ClaimToJson(c)) == Ok(c) {
      ClaimPayloadRoundTrip(c);
    }
    GetListRoundTrip(o, "claims", claims, ClaimToJson, ClaimFromPayload);
    StrListRoundTrip(o, "targets", targets);
  }

  /** A reply whose json fence holds a well-typed payload is recorded as the
      move that payload describes, not as the fallback. */
  lemma ParsedPayloadKept(p: Participant, pre: string, payload: string, post: string,
                          moveId: string, round: int, decode: string -> Option<Json>, now: string,
                          moveType: string, content: string, claims: seq<Claim>, targets: seq<string>)
    requires !p.isSynthesizer && FirstAtEnd(pre, JsonFence) && FirstAtEnd(payload, PlainFence)
    requires decode(Strip(payload)) == Some(MovePayload(moveType, content, claims, targets))
    ensures ParseResponse(p, pre + JsonFence + payload + PlainFence + post, moveId, round, decode, now)
         == Ok(Move(moveId, p.expert.id, DisplayTitle(p.expert), round, moveType, content, claims, targets, now, 0, 0))
  {
    JsonFenced(pre, payload, post);
    PayloadRoundTrip(p, pre + JsonFence + payload + PlainFence + post, moveId, round, now,
                     moveType, content, claims, targets);
  }

  /** A payload that decodes to something other than an object escapes as
      an AttributeError. */
  lemma NonObjectPayloadEscapes(p: Participant, text: string, moveId: string, round: int,
                                decode: string -> Option<Json>, now: string)
    requires !p.isSynthesizer && FencedPayload(text).Ok?
    requires decode(FencedPayload(text).value).Some? && !decode(FencedPayload(text).value).value.JObj?
    ensures ParseResponse(p, text, moveId, round, decode, now).Err?
  {
    AttributeErrorEscapes();
  }

  // ── make_move ───────────────────────────────────────────

  /** `make_move`: the reply (or the client's error) parsed into a move that
      carries the reply's token usage. */
  function MakeMove(p: Participant, req: TurnRequest, reply: Result<Response>, decode: string -> Option<Json>, now: string)
    : (r: Result<Move>)
    ensures reply.Err? ==> r.Err?
    ensures r.Ok? ==> (reply.Ok?
                       && r.value.inputTokens == reply.value.inputTokens
                       && r.value.outputTokens == reply.value.outputTokens)
    ensures r.Ok? ==> r.value.moveId == req.moveId && r.value.agentId == p.expert.id && r.value.round == req.round.number
    ensures r.Ok? ==> ParseResponse(p, reply.value.text, req.moveId, req.round.number, decode, now).Ok?
    ensures r.Ok? ==> r.value.content == ParseResponse(p, reply.value.text, req.moveId, req.round.number, decode, now).value.content
    ensures p.isSynthesizer && reply.Ok? ==> r.Ok? && r.value.moveType == "synthesize" && r.value.content == reply.value.text
    ensures reply.Ok? ==> (r.Ok? <==> ParseResponse(p, reply.value.text, req.moveId, req.round.number, decode, now).Ok?)
    ensures r.Ok? ==> r.value == ParseResponse(p, reply.value.text, req.moveId, req.round.number, decode, now).value
                                   .(inputTokens := reply.value.inputTokens, outputTokens := reply.value.outputTokens)
  {
    var response :- reply;
    var m :- ParseResponse(p, response.text, req.moveId, req.round.number, decode, now);
    Ok(m.(inputTokens := response.inputTokens, outputTokens := response.outputTokens))
  }
}

=== FILE: cost.dfy ===
/** Token accounting (think_tank/cost.py): the split of a finished debate's
    token usage between agents and the synthesizer, and the per-round token
    estimate made before a debate. Dollar amounts are not modelled; the
    price table is, with its fallbacks. */
module Cost {
  import opened Results
  import opened Schemas
  import opened Runner
  import Memory

  // ── Prices ──────────────────────────────────────────────

  /** Dollars per million input and output tokens. */
  datatype Price = Price(inputPerMillion: real, outputPerMillion: real)

  function KnownPrice(model: string): Option<Price> {
    if model == "claude-sonnet-4-6" then Some(Price(3.0, 15.0))
    else if model == "claude-opus-4-6" then Some(Price(15.0, 75.0))
    else if model == "claude-haiku-4-5-20251001" then Some(Price(0.80, 4.0))
    else None
  }

  /** A model outside the table is priced as sonnet for agents and as opus
      for the synthesizer. */
  const AgentFallback := Price(3.0, 15.0)
  const SynthFallback := Price(15.0, 75.0)

  /** `MODEL_PRICING.get(model, fallback)`. */
  function PriceOf(model: string, fallback: Price): (r: Price)
    ensures KnownPrice(model).None? ==> r == fallback
    ensures KnownPrice(model).Some? ==> r == KnownPrice(model).value
  {
    KnownPrice(model).GetOr(fallback)
  }

  // ── Actual usage ────────────────────────────────────────

  datatype Usage = Usage(agentInput: int, agentOutput: int, synthInput: int, synthOutput: int)

  predicate IsSynthesis(m: Move) {
    m.moveType == "synthesize"
  }

  function SynthInput(m: Move): int { if IsSynthesis(m) then m.inputTokens else 0 }
  function SynthOutput(m: Move): int { if IsSynthesis(m) then m.outputTokens else 0 }
  function AgentInput(m: Move): int { if IsSynthesis(m) then 0 else m.inputTokens }
  function AgentOutput(m: Move): int { if IsSynthesis(m) then 0 else m.outputTokens }

  /** The bucketing loop of `compute_actual_cost`: "synthesize" moves go to
      the synthesizer, every other type (error moves included) to the agents. */
  method ActualUsage(state: DebateState) returns (u: Usage)
    ensures u.synthInput == SumOver(state.moves, SynthInput)
    ensures u.synthOutput == SumOver(state.moves, SynthOutput)
    ensures u.agentInput == SumOver(state.moves, AgentInput)
    ensures u.agentOutput == SumOver(state.moves, AgentOutput)
  {
    u := Usage(0, 0, 0, 0);
    var i := 0;
    while i < |state.moves|
      invariant 0 <= i <= |state.moves|
      invariant u.synthInput == SumOver(state.moves[..i], SynthInput)
      invariant u.synthOutput == SumOver(state.moves[..i], SynthOutput)
      invariant u.agentInput == SumOver(state.moves[..i], AgentInput)
      invariant u.agentOutput == SumOver(state.moves[..i], AgentOutput)
    {
      var m := state.moves[i];
      assert state.moves[..i + 1] == state.moves[..i] + [m];
      SumOverAppend(state.moves[..i], m, SynthInput);
      SumOverAppend(state.moves[..i], m, SynthOutput);
      SumOverAppend(state.moves[..i], m, AgentInput);
      SumOverAppend(state.moves[..i], m, AgentOutput);
      if m.moveType == "synthesize" {
        u := u.(synthInput := u.synthInput + m.inputTokens, synthOutput := u.synthOutput + m.outputTokens);
      } else {
        u := u.(agentInput := u.agentInput + m.inputTokens, agentOutput := u.agentOutput + m.outputTokens);
      }
      i := i + 1;
    }
    assert state.moves[..i] == state.moves;
  }

  /** The two buckets add up to the whole: agent + synthesizer input is the
      input over all moves, and likewise for output. */
  lemma {:induction false} BucketsSplit(ms: seq<Move>)
    ensures SumOver(ms, AgentInput) + SumOver(ms, SynthInput) == SumOver(ms, InputTokens)
    ensures SumOver(ms, AgentOutput) + SumOver(ms, SynthOutput) == SumOver(ms, OutputTokens)
  {
    if |ms| > 0 {
      BucketsSplit(ms[1..]);
    }
  }

  /** For a debate the runner produced, the buckets add up to the totals
      the state records. */
  lemma UsageMatchesState(spec: DebateSpec, panel: Panel, model: string, synthModel: string,
                          useMemory: bool, store: Memory.Store, env: Environment)
    requires RunDebate(spec, panel, model, synthModel, useMemory, store, env).Ok?
    ensures var st := RunDebate(spec, panel, model, synthModel, useMemory, store, env).value.state;
      && SumOver(st.moves, AgentInput) + SumOver(st.moves, SynthInput) == st.totalInputTokens
      && SumOver(st.moves, AgentOutput) + SumOver(st.moves, SynthOutput) == st.totalOutputTokens
  {
    BucketsSplit(RunDebate(spec, panel, model, synthModel, useMemory, store, env).value.state.moves);
  }

  // ── The estimate ────────────────────────────────────────

  const AvgSystemPromptTokens: nat := 300
  const AvgProblemContextTokens: nat := 2000
  const AvgPriorMovesTokens: nat := 1500
  const AvgRoundPromptTokens: nat := 200
  const AvgOutputTokens: nat := 1200

  /** Input tokens estimated for one agent of an ordinary round. */
  const AgentInputEstimate: nat := AvgSystemPromptTokens + AvgProblemContextTokens + AvgPriorMovesTokens + AvgRoundPromptTokens

  /** A round is a synthesis round exactly when its agent list is
      ["synthesizer"]; a round mixing it with other agents is ordinary. */
  predicate IsSynthesisRound(r: RoundSpec) {
    r.agents == [SynthesizerId]
  }

  /** The running token estimates of `estimate_cost`. */
  datatype Tally = Tally(input: nat, output: nat, synthInput: nat, synthOutput: nat)

  /** One round: the synthesizer reads everything the agents wrote so far. */
  function EstimateRound(t: Tally, r: RoundSpec): (u: Tally)
    ensures IsSynthesisRound(r) ==>
      u.synthInput == t.synthInput + 2500 + t.output && u.synthOutput == t.synthOutput + 3600
      && u.input == t.input && u.output == t.output
    ensures !IsSynthesisRound(r) ==>
      u.input == t.input + 4000 * |r.agents| && u.output == t.output + 1200 * |r.agents|
      && u.synthInput == t.synthInput && u.synthOutput == t.synthOutput
  {
    if IsSynthesisRound(r) then
      var input := AvgSystemPromptTokens + AvgProblemContextTokens + t.output + AvgRoundPromptTokens;
      t.(synthInput := t.synthInput + input, synthOutput := t.synthOutput + AvgOutputTokens * 3)
    else
      var n := |r.agents|;
      t.(input := t.input + AgentInputEstimate * n, output := t.output + AvgOutputTokens * n)
  }

  function EstimateRounds(rounds: seq<RoundSpec>): Tally {
    if |rounds| == 0 then Tally(0, 0, 0, 0)
    else EstimateRound(EstimateRounds(rounds[..|rounds| - 1]), rounds[|rounds| - 1])
  }

  /** The agent slots of the ordinary rounds. */
  function OrdinarySlots(rounds: seq<RoundSpec>): nat {
    if |rounds| == 0 then 0
    else OrdinarySlots(rounds[..|rounds| - 1])
         + (if IsSynthesisRound(rounds[|rounds| - 1]) then 0 else |rounds[|rounds| - 1].agents|)
  }

  /** Agent estimates are 4000 input and 1200 output tokens per slot of an
      ordinary round. */
  lemma {:induction false} AgentEstimateClosedForm(rounds: seq<RoundSpec>)
    ensures EstimateRounds(rounds).input == 4000 * OrdinarySlots(rounds)
    ensures EstimateRounds(rounds).output == 1200 * OrdinarySlots(rounds)
  {
    if |rounds| > 0 {
      AgentEstimateClosedForm(rounds[..|rounds| - 1]);
    }
  }

  /** Without synthesis rounds, every slot is an ordinary agent call. */
  lemma {:induction false} OrdinaryOnly(rounds: seq<RoundSpec>)
    requires forall i :: 0 <= i < |rounds| ==> !IsSynthesisRound(rounds[i])
    ensures OrdinarySlots(rounds) == Slots(rounds)
    ensures EstimateRounds(rounds).synthInput == 0 && EstimateRounds(rounds).synthOutput == 0
  {
    if |rounds| > 0 {
      OrdinaryOnly(rounds[..|rounds| - 1]);
    }
  }

  datatype RoundDetail = RoundDetail(round: int, focus: string, agents: nat, isSynthesis: bool)

  datatype Estimate = Estimate(
    model: string, synthModel: string, totalRounds: nat, totalApiCalls: nat,
    inputTokens: nat, outputTokens: nat, agentPrice: Price, synthPrice: Price,
    rounds: seq<RoundDetail>)

  function Detail(r: RoundSpec): RoundDetail {
    RoundDetail(r.number, r.focus, |r.agents|, IsSynthesisRound(r))
  }

  /** `estimate_cost`, in tokens. */
  method EstimateCost(spec: DebateSpec, model: string, synthModel: string) returns (e: Estimate)
    ensures e.totalRounds == |spec.rounds| && e.totalApiCalls == Slots(spec.rounds)
    ensures var t := EstimateRounds(spec.rounds);
      e.inputTokens == t.input + t.synthInput && e.outputTokens == t.output + t.synthOutput
    ensures |e.rounds| == |spec.rounds|
    ensures forall i :: 0 <= i < |spec.rounds| ==> e.rounds[i] == Detail(spec.rounds[i])
    ensures e.agentPrice == PriceOf(model, AgentFallback) && e.synthPrice == PriceOf(synthModel, SynthFallback)
  {
    var t := Tally(0, 0, 0, 0);
    var details: seq<RoundDetail> := [];
    var calls := 0;
    var i := 0;
    while i < |spec.rounds|
      invariant 0 <= i <= |spec.rounds|
      invariant t == EstimateRounds(spec.rounds[..i])
      invariant calls == Slots(spec.rounds[..i])
      invariant |details| == i
      invariant forall k :: 0 <= k < i ==> details[k] == Detail(spec.rounds[k])
    {
      var rnd := spec.rounds[i];
      assert spec.rounds[..i + 1][..i] == spec.rounds[..i];
      t := EstimateRound(t, rnd);
      details := details + [Detail(rnd)];
      calls := calls + |rnd.agents|;
      i := i + 1;
    }
    assert spec.rounds[..i] == spec.rounds;
    e := Estimate(model, synthModel, |spec.rounds|, calls, t.input + t.synthInput, t.output + t.synthOutput,
                  PriceOf(model, AgentFallback), PriceOf(synthModel, SynthFallback), details);
  }

  /** The estimate's call count covers every move a run can make: it counts
      agent ids the runner skips as well. */
  lemma CallsBoundMoves(spec: DebateSpec, panel: Panel, model: string, synthModel: string,
                        useMemory: bool, store: Memory.Store, env: Environment)
    requires RunDebate(spec, panel, model, synthModel, useMemory, store, env).Ok?
    ensures |RunDebate(spec, panel, model, synthModel, useMemory, store, env).value.state.moves| <= Slots(spec.rounds)
  {
    TurnsCount(spec.rounds);
  }
}

=== FILE: json.dfy ===
/** JSON values as the source reads and writes them with `json.load`/`json.dump`
    (YAML documents loaded by `yaml.safe_load` are the same kind of value),
    and the typed field reads that `dict.get(key, default)` performs. A value of
    the wrong type in a field is reported as an error: the model's records are
    typed, the source's are not. */
module Json {
  import opened Results

  datatype Json =
    | JNull
    | JBool(b: bool)
    | JInt(i: int)
    | JReal(r: real)
    | JStr(s: string)
    | JArr(items: seq<Json>)
    | JObj(fields: map<string, Json>)

  type Fields = map<string, Json>

  const NotAnObject := "AttributeError: value has no attribute 'get'"

  /** Calling `.get` on a value that is not a dict raises AttributeError. */
  function AsObject(j: Json): (r: Result<Fields>)
    ensures r.Ok? <==> j.JObj?
    ensures r.Ok? ==> r.value == j.fields
    ensures r.Err? ==> r.error == NotAnObject
  {
    if j.JObj? then Ok(j.fields) else Err(NotAnObject)
  }

  function AsString(j: Json): (r: Result<string>)
    ensures r.Ok? <==> j.JStr?
    ensures r.Ok? ==> r.value == j.s
  {
    if j.JStr? then Ok(j.s) else Err("value is not a string")
  }

  /** A number as Python's arithmetic sees it: an int is used as a real. */
  function AsReal(j: Json): (r: Result<real>)
    ensures r.Ok? <==> (j.JReal? || j.JInt?)
  {
    match j
    case JReal(x) => Ok(x)
    case JInt(i) => Ok(i as real)
    case _ => Err("value is not a number")
  }

  // What a typed read of `key` yields: the value stored under the key, or
  // the default when the key is absent.

  predicate StrAt(o: Fields, key: string, default: string, v: string) {
    if key in o then o[key] == JStr(v) else v == default
  }

  predicate IntAt(o: Fields, key: string, default: int, v: int) {
    if key in o then o[key] == JInt(v) else v == default
  }

  predicate RealAt(o: Fields, key: string, default: real, v: real) {
    if key in o then AsReal(o[key]) == Ok(v) else v == default
  }

  ghost predicate ListAt<T>(o: Fields, key: string, dec: Json -> Result<T>, v: seq<T>) {
    if key in o then o[key].JArr? && DecodeAll(o[key].items, dec) == Ok(v) else v == []
  }

  // When a typed read of `key` succeeds: the key is absent or holds a value
  // of the type.

  predicate StrOk(o: Fields, key: string) {
    key in o ==> o[key].JStr?
  }

  predicate IntOk(o: Fields, key: string) {
    key in o ==> o[key].JInt?
  }

  predicate RealOk(o: Fields, key: string) {
    key in o ==> o[key].JReal? || o[key].JInt?
  }

  predicate ListOk<T>(o: Fields, key: string, dec: Json -> Result<T>) {
    key in o ==> o[key].JArr? && DecodeAll(o[key].items, dec).Ok?
  }

  function GetStr(o: Fields, key: string, default: string): (r: Result<string>)
    ensures key !in o ==> r == Ok(default)
    ensures key in o ==> r == AsString(o[key])
    ensures r.Ok? <==> StrOk(o, key)
    ensures r.Ok? ==> StrAt(o, key, default, r.value)
  {
    if key in o then AsString(o[key]) else Ok(default)
  }

  function GetInt(o: Fields, key: string, default: int): (r: Result<int>)
    ensures key !in o ==> r == Ok(default)
    ensures key in o ==> (r.Ok? <==> o[key].JInt?) && (r.Ok? ==> r.value == o[key].i)
    ensures r.Ok? <==> IntOk(o, key)
    ensures r.Ok? ==> IntAt(o, key, default, r.value)
  {
    if key !in o then Ok(default)
    else if o[key].JInt? then Ok(o[key].i)
    else Err("field '" + key + "' is not an integer")
  }

  function GetReal(o: Fields, key: string, default: real): (r: Result<real>)
    ensures key !in o ==> r == Ok(default)
    ensures key in o ==> r == AsReal(o[key])
    ensures r.Ok? <==> RealOk(o, key)
    ensures r.Ok? ==> RealAt(o, key, default, r.value)
  {
    if key in o then AsReal(o[key]) else Ok(default)
  }

  function GetBool(o: Fields, key: string, default: bool): (r: Result<bool>)
    ensures key !in o ==> r == Ok(default)
    ensures key in o ==> (r.Ok? <==> o[key].JBool?) && (r.Ok? ==> r.value == o[key].b)
  {
    if key !in o then Ok(default)
    else if o[key].JBool? then Ok(o[key].b)
    else Err("field '" + key + "' is not a boolean")
  }

  /** An optional boolean stored as `true`/`false`/`null`. */
  function GetOptBool(o: Fields, key: string): (r: Result<Option<bool>>)
    ensures key !in o ==> r == Ok(None)
  {
    if key !in o then Ok(None)
    else match o[key]
      case JNull => Ok(None)
      case JBool(b) => Ok(Some(b))
      case _ => Err("field '" + key + "' is not a boolean or null")
  }

  /** A keyword argument the constructor requires: a missing key raises TypeError. */
  function Required<T>(o: Fields, key: string, dec: Json -> Result<T>): (r: Result<T>)
    ensures key !in o ==> r.Err?
    ensures key in o ==> r == dec(o[key])
  {
    if key in o then dec(o[key]) else Err("TypeError: missing required argument '" + key + "'")
  }

  /** Decodes every element in order; the first failure is the result. */
  function DecodeAll<T>(items: seq<Json>, dec: Json -> Result<T>): (r: Result<seq<T>>)
    ensures r.Ok? <==> forall i :: 0 <= i < |items| ==> dec(items[i]).Ok?
    ensures r.Ok? ==> |r.value| == |items| && forall i :: 0 <= i < |items| ==> dec(items[i]) == Ok(r.value[i])
  {
    if |items| == 0 then Ok([])
    else
      var x :- dec(items[0]);
      var rest :- DecodeAll(items[1..], dec);
      assert forall i :: 1 <= i < |items| ==> items[i] == items[1..][i - 1];
      Ok([x] + rest)
  }

  function EncodeAll<T>(xs: seq<T>, enc: T -> Json): (r: seq<Json>)
    ensures |r| == |xs|
    ensures forall i :: 0 <= i < |xs| ==> r[i] == enc(xs[i])
  {
    seq(|xs|, i requires 0 <= i < |xs| => enc(xs[i]))
  }

  /** Decoding a list of encodings gives back the list, in order, whenever
      decoding inverts encoding for single elements. */
  lemma DecodeEncodeAll<T>(xs: seq<T>, enc: T -> Json, dec: Json -> Result<T>)
    requires forall x :: dec(enc(x)) == Ok(x)
    ensures DecodeAll(EncodeAll(xs, enc), dec) == Ok(xs)
  {
    var items := EncodeAll(xs, enc);
    assert forall i :: 0 <= i < |items| ==> dec(items[i]) == Ok(xs[i]);
    var r := DecodeAll(items, dec);
    assert r.Ok?;
    assert forall i :: 0 <= i < |xs| ==> r.value[i] == xs[i];
    assert r.value == xs;
  }

  function StrList(xs: seq<string>): Json {
    JArr(EncodeAll(xs, s => JStr(s)))
  }

  /** A list whose elements are decoded in order; a missing key gives the empty list. */
  function GetList<T>(o: Fields, key: string, dec: Json -> Result<T>): (r: Result<seq<T>>)
    ensures key !in o ==> r == Ok([])
    ensures key in o && o[key].JArr? ==> r == DecodeAll(o[key].items, dec)
    ensures key in o && !o[key].JArr? ==> r.Err?
    ensures r.Ok? <==> ListOk(o, key, dec)
    ensures r.Ok? ==> ListAt(o, key, dec, r.value)
  {
    if key !in o then Ok([])
    else if o[key].JArr? then DecodeAll(o[key].items, dec)
    else Err("field '" + key + "' is not a list")
  }

  /** A list written with `EncodeAll` reads back unchanged. */
  lemma GetListRoundTrip<T>(o: Fields, key: string, xs: seq<T>, enc: T -> Json, dec: Json -> Result<T>)
    requires forall x :: dec(enc(x)) == Ok(x)
    requires key in o && o[key] == JArr(EncodeAll(xs, enc))
    ensures GetList(o, key, dec) == Ok(xs)
  {
    DecodeEncodeAll(xs, enc, dec);
  }

  lemma StrListRoundTrip(o: Fields, key: string, xs: seq<string>)
    requires key in o && o[key] == StrList(xs)
    ensures GetList(o, key, AsString) == Ok(xs)
  {
    GetListRoundTrip(o, key, xs, s => JStr(s), AsString);
  }

  /** Decodes every value of an object; the result has the same keys. */
  function DecodeFields<T>(fields: Fields, dec: Json -> Result<T>): (r: Result<map<string, T>>)
    ensures r.Ok? <==> forall k :: k in fields ==> dec(fields[k]).Ok?
    ensures r.Ok? ==> r.value.Keys == fields.Keys
    ensures r.Ok? ==> forall k :: k in fields ==> dec(fields[k]) == Ok(r.value[k])
  {
    if forall k :: k in fields ==> dec(fields[k]).Ok? then
      Ok(map k | k in fields :: dec(fields[k]).value)
    else Err("a field value is malformed")
  }

  function EncodeFields<T>(m: map<string, T>, enc: T -> Json): Fields {
    map k | k in m :: enc(m[k])
  }

  /** Decoding an encoded map gives it back whenever decoding inverts
      encoding for single values. */
  lemma DecodeEncodeFields<T>(m: map<string, T>, enc: T -> Json, dec: Json -> Result<T>)
    requires forall x :: dec(enc(x)) == Ok(x)
    ensures DecodeFields(EncodeFields(m, enc), dec) == Ok(m)
  {
    var fields := EncodeFields(m, enc);
    assert forall k :: k in fields ==> dec(fields[k]) == Ok(m[k]);
    var r := DecodeFields(fields, dec);
    assert r.Ok?;
    assert forall k :: k in m ==> r.value[k] == m[k];
    assert r.value == m;
  }
}

=== FILE: loader.dfy ===
/** Panels and debate specs read from YAML documents, and the check of a
    spec against a panel (think_tank/loader.py). The YAML parser is not
    modelled: a loaded document is a `Json` value. */
module Loader {
  import opened Results
  import opened Text
  import opened Json
  import opened Schemas
  import opened Runner

  // ── Panels ──────────────────────────────────────────────

  /** Python's `str(x)` for the scalar values a YAML id can hold. */
  function PyStr(j: Json): (r: Result<string>)
    ensures j.JStr? ==> r == Ok(j.s)
    ensures j.JInt? ==> r == Ok(IntToString(j.i))
  {
    match j
    case JStr(s) => Ok(s)
    case JInt(i) => Ok(IntToString(i))
    case JBool(b) => Ok(if b then "True" else "False")
    case JNull => Ok("None")
    case _ => Err("str() of a float, list or mapping is not modelled")
  }

  /** One expert entry. The name-derived id is computed whether or not an
      id is given, so a name that is not a string fails either way. */
  function ExpertFromYaml(e: Json): (r: Result<Expert>)
    ensures r.Ok? ==> e.JObj?
    ensures r.Ok? && "name" in e.fields ==> e.fields["name"].JStr? && r.value.name == e.fields["name"].s
    ensures r.Ok? && "name" !in e.fields ==> r.value.name == "Unknown"
    ensures r.Ok? && "id" !in e.fields && "name" in e.fields ==>
      r.value.id == SpacesToUnderscores(Lower(e.fields["name"].s))
    ensures r.Ok? && "id" !in e.fields && "name" !in e.fields ==> r.value.id == ""
    ensures r.Ok? && "id" in e.fields && e.fields["id"].JStr? ==> r.value.id == e.fields["id"].s
    ensures r.Ok? && "title" !in e.fields && "role" in e.fields ==>
      e.fields["role"].JStr? && r.value.title == e.fields["role"].s
    ensures r.Ok? && "title" !in e.fields && "role" !in e.fields ==> r.value.title == ""
    ensures r.Ok? && "background" !in e.fields ==> r.value.background == ""
    ensures r.Ok? && "bias" !in e.fields ==> r.value.bias == ""
    ensures r.Ok? && "lens" !in e.fields ==> r.value.lens == ""
    ensures r.Ok? && "domain" !in e.fields ==> r.value.domain == ""
  {
    var o :- AsObject(e);
    var rawName :- GetStr(o, "name", "");
    var id :- if "id" in o then PyStr(o["id"]) else Ok(SpacesToUnderscores(Lower(rawName)));
    var name :- GetStr(o, "name", "Unknown");
    var title :- if "title" in o then AsString(o["title"]) else GetStr(o, "role", "");
    var background :- GetStr(o, "background", "");
    var bias :- GetStr(o, "bias", "");
    var lens :- GetStr(o, "lens", "");
    var domain :- GetStr(o, "domain", "");
    Ok(Expert(id, name, title, background, bias, lens, domain))
  }

  /** `load_panel` on the loaded document; `stem` is the file name's stem. */
  function LoadPanel(data: Json, stem: string): (r: Result<Panel>)
    ensures r.Ok? ==> data.JObj?
    ensures r.Ok? && "name" !in data.fields ==> r.value.name == stem
    ensures r.Ok? && "experts" !in data.fields ==> r.value.experts == []
    ensures r.Ok? && "experts" in data.fields ==>
      && data.fields["experts"].JArr?
      && |r.value.experts| == |data.fields["experts"].items|
      && forall i :: 0 <= i < |r.value.experts| ==> ExpertFromYaml(data.fields["experts"].items[i]) == Ok(r.value.experts[i])
  {
    var o :- AsObject(data);
    var name :- GetStr(o, "name", stem);
    var description :- GetStr(o, "description", "");
    var experts :- GetList(o, "experts", ExpertFromYaml);
    Ok(Panel(name, description, experts))
  }

  /** `Expert.to_dict`. */
  function ExpertToJson(e: Expert): Json {
    JObj(map["id" := JStr(e.id), "name" := JStr(e.name), "title" := JStr(e.title),
             "background" := JStr(e.background), "bias" := JStr(e.bias),
             "lens" := JStr(e.lens), "domain" := JStr(e.domain)])
  }

  /** `Panel.to_dict`. */
  function PanelToJson(p: Panel): Json {
    JObj(map["name" := JStr(p.name), "description" := JStr(p.description),
             "experts" := JArr(EncodeAll(p.experts, ExpertToJson))])
  }

  lemma ExpertRoundTrip(e: Expert)
    ensures ExpertFromYaml(ExpertToJson(e)) == Ok(e)
  {
  }

  /** A dumped panel loads back unchanged, whatever the file is called. */
  lemma PanelRoundTrip(p: Panel, stem: string)
    ensures LoadPanel(PanelToJson(p), stem) == Ok(p)
  {
    forall e | true
      ensures ExpertFromYaml(ExpertToJson(e)) == Ok(e)
    {
      ExpertRoundTrip(e);
    }
    GetListRoundTrip(PanelToJson(p).fields, "experts", p.experts, ExpertToJson, ExpertFromYaml);
  }

  /** An entry in the role-based format, without an id, gets its id from
      the name and its title from the role. */
  lemma RoleFormatDefaults()
    ensures ExpertFromYaml(JObj(map["name" := JStr("Gen Test"), "role" := JStr("DIA Director")]))
         == Ok(Expert("gen_test", "Gen Test", "DIA Director", "", "", "", ""))
  {
    var r := ExpertFromYaml(JObj(map["name" := JStr("Gen Test"), "role" := JStr("DIA Director")]));
    assert r.Ok?;
    assert Lower("Gen Test") == "gen test";
    assert SpacesToUnderscores("gen test") == "gen_test";
  }

  // ── Specs ───────────────────────────────────────────────

  /** One round entry; `index` is its 0-based position in the list. */
  function RoundFromYaml(r: Json, index: nat): (rs: Result<RoundSpec>)
    ensures rs.Ok? ==> r.JObj?
    ensures rs.Ok? && "number" !in r.fields ==> rs.value.number == index + 1
    ensures rs.Ok? && "agents" !in r.fields ==> rs.value.agents == []
  {
    var o :- AsObject(r);
    var number :- GetInt(o, "number", index + 1);
    var focus :- GetStr(o, "focus", "");
    var question :- GetStr(o, "question", "");
    var agents :- GetList(o, "agents", AsString);
    Ok(RoundSpec(number, focus, question, agents))
  }

  /** The rounds in file order, each numbered by its position when it has
      no number of its own. */
  function LoadRounds(items: seq<Json>): (r: Result<seq<RoundSpec>>)
    ensures r.Ok? <==> forall i :: 0 <= i < |items| ==> RoundFromYaml(items[i], i).Ok?
    ensures r.Ok? ==> |r.value| == |items|
    ensures r.Ok? ==> forall i :: 0 <= i < |items| ==> RoundFromYaml(items[i], i) == Ok(r.value[i])
  {
    if |items| == 0 then Ok([])
    else
      var init := items[..|items| - 1];
      assert forall i :: 0 <= i < |init| ==> init[i] == items[i];
      var rounds :- LoadRounds(init);
      var last :- RoundFromYaml(items[|items| - 1], |rounds|);
      Ok(rounds + [last])
  }

  /** `load_spec` on the loaded document. */
  function LoadSpec(data: Json, stem: string): (r: Result<DebateSpec>)
    ensures r.Ok? ==> data.JObj?
    ensures r.Ok? && "title" !in data.fields ==> r.value.title == stem
    ensures r.Ok? && "rounds" !in data.fields ==> r.value.rounds == []
    ensures r.Ok? && "rounds" in data.fields ==>
      data.fields["rounds"].JArr? && LoadRounds(data.fields["rounds"].items) == Ok(r.value.rounds)
  {
    var o :- AsObject(data);
    var title :- GetStr(o, "title", stem);
    var context :- GetStr(o, "context", "");
    var synthesizerPrompt :- GetStr(o, "synthesizer_prompt", "");
    var rounds :- if "rounds" !in o then Ok([])
                  else if o["rounds"].JArr? then LoadRounds(o["rounds"].items)
                  else Err("rounds is not a list");
    Ok(DebateSpec(title, context, rounds, synthesizerPrompt))
  }

  /** A round given without a number is numbered by its 1-based position. */
  lemma RoundNumbering(data: Json, stem: string, i: nat)
    requires LoadSpec(data, stem).Ok? && "rounds" in data.fields
    requires i < |data.fields["rounds"].items| && "number" !in data.fields["rounds"].items[i].fields
    ensures i < |LoadSpec(data, stem).value.rounds|
    ensures LoadSpec(data, stem).value.rounds[i].number == i + 1
  {
  }

  /** `RoundSpec.to_dict`. */
  function RoundToJson(r: RoundSpec): Json {
    JObj(map["number" := JInt(r.number), "focus" := JStr(r.focus),
             "question" := JStr(r.question), "agents" := StrList(r.agents)])
  }

  /** `DebateSpec.to_dict`. */
  function SpecToJson(s: DebateSpec): Json {
    JObj(map["title" := JStr(s.title), "context" := JStr(s.context),
             "rounds" := JArr(EncodeAll(s.rounds, RoundToJson)),
             "synthesizer_prompt" := JStr(s.synthesizerPrompt)])
  }

  lemma RoundRoundTrip(r: RoundSpec, index: nat)
    ensures RoundFromYaml(RoundToJson(r), index) == Ok(r)
  {
    StrListRoundTrip(RoundToJson(r).fields, "agents", r.agents);
  }

  /** A dumped spec loads back unchanged. */
  lemma SpecRoundTrip(s: DebateSpec, stem: string)
    ensures LoadSpec(SpecToJson(s), stem) == Ok(s)
  {
    var items := EncodeAll(s.rounds, RoundToJson);
    forall i | 0 <= i < |items|
      ensures RoundFromYaml(items[i], i) == Ok(s.rounds[i])
    {
      RoundRoundTrip(s.rounds[i], i);
    }
    var r := LoadRounds(items);
    assert r.Ok?;
    assert r.value == s.rounds;
  }

  // ── Validation ──────────────────────────────────────────

  /** The distinct ids of a list of experts. */
  function IdsOf(es: seq<Expert>): (r: set<string>)
    ensures forall id :: id in r <==> exists j :: 0 <= j < |es| && es[j].id == id
  {
    if |es| == 0 then {}
    else
      var init := es[..|es| - 1];
      assert forall j :: 0 <= j < |init| ==> init[j] == es[j];
      IdsOf(init) + {es[|es| - 1].id}
  }

  /** There are never more distinct ids than experts, and exactly as many
      when no two experts share an id. */
  lemma {:induction false} IdsCount(es: seq<Expert>)
    ensures |IdsOf(es)| <= |es|
    ensures (forall i, j :: 0 <= i < j < |es| ==> es[i].id != es[j].id) ==> |IdsOf(es)| == |es|
  {
    if |es| > 0 {
      var init := es[..|es| - 1];
      IdsCount(init);
      var last := es[|es| - 1].id;
      if forall i, j :: 0 <= i < j < |es| ==> es[i].id != es[j].id {
        assert last !in IdsOf(init);
      }
    }
  }

  /** Neither the synthesizer nor a panel id: the runner will skip it. */
  predicate Flagged(panel: Panel, id: string) {
    id != SynthesizerId && id !in ListIds(panel)
  }

  function Warning(t: Turn, panel: Panel): string {
    var head := "Round " + IntToString(t.round.number) + ": agent '";
    var tail := "' not found in panel '" + panel.name + "' (available: "
                + NatToString(|IdsOf(panel.experts)|) + " experts)";
    head + t.agentId + tail
  }

  /** The flagged turns, in order. */
  function FlaggedTurns(panel: Panel, turns: seq<Turn>): (r: seq<Turn>)
    ensures forall k :: 0 <= k < |r| ==> Flagged(panel, r[k].agentId)
    ensures r == [] <==> forall k :: 0 <= k < |turns| ==> !Flagged(panel, turns[k].agentId)
  {
    if |turns| == 0 then []
    else
      var init := turns[..|turns| - 1];
      var last := turns[|turns| - 1];
      assert forall k :: 0 <= k < |init| ==> init[k] == turns[k];
      if Flagged(panel, last.agentId) then FlaggedTurns(panel, init) + [last] else FlaggedTurns(panel, init)
  }

  /** Flagging keeps order: the flagged turns of a concatenation are those of
      each part, one after the other. */
  lemma {:induction false} FlaggedTurnsSplit(panel: Panel, a: seq<Turn>, b: seq<Turn>)
    ensures FlaggedTurns(panel, a + b) == FlaggedTurns(panel, a) + FlaggedTurns(panel, b)
    decreases |b|
  {
    if |b| == 0 {
      assert a + b == a;
    } else {
      var init := b[..|b| - 1];
      assert (a + b)[..|a + b| - 1] == a + init;
      assert (a + b)[|a + b| - 1] == b[|b| - 1];
      FlaggedTurnsSplit(panel, a, init);
    }
  }

  /** A single turn is kept exactly when it is flagged. */
  lemma FlaggedTurnsOne(panel: Panel, t: Turn)
    ensures FlaggedTurns(panel, [t]) == if Flagged(panel, t.agentId) then [t] else []
  {
    assert [t][..0] == [];
  }

  /** `validate_spec_against_panel`: one warning per flagged occurrence, in
      round-then-agent order. */
  function Validate(spec: DebateSpec, panel: Panel): (r: seq<string>)
    ensures |r| == |FlaggedTurns(panel, Turns(spec.rounds))|
    ensures forall k :: 0 <= k < |r| ==> r[k] == Warning(FlaggedTurns(panel, Turns(spec.rounds))[k], panel)
  {
    var flagged := FlaggedTurns(panel, Turns(spec.rounds));
    seq(|flagged|, k requires 0 <= k < |flagged| => Warning(flagged[k], panel))
  }

  /** The warnings for consecutive rounds follow each other. */
  lemma ValidateSplit(spec: DebateSpec, panel: Panel, a: seq<RoundSpec>, b: seq<RoundSpec>)
    ensures Validate(spec.(rounds := a + b), panel)
         == Validate(spec.(rounds := a), panel) + Validate(spec.(rounds := b), panel)
  {
    TurnsSplit(a, b);
    FlaggedTurnsSplit(panel, Turns(a), Turns(b));
  }

  /** A round listing one agent warns once, about that agent, exactly when it
      is flagged. */
  lemma ValidateOne(spec: DebateSpec, panel: Panel, id: string)
    requires |spec.rounds| == 1 && spec.rounds[0].agents == [id]
    ensures Validate(spec, panel)
         == if Flagged(panel, id) then [Warning(Turn(spec.rounds[0], id), panel)] else []
  {
    var rnd := spec.rounds[0];
    assert spec.rounds[..0] == [];
    assert Turns(spec.rounds) == [Turn(rnd, id)];
    FlaggedTurnsOne(panel, Turn(rnd, id));
  }

  /** Each warning names the offending agent and its round number. */
  lemma WarningMentions(t: Turn, panel: Panel)
    ensures IsSubstring(t.agentId, Warning(t, panel))
    ensures IsSubstring(IntToString(t.round.number), Warning(t, panel))
  {
    var n := IntToString(t.round.number);
    var head := "Round " + n + ": agent '";
    var tail := "' not found in panel '" + panel.name + "' (available: "
                + NatToString(|IdsOf(panel.experts)|) + " experts)";
    OccursInConcat(head, t.agentId, tail);
    OccursInConcat("Round ", n, ": agent '");
    OccursInLonger(head, n, 6, t.agentId);
    OccursInLonger(head + t.agentId, n, 6, tail);
  }

  /** An agent slot of round i is a turn of the debate. */
  lemma {:induction false} SlotIsTurn(rounds: seq<RoundSpec>, i: nat, j: nat)
    requires i < |rounds| && j < |rounds[i].agents|
    ensures exists k :: 0 <= k < |Turns(rounds)| && Turns(rounds)[k] == Turn(rounds[i], rounds[i].agents[j])
  {
    var init := rounds[..|rounds| - 1];
    if i == |rounds| - 1 {
      var k := |Turns(init)| + j;
      assert Turns(rounds)[k] == RoundTurns(rounds[i])[j];
    } else {
      SlotIsTurn(init, i, j);
      var k :| 0 <= k < |Turns(init)| && Turns(init)[k] == Turn(init[i], init[i].agents[j]);
      assert Turns(rounds)[k] == Turns(init)[k];
    }
  }

  /** Validation passes exactly when every agent of every round is the
      synthesizer or a panel id. */
  lemma ValidIff(spec: DebateSpec, panel: Panel)
    ensures Validate(spec, panel) == [] <==>
      forall i, j :: 0 <= i < |spec.rounds| && 0 <= j < |spec.rounds[i].agents| ==>
        !Flagged(panel, spec.rounds[i].agents[j])
  {
    var turns := Turns(spec.rounds);
    if Validate(spec, panel) == [] {
      forall i, j | 0 <= i < |spec.rounds| && 0 <= j < |spec.rounds[i].agents|
        ensures !Flagged(panel, spec.rounds[i].agents[j])
      {
        SlotIsTurn(spec.rounds, i, j);
      }
    } else {
      var k :| 0 <= k < |turns| && Flagged(panel, turns[k].agentId);
      TurnFromSlot(spec.rounds, k);
    }
  }

  /** Every turn of the debate comes from an agent slot of some round. */
  lemma {:induction false} TurnFromSlot(rounds: seq<RoundSpec>, k: nat)
    requires k < |Turns(rounds)|
    ensures exists i, j ::
      0 <= i < |rounds| && 0 <= j < |rounds[i].agents| && Turns(rounds)[k] == Turn(rounds[i], rounds[i].agents[j])
  {
    var init := rounds[..|rounds| - 1];
    var i := |rounds| - 1;
    if k < |Turns(init)| {
      TurnFromSlot(init, k);
      var i', j :| 0 <= i' < |init| && 0 <= j < |init[i'].agents| && Turns(init)[k] == Turn(init[i'], init[i'].agents[j]);
      assert Turns(rounds)[k] == Turns(init)[k] && init[i'] == rounds[i'];
    } else {
      var j := k - |Turns(init)|;
      assert Turns(rounds)[k] == RoundTurns(rounds[i])[j];
    }
  }

  /** The ids validation flags are exactly those the runner's roster lacks:
      each turn is either warned about or played, never both. */
  lemma {:induction false} FlaggedIffSkipped(panel: Panel, model: string, synthModel: string, turns: seq<Turn>)
    ensures forall k :: 0 <= k < |turns| ==>
      (Flagged(panel, turns[k].agentId) <==> turns[k].agentId !in AgentTable(panel, model, synthModel))
    ensures |FlaggedTurns(panel, turns)| + |Resolved(AgentTable(panel, model, synthModel), turns)| == |turns|
  {
    if |turns| > 0 {
      FlaggedIffSkipped(panel, model, synthModel, turns[..|turns| - 1]);
    }
  }
}

=== FILE: memory.dfy ===
/** The persistent memory of think_tank/memory.py — lessons and forecasts —
    over in-memory file contents instead of a directory. Each file is its
    parsed JSON value, or `None` when the file does not exist. */
module Memory {
  import opened Results
  import opened Text
  import opened Json
  import opened Payload
  import opened Schemas
  import opened RealMath

  /** The memory directory: _bootstrap.json, lessons.json, forecasts.json and
      performance.json. */
  datatype Store = Store(
    bootstrap: Option<Json>, lessons: Option<Json>,
    forecasts: Option<Json>, performance: Option<Json>)

  // ── Lists on disk ───────────────────────────────────────

  /** `_load_json_list` guarded by the callers' existence check: a missing file
      or a file whose top-level value is not a list contributes nothing. */
  function LoadJsonList<T>(file: Option<Json>, dec: Json -> Result<T>): (r: Result<seq<T>>)
    ensures file.None? ==> r == Ok([])
    ensures file.Some? && !file.value.JArr? ==> r == Ok([])
    ensures file.Some? && file.value.JArr? ==> r == DecodeAll(file.value.items, dec)
  {
    match file
    case None => Ok([])
    case Some(JArr(items)) => DecodeAll(items, dec)
    case Some(_) => Ok([])
  }

  /** What `save_*` writes: the list of each record's `to_dict`. */
  function ListFile<T>(xs: seq<T>, enc: T -> Json): Json {
    JArr(EncodeAll(xs, enc))
  }

  /** Saving a list and loading it back gives the list, whenever single
      records survive the trip. */
  lemma ListFileRoundTrip<T>(xs: seq<T>, enc: T -> Json, dec: Json -> Result<T>)
    requires forall x :: dec(enc(x)) == Ok(x)
    ensures LoadJsonList(Some(ListFile(xs, enc)), dec) == Ok(xs)
  {
    DecodeEncodeAll(xs, enc, dec);
  }

  // ── Lessons ─────────────────────────────────────────────

  /** `Lesson.from_dict` with `now` as the clock reading for a missing created_at. */
  function LessonDecoder(now: string): Json -> Result<Lesson> {
    j => LessonFromJson(j, now)
  }

  function LessonFile(ls: seq<Lesson>): Json {
    ListFile(ls, LessonToJson)
  }

  lemma LessonFileRoundTrip(ls: seq<Lesson>, now: string)
    ensures LoadJsonList(Some(LessonFile(ls)), LessonDecoder(now)) == Ok(ls)
  {
    forall l: Lesson
      ensures LessonDecoder(now)(LessonToJson(l)) == Ok(l)
    {
      LessonRoundTrip(l, now);
    }
    ListFileRoundTrip(ls, LessonToJson, LessonDecoder(now));
  }

  /** `load_lessons`: bootstrap lessons first, then learned lessons. */
  function LoadLessons(s: Store, now: string): (r: Result<seq<Lesson>>)
    ensures r.Ok? <==> LoadJsonList(s.bootstrap, LessonDecoder(now)).Ok? && LoadJsonList(s.lessons, LessonDecoder(now)).Ok?
  {
    var boot :- LoadJsonList(s.bootstrap, LessonDecoder(now));
    var learned :- LoadJsonList(s.lessons, LessonDecoder(now));
    Ok(boot + learned)
  }

  /** Saved bootstrap and learned lists load back concatenated, bootstrap first. */
  lemma LoadSavedLessons(s: Store, boot: seq<Lesson>, learned: seq<Lesson>, now: string)
    requires s.bootstrap == Some(LessonFile(boot)) && s.lessons == Some(LessonFile(learned))
    ensures LoadLessons(s, now) == Ok(boot + learned)
  {
    LessonFileRoundTrip(boot, now);
    LessonFileRoundTrip(learned, now);
  }

  /** A missing bootstrap file, or one holding a non-list, adds nothing. */
  lemma AbsentBootstrapAddsNothing(s: Store, learned: seq<Lesson>, now: string)
    requires s.bootstrap.None? || !s.bootstrap.value.JArr?
    requires s.lessons == Some(LessonFile(learned))
    ensures LoadLessons(s, now) == Ok(learned)
  {
    LessonFileRoundTrip(learned, now);
    assert [] + learned == learned;
  }

  /** A missing lessons file, or one holding a non-list, adds nothing. */
  lemma AbsentLearnedAddsNothing(s: Store, boot: seq<Lesson>, now: string)
    requires s.bootstrap == Some(LessonFile(boot))
    requires s.lessons.None? || !s.lessons.value.JArr?
    ensures LoadLessons(s, now) == Ok(boot)
  {
    LessonFileRoundTrip(boot, now);
    assert boot + [] == boot;
  }

  // ── Memory context ──────────────────────────────────────

  /** How many of the most recent lessons `load_context` shows. */
  const ContextWindow: nat := 20

  function ContextLine(l: Lesson): (r: string)
    ensures |r| > 0
  {
    "- [" + l.category + "] " + l.text
  }

  function ContextLines(ls: seq<Lesson>): (r: seq<string>)
    ensures |r| == |ls|
    ensures forall i :: 0 <= i < |ls| ==> r[i] == ContextLine(ls[i])
  {
    seq(|ls|, i requires 0 <= i < |ls| => ContextLine(ls[i]))
  }

  /** The text injected into agent prompts: empty exactly when there are no
      lessons, otherwise one line per lesson of the last twenty. */
  function ContextText(ls: seq<Lesson>): (r: string)
    ensures r == "" <==> |ls| == 0
  {
    if |ls| == 0 then ""
    else
      var lines := ContextLines(Last(ls, ContextWindow));
      assert |Join(lines, "\n")| >= |lines[0]|;
      Join(lines, "\n")
  }

  /** `load_context`. */
  function LoadContext(s: Store, now: string): (r: Result<string>)
    ensures r.Ok? <==> LoadLessons(s, now).Ok?
    ensures r.Ok? ==> (r.value == "" <==> LoadLessons(s, now).value == [])
  {
    var ls :- LoadLessons(s, now);
    Ok(ContextText(ls))
  }

  /** Each of the last twenty lessons appears in the context with its category. */
  lemma ContextShowsRecent(ls: seq<Lesson>, i: nat)
    requires i < |ls| && |ls| - i <= ContextWindow
    ensures IsSubstring(ContextLine(ls[i]), ContextText(ls))
    ensures IsSubstring(ls[i].text, ContextText(ls))
  {
    var recent := Last(ls, ContextWindow);
    var k := i - (|ls| - |recent|);
    assert recent[k] == ls[i];
    JoinContainsPart(ContextLines(recent), "\n", k);
    var line := ContextLine(ls[i]);
    OccursInConcat("- [" + ls[i].category + "] ", ls[i].text, "");
    assert ("- [" + ls[i].category + "] ") + ls[i].text + "" == line;
    SubstringTransitive(ls[i].text, line, ContextText(ls));
  }

  /** Lessons older than the last twenty have no effect on the context. */
  lemma ContextIgnoresOlder(older: seq<Lesson>, recent: seq<Lesson>)
    requires |recent| >= ContextWindow
    ensures ContextText(older + recent) == ContextText(recent)
  {
    var all := older + recent;
    assert Last(all, ContextWindow) == Last(recent, ContextWindow) by {
      assert all[|all| - ContextWindow..] == recent[|recent| - ContextWindow..];
    }
  }

  // ── Lesson extraction ───────────────────────────────────

  /** How an extraction ends: the lessons file rewritten with the new lessons
      appended; an error inside the caught set (JSONDecodeError, ValueError),
      printed as a warning; or an error that propagates to the caller. */
  datatype Extraction =
    | Saved(store: Store, added: seq<Lesson>)
    | Skipped(reason: string)
    | Raised(reason: string)

  function Classify(error: string): (r: Extraction)
    ensures r.Skipped? <==> IsValueError(error)
    ensures !r.Saved?
  {
    if IsValueError(error) then Skipped(error) else Raised(error)
  }

  /** One lesson built from one element of the model's payload. `genId` is the
      timestamp id `L_<yyyymmddHHMMSS>`, `now` the creation time. */
  function NewLesson(rl: Json, title: string, genId: string, now: string): (r: Result<Lesson>)
    ensures r.Ok? ==> rl.JObj?
    ensures r.Ok? ==> r.value.sourceDebate == title && r.value.sourceRound == 0 && r.value.createdAt == now
    ensures r.Ok? && "id" !in rl.fields ==> r.value.id == genId
    ensures r.Ok? && "category" !in rl.fields ==> r.value.category == "methodology"
    ensures r.Ok? && "confidence" !in rl.fields ==> r.value.confidence == 0.7
    ensures r.Ok? && "text" !in rl.fields ==> r.value.text == ""
  {
    var o :- AsObject(rl);
    var id :- GetStr(o, "id", genId);
    var text :- GetStr(o, "text", "");
    var category :- GetStr(o, "category", "methodology");
    var confidence :- if "confidence" in o then ToFloat(o["confidence"]) else Ok(0.7);
    Ok(Lesson(id, text, title, 0, category, confidence, now))
  }

  /** A payload element with only a text gets every default. */
  lemma NewLessonDefaults(text: string, title: string, genId: string, now: string)
    ensures NewLesson(JObj(map["text" := JStr(text)]), title, genId, now)
         == Ok(Lesson(genId, text, title, 0, "methodology", 0.7, now))
  {
  }

  /** A payload element with every key gives the lesson it describes, tied
      to this debate. */
  lemma NewLessonRoundTrip(id: string, text: string, category: string, confidence: real,
                           title: string, genId: string, now: string)
    ensures NewLesson(JObj(map["id" := JStr(id), "text" := JStr(text), "category" := JStr(category),
                               "confidence" := JReal(confidence)]), title, genId, now)
         == Ok(Lesson(id, text, title, 0, category, confidence, now))
  {
  }

  /** The payload's top-level value as a list: a non-list is wrapped. */
  function PayloadItems(raw: Json): (r: seq<Json>)
    ensures raw.JArr? ==> r == raw.items
    ensures !raw.JArr? ==> r == [raw]
  {
    if raw.JArr? then raw.items else [raw]
  }

  /** The parsing step: fence extraction, `json.loads` (the abstract `decode`,
      `None` where it raises JSONDecodeError), then one lesson per element. */
  function ParseLessons(text: string, decode: string -> Option<Json>, title: string, genId: string, now: string)
    : (r: Result<seq<Lesson>>)
    ensures r.Ok? ==> FencedPayload(text).Ok? && decode(FencedPayload(text).value).Some?
    ensures r.Ok? ==> |r.value| == |PayloadItems(decode(FencedPayload(text).value).value)|
    ensures r.Ok? ==> forall i :: 0 <= i < |r.value| ==> r.value[i].sourceDebate == title
    ensures r.Ok? ==> forall i :: 0 <= i < |r.value| ==>
      NewLesson(PayloadItems(decode(FencedPayload(text).value).value)[i], title, genId, now) == Ok(r.value[i])
    ensures FencedPayload(text).Ok? && decode(FencedPayload(text).value).Some?
            && (forall i :: 0 <= i < |PayloadItems(decode(FencedPayload(text).value).value)| ==>
                  NewLesson(PayloadItems(decode(FencedPayload(text).value).value)[i], title, genId, now).Ok?)
            ==> r.Ok?
  {
    var payload :- FencedPayload(text);
    var raw :- match decode(payload)
      case None => Err(NotJson)
      case Some(v) => Ok(v);
    DecodeAll(PayloadItems(raw), rl => NewLesson(rl, title, genId, now))
  }

  /** Rewrites the lessons file with the new lessons after the learned ones;
      `load_lessons` runs first and only its failure matters. */
  function MergeLessons(s: Store, added: seq<Lesson>, now: string): (r: Extraction)
    ensures r.Saved? ==> r.added == added
    ensures r.Saved? ==> LoadJsonList(s.lessons, LessonDecoder(now)).Ok?
    ensures r.Saved? ==> r.store == s.(lessons := Some(LessonFile(LoadJsonList(s.lessons, LessonDecoder(now)).value + added)))
    ensures r.Saved? <==> LoadLessons(s, now).Ok?
    ensures LoadLessons(s, now).Err? ==> r == Classify(LoadLessons(s, now).error)
  {
    match LoadLessons(s, now)
    case Err(e) => Classify(e)
    case Ok(_) =>
      var prior := LoadJsonList(s.lessons, LessonDecoder(now)).value;
      Saved(s.(lessons := Some(LessonFile(prior + added))), added)
  }

  /** The merge part of `extract_lessons_from_debate`. `response` is the
      model's reply text, or the error its client raised. */
  function ExtractLessons(
    s: Store, title: string, response: Result<string>,
    decode: string -> Option<Json>, genId: string, now: string): (r: Extraction)
    ensures response.Err? ==> r.Raised?
    ensures r.Saved? ==> response.Ok? && ParseLessons(response.value, decode, title, genId, now) == Ok(r.added)
    ensures r.Saved? ==> r == MergeLessons(s, r.added, now)
    ensures response.Ok? && ParseLessons(response.value, decode, title, genId, now).Ok? && LoadLessons(s, now).Ok? ==>
      r.Saved? && r.added == ParseLessons(response.value, decode, title, genId, now).value
    ensures response.Ok? && ParseLessons(response.value, decode, title, genId, now).Err? ==>
      r == Classify(ParseLessons(response.value, decode, title, genId, now).error)
    ensures response.Ok? && ParseLessons(response.value, decode, title, genId, now).Ok? && LoadLessons(s, now).Err? ==>
      r == Classify(LoadLessons(s, now).error)
  {
    if response.Err? then Raised(response.error)
    else match ParseLessons(response.value, decode, title, genId, now)
      case Err(e) => Classify(e)
      case Ok(added) => MergeLessons(s, added, now)
  }

  /** A reply that parses, with readable lesson files, is saved, and it
      appends to the learned lessons only: the learned store reads back as
      old ++ new, the bootstrap lessons are not copied in, and the other
      files are untouched. */
  lemma ExtractionAppends(
    s: Store, title: string, response: Result<string>,
    decode: string -> Option<Json>, genId: string, now: string,
    boot: seq<Lesson>, learned: seq<Lesson>)
    requires s.bootstrap == Some(LessonFile(boot)) && s.lessons == Some(LessonFile(learned))
    requires response.Ok? && ParseLessons(response.value, decode, title, genId, now).Ok?
    ensures var r := ExtractLessons(s, title, response, decode, genId, now);
      && r.Saved? && r.added == ParseLessons(response.value, decode, title, genId, now).value
      && LoadJsonList(r.store.lessons, LessonDecoder(now)) == Ok(learned + r.added)
      && LoadLessons(r.store, now) == Ok(boot + (learned + r.added))
      && r.store.bootstrap == s.bootstrap
      && r.store.forecasts == s.forecasts
      && r.store.performance == s.performance
  {
    LoadSavedLessons(s, boot, learned, now);
    var r := ExtractLessons(s, title, response, decode, genId, now);
    LessonFileRoundTrip(learned, now);
    LessonFileRoundTrip(learned + r.added, now);
    LoadSavedLessons(r.store, boot, learned + r.added, now);
  }

  /** A reply whose payload is not valid JSON, or whose fence is never
      closed, is caught: nothing is saved. */
  lemma ParseFailureSavesNothing(
    s: Store, title: string, text: string,
    decode: string -> Option<Json>, genId: string, now: string)
    requires FencedPayload(text).Err? || decode(FencedPayload(text).value).None?
    ensures ExtractLessons(s, title, Ok(text), decode, genId, now).Skipped?
  {
    CaughtErrors();
  }

  // ── Forecasts ───────────────────────────────────────────

  function ForecastDecoder(now: string): Json -> Result<Forecast> {
    j => ForecastFromJson(j, now)
  }

  function ForecastFile(fs: seq<Forecast>): Json {
    ListFile(fs, ForecastToJson)
  }

  lemma ForecastFileRoundTrip(fs: seq<Forecast>, now: string)
    ensures LoadJsonList(Some(ForecastFile(fs)), ForecastDecoder(now)) == Ok(fs)
  {
    forall f: Forecast
      ensures ForecastDecoder(now)(ForecastToJson(f)) == Ok(f)
    {
      ForecastRoundTrip(f, now);
    }
    ListFileRoundTrip(fs, ForecastToJson, ForecastDecoder(now));
  }

  /** `load_forecasts`. */
  function LoadForecasts(s: Store, now: string): (r: Result<seq<Forecast>>)
    ensures s.forecasts.None? ==> r == Ok([])
  {
    LoadJsonList(s.forecasts, ForecastDecoder(now))
  }

  /** `save_forecasts`, which replaces the forecasts file only. */
  function SaveForecasts(s: Store, fs: seq<Forecast>): (r: Store)
    ensures LoadForecasts(r, "") == Ok(fs)
    ensures r.bootstrap == s.bootstrap && r.lessons == s.lessons && r.performance == s.performance
  {
    ForecastFileRoundTrip(fs, "");
    s.(forecasts := Some(ForecastFile(fs)))
  }

  lemma SavedForecastsLoad(s: Store, fs: seq<Forecast>, now: string)
    ensures LoadForecasts(SaveForecasts(s, fs), now) == Ok(fs)
  {
    ForecastFileRoundTrip(fs, now);
  }

  /** `add_forecast`: the new forecast goes at the end. */
  function AddForecast(s: Store, f: Forecast, now: string): (r: Result<Store>)
    ensures r.Ok? <==> LoadForecasts(s, now).Ok?
    ensures r.Ok? ==> LoadForecasts(r.value, now) == Ok(LoadForecasts(s, now).value + [f])
  {
    var fs :- LoadForecasts(s, now);
    SavedForecastsLoad(s, fs + [f], now);
    Ok(SaveForecasts(s, fs + [f]))
  }

  /** The loop body of `resolve_forecast` applied to a list: the first
      forecast with the id is marked resolved with the outcome, at time `at`. */
  function ResolveIn(fs: seq<Forecast>, id: string, outcome: bool, at: string): (r: seq<Forecast>)
    ensures |r| == |fs|
    ensures forall j :: 0 <= j < |fs| && fs[j].id != id ==> r[j] == fs[j]
    ensures forall j :: 0 <= j < |fs| ==> r[j].id == fs[j].id
  {
    match FirstWith(fs, ForecastId, id)
    case None => fs
    case Some(i) => fs[i := fs[i].(resolved := true, outcome := Some(outcome), resolvedAt := at)]
  }

  /** Only the first forecast with the id changes; its score becomes defined. */
  lemma ResolveFirstOnly(fs: seq<Forecast>, id: string, outcome: bool, at: string, i: nat)
    requires i < |fs| && fs[i].id == id && forall j :: 0 <= j < i ==> fs[j].id != id
    ensures ResolveIn(fs, id, outcome, at)[i]
         == fs[i].(resolved := true, outcome := Some(outcome), resolvedAt := at)
    ensures BrierScore(ResolveIn(fs, id, outcome, at)[i]).Some?
    ensures forall j :: 0 <= j < |fs| && j != i ==> ResolveIn(fs, id, outcome, at)[j] == fs[j]
  {
    var k := FirstWith(fs, ForecastId, id);
    assert fs[i].id == id;
    assert k == Some(i);
  }

  /** An unknown id is a no-op. */
  lemma ResolveUnknown(fs: seq<Forecast>, id: string, outcome: bool, at: string)
    requires forall j :: 0 <= j < |fs| ==> fs[j].id != id
    ensures ResolveIn(fs, id, outcome, at) == fs
  {
  }

  /** Resolving twice leaves the second outcome. */
  lemma ResolveTwice(fs: seq<Forecast>, id: string, first: bool, second: bool, at1: string, at2: string)
    ensures ResolveIn(ResolveIn(fs, id, first, at1), id, second, at2) == ResolveIn(fs, id, second, at2)
  {
    var once := ResolveIn(fs, id, first, at1);
    match FirstWith(fs, ForecastId, id)
    case None =>
    case Some(i) =>
      assert once[i].id == id;
      assert forall j :: 0 <= j < i ==> once[j].id != id;
      assert FirstWith(once, ForecastId, id) == Some(i);
  }

  /** `resolve_forecast`: `now` stamps records read without created_at, `at`
      is the resolution time. */
  function ResolveForecast(s: Store, id: string, outcome: bool, now: string, at: string): (r: Result<Store>)
    ensures r.Ok? <==> LoadForecasts(s, now).Ok?
    ensures r.Ok? ==> LoadForecasts(r.value, now) == Ok(ResolveIn(LoadForecasts(s, now).value, id, outcome, at))
  {
    var fs :- LoadForecasts(s, now);
    SavedForecastsLoad(s, ResolveIn(fs, id, outcome, at), now);
    Ok(SaveForecasts(s, ResolveIn(fs, id, outcome, at)))
  }

  // ── Forecast report ─────────────────────────────────────

  /** The content of `check_forecasts`' report, without its number formatting:
      the sentinel "No forecasts recorded." for an empty list, else the
      resolved and pending groups and the average Brier score. */
  datatype ForecastReport =
    | NoForecasts
    | Tracker(resolved: seq<Forecast>, pending: seq<Forecast>, averageBrier: real)

  const NoForecastsText := "No forecasts recorded."

  function ResolvedOnes(fs: seq<Forecast>): (r: seq<Forecast>)
    ensures forall i :: 0 <= i < |r| ==> r[i].resolved
    ensures |r| <= |fs|
  {
    if |fs| == 0 then []
    else (if fs[0].resolved then [fs[0]] else []) + ResolvedOnes(fs[1..])
  }

  function PendingOnes(fs: seq<Forecast>): (r: seq<Forecast>)
    ensures forall i :: 0 <= i < |r| ==> !r[i].resolved
    ensures |r| <= |fs|
  {
    if |fs| == 0 then []
    else (if fs[0].resolved then [] else [fs[0]]) + PendingOnes(fs[1..])
  }

  /** The defined Brier scores, in order. */
  function Scores(fs: seq<Forecast>): (r: seq<real>)
    ensures |r| <= |fs|
  {
    if |fs| == 0 then []
    else (if BrierScore(fs[0]).Some? then [BrierScore(fs[0]).value] else []) + Scores(fs[1..])
  }

  function Sum(xs: seq<real>): real {
    if |xs| == 0 then 0.0 else xs[0] + Sum(xs[1..])
  }

  /** `sum(scores) / len(scores) if scores else 0.0`. */
  function Mean(xs: seq<real>): real {
    if |xs| == 0 then 0.0 else Sum(xs) / (|xs| as real)
  }

  /** `check_forecasts`, with scoreless resolved forecasts tolerated. */
  function Report(fs: seq<Forecast>): (r: ForecastReport)
    ensures r.NoForecasts? <==> |fs| == 0
    ensures r.Tracker? ==> r.resolved == ResolvedOnes(fs) && r.pending == PendingOnes(fs)
    ensures r.Tracker? ==> r.averageBrier == Mean(Scores(ResolvedOnes(fs)))
  {
    if |fs| == 0 then NoForecasts
    else Tracker(ResolvedOnes(fs), PendingOnes(fs), Mean(Scores(ResolvedOnes(fs))))
  }

  /** `check_forecasts` with the corrected report: a forecast resolved
      without an outcome is listed but has no score. */
  function CheckForecasts(s: Store, now: string): (r: Result<ForecastReport>)
    ensures r.Ok? <==> LoadForecasts(s, now).Ok?
    ensures r.Ok? ==> (r.value.NoForecasts? <==> LoadForecasts(s, now).value == [])
  {
    var fs :- LoadForecasts(s, now);
    Ok(Report(fs))
  }

  /** `check_forecasts` as written: the report also raises when a stored
      forecast is resolved without an outcome. */
  function CheckForecastsAsWritten(s: Store, now: string): (r: Result<ForecastReport>)
    ensures r.Err? <==> LoadForecasts(s, now).Err?
                        || exists i :: 0 <= i < |LoadForecasts(s, now).value|
                             && LoadForecasts(s, now).value[i].resolved && LoadForecasts(s, now).value[i].outcome.None?
    ensures r.Ok? ==> r == CheckForecasts(s, now)
  {
    var fs :- LoadForecasts(s, now);
    ReportAsWritten(fs)
  }

  /** `check_forecasts` as written: every resolved forecast's score is
      formatted with `:.4f`, which raises TypeError for a resolved forecast
      without an outcome, whose score is None. */
  function ReportAsWritten(fs: seq<Forecast>): (r: Result<ForecastReport>)
    ensures r.Err? <==> exists i :: 0 <= i < |fs| && fs[i].resolved && fs[i].outcome.None?
    ensures r.Ok? ==> r.value == Report(fs)
  {
    if exists i :: 0 <= i < |fs| && fs[i].resolved && fs[i].outcome.None? then
      Err("TypeError: unsupported format string passed to NoneType.__format__")
    else Ok(Report(fs))
  }

  /** A forecast file can hold `"resolved": true, "outcome": null`; the score
      list skips it, but the per-forecast line crashes the report. */
  lemma ScorelessResolvedCrashes(f: Forecast)
    requires f.resolved && f.outcome.None?
    ensures ReportAsWritten([f]).Err?
    ensures Report([f]) == Tracker([f], [], 0.0)
  {
    assert [f][0].resolved && [f][0].outcome.None?;
    assert ResolvedOnes([f]) == [f] by {
      assert [f][1..] == [];
    }
    assert Scores([f]) == [] by {
      assert [f][1..] == [];
    }
  }

  /** The groups split the list: each forecast lands in exactly one group
      according to `resolved`, and each group keeps list order. */
  lemma {:induction false} PartitionSplits(a: seq<Forecast>, b: seq<Forecast>)
    ensures ResolvedOnes(a + b) == ResolvedOnes(a) + ResolvedOnes(b)
    ensures PendingOnes(a + b) == PendingOnes(a) + PendingOnes(b)
    decreases |a|
  {
    if |a| == 0 {
      assert a + b == b;
    } else {
      assert (a + b)[1..] == a[1..] + b;
      PartitionSplits(a[1..], b);
    }
  }

  lemma {:induction false} PartitionCounts(fs: seq<Forecast>)
    ensures |ResolvedOnes(fs)| + |PendingOnes(fs)| == |fs|
    ensures multiset(ResolvedOnes(fs)) + multiset(PendingOnes(fs)) == multiset(fs)
    decreases |fs|
  {
    if |fs| > 0 {
      PartitionCounts(fs[1..]);
      assert fs == [fs[0]] + fs[1..];
    }
  }

  /** A forecast is in the resolved group iff it is resolved, in the pending
      group iff it is not. */
  lemma {:induction false} PartitionMembers(fs: seq<Forecast>, f: Forecast)
    ensures f in ResolvedOnes(fs) <==> f in fs && f.resolved
    ensures f in PendingOnes(fs) <==> f in fs && !f.resolved
    decreases |fs|
  {
    if |fs| > 0 {
      PartitionMembers(fs[1..], f);
      assert fs == [fs[0]] + fs[1..];
    }
  }

  lemma {:induction false} SumBounds(xs: seq<real>)
    requires forall i :: 0 <= i < |xs| ==> 0.0 <= xs[i] <= 1.0
    ensures 0.0 <= Sum(xs) <= |xs| as real
    decreases |xs|
  {
    if |xs| > 0 {
      SumBounds(xs[1..]);
    }
  }

  lemma {:induction false} ScoresInUnit(fs: seq<Forecast>)
    requires forall i :: 0 <= i < |fs| ==> 0.0 <= fs[i].probability <= 1.0
    ensures forall i :: 0 <= i < |Scores(fs)| ==> 0.0 <= Scores(fs)[i] <= 1.0
    decreases |fs|
  {
    if |fs| > 0 {
      ScoresInUnit(fs[1..]);
    }
  }

  lemma {:induction false} ResolvedProbabilities(fs: seq<Forecast>)
    requires forall i :: 0 <= i < |fs| ==> 0.0 <= fs[i].probability <= 1.0
    ensures forall i :: 0 <= i < |ResolvedOnes(fs)| ==> 0.0 <= ResolvedOnes(fs)[i].probability <= 1.0
    decreases |fs|
  {
    if |fs| > 0 {
      ResolvedProbabilities(fs[1..]);
    }
  }

  /** With probabilities in [0, 1] the average Brier score lies in [0, 1]
      (0 = perfect, 1 = worst), and it is 0 when no score is defined. */
  lemma AverageBrierInUnit(fs: seq<Forecast>)
    requires |fs| > 0
    requires forall i :: 0 <= i < |fs| ==> 0.0 <= fs[i].probability <= 1.0
    ensures 0.0 <= Report(fs).averageBrier <= 1.0
    ensures Scores(ResolvedOnes(fs)) == [] ==> Report(fs).averageBrier == 0.0
  {
    var xs := Scores(ResolvedOnes(fs));
    ResolvedProbabilities(fs);
    ScoresInUnit(ResolvedOnes(fs));
    if |xs| > 0 {
      SumBounds(xs);
      FractionInUnit(Sum(xs), |xs| as real, Mean(xs));
    }
  }
}

=== FILE: payload.dfy ===
/** Reading a JSON payload out of a model response, shared by the agent's
    response parser (think_tank/agent.py) and lesson extraction
    (think_tank/memory.py): the fenced block, the exceptions both catch, and
    `float()` on a payload value. */
module Payload {
  import opened Results
  import opened Text
  import opened Json

  // ── Fenced blocks ───────────────────────────────────────

  const JsonFence := "```json"
  const PlainFence := "```"

  /** `str.index` raising ValueError for a fence that is never closed. */
  const Unclosed := ValueErrorTag + ": substring not found"

  /** The payload between an opening fence found at `open` and the next "```". */
  function Between(text: string, open: nat, width: nat): (r: Result<string>)
    requires OccursAt(text, if width == 7 then JsonFence else PlainFence, open)
    requires width == 7 || width == 3
  {
    var start := open + width;
    match Find(text, PlainFence, start)
    case None => Err(Unclosed)
    case Some(end) => Ok(Strip(text[start..end]))
  }

  function FencedPayload(text: string): (r: Result<string>)
    ensures r.Err? ==> Contains(text, PlainFence)
    ensures r.Err? ==> r.error == Unclosed
    ensures !Contains(text, PlainFence) ==> r == Ok(text)
  {
    match Find(text, JsonFence, 0)
    case Some(open) =>
      JsonFenceIsFence(text, open);
      Between(text, open, 7)
    case None =>
      match Find(text, PlainFence, 0)
      case Some(open) => Between(text, open, 3)
      case None => Ok(text)
  }

  /** Every "```json" marker begins with a plain fence. */
  lemma JsonFenceIsFence(text: string, k: nat)
    requires OccursAt(text, JsonFence, k)
    ensures OccursAt(text, PlainFence, k)
  {
    assert text[k..k + 3] == text[k..k + 7][..3];
  }

  /** `marker` is the first one in `s + marker`: none starts inside `s`. */
  predicate FirstAtEnd(s: string, marker: string) {
    forall j :: 0 <= j < |s| ==> !OccursAt(s + marker, marker, j)
  }

  /** `s` starts with `marker` and holds no other. */
  predicate OnlyAtStart(s: string, marker: string) {
    forall j :: 0 < j < |s| ==> !OccursAt(s, marker, j)
  }

  /** `Find` returns the occurrence at `k` when none lies between `from` and `k`. */
  lemma FindAt(s: string, sub: string, from: nat, k: nat)
    requires from <= k && OccursAt(s, sub, k)
    requires forall j :: from <= j < k ==> !OccursAt(s, sub, j)
    ensures Find(s, sub, from) == Some(k)
  {
  }

  /** When `text` holds `s + marker` from `from` on and that marker is the
      first one there, the search from `from` finds it at `from + |s|`. */
  lemma FindMarker(text: string, from: nat, s: string, marker: string)
    requires from + |s| + |marker| <= |text| && text[from..from + |s| + |marker|] == s + marker
    requires FirstAtEnd(s, marker)
    ensures Find(text, marker, from) == Some(from + |s|)
  {
    var window := text[from..from + |s| + |marker|];
    forall k | from <= k < from + |s|
      ensures !OccursAt(text, marker, k)
    {
      SliceOfSlice(text, from, from + |s| + |marker|, k - from, k - from + |marker|);
      assert !OccursAt(s + marker, marker, k - from);
    }
    SliceOfSlice(text, from, from + |s| + |marker|, |s|, |s| + |marker|);
    assert window[|s|..|s| + |marker|] == marker;
    FindAt(text, marker, from, from + |s|);
  }

  /** The search from `|x|` finds the marker closing `s` in `x + (s + marker) + z`. */
  lemma FindInMiddle(x: string, s: string, marker: string, z: string)
    requires FirstAtEnd(s, marker)
    ensures Find(x + (s + marker) + z, marker, |x|) == Some(|x| + |s|)
  {
    MiddleSlice(x, s + marker, z);
    FindMarker(x + (s + marker) + z, |x|, s, marker);
  }

  /** The search from the start finds the marker closing `s` in `(s + marker) + z`. */
  lemma FindAtFront(s: string, marker: string, z: string)
    requires FirstAtEnd(s, marker)
    ensures Find((s + marker) + z, marker, 0) == Some(|s|)
  {
    assert ((s + marker) + z)[0..|s| + |marker|] == s + marker;
    FindMarker((s + marker) + z, 0, s, marker);
  }

  /** The payload read off a json fence at `open` closed at `close`. */
  lemma JsonFencedAt(text: string, open: nat, close: nat, payload: string)
    requires Find(text, JsonFence, 0) == Some(open)
    requires Find(text, PlainFence, open + 7) == Some(close)
    requires open + 7 <= close && text[open + 7..close] == payload
    ensures FencedPayload(text) == Ok(Strip(payload))
  {
    JsonFenceIsFence(text, open);
  }

  /** The payload read off a plain fence at `open` closed at `close`. */
  lemma PlainFencedAt(text: string, open: nat, close: nat, payload: string)
    requires Find(text, JsonFence, 0) == None && Find(text, PlainFence, 0) == Some(open)
    requires Find(text, PlainFence, open + 3) == Some(close)
    requires open + 3 <= close && text[open + 3..close] == payload
    ensures FencedPayload(text) == Ok(Strip(payload))
  {
  }

  /** In `pre + open + payload + close + post`, where neither marker occurs
      before its own place, the searches find both markers there. */
  lemma Framed(pre: string, open: string, payload: string, close: string, post: string)
    requires FirstAtEnd(pre, open) && FirstAtEnd(payload, close)
    ensures var text := pre + open + payload + close + post;
      && Find(text, open, 0) == Some(|pre|)
      && Find(text, close, |pre| + |open|) == Some(|pre| + |open| + |payload|)
      && text[|pre| + |open|..|pre| + |open| + |payload|] == payload
  {
    var head := pre + open;
    Regroup(pre, open, payload, close, post);
    FindAtFront(pre, open, (payload + close) + post);
    FindInMiddle(head, payload, close, post);
    MiddleFrontSlice(head, payload, close, post);
  }

  /** The first json fence, then the next plain fence, whatever the prefix,
      payload and tail hold otherwise. */
  lemma JsonFenced(pre: string, payload: string, post: string)
    requires FirstAtEnd(pre, JsonFence) && FirstAtEnd(payload, PlainFence)
    ensures FencedPayload(pre + JsonFence + payload + PlainFence + post) == Ok(Strip(payload))
  {
    Framed(pre, JsonFence, payload, PlainFence, post);
    JsonFencedAt(pre + JsonFence + payload + PlainFence + post, |pre|, |pre| + 7 + |payload|, payload);
  }

  /** Without a json fence anywhere, the first two plain fences. */
  lemma PlainFenced(pre: string, payload: string, post: string)
    requires FirstAtEnd(pre, PlainFence) && FirstAtEnd(payload, PlainFence)
    requires !Contains(pre + PlainFence + payload + PlainFence + post, JsonFence)
    ensures FencedPayload(pre + PlainFence + payload + PlainFence + post) == Ok(Strip(payload))
  {
    Framed(pre, PlainFence, payload, PlainFence, post);
    PlainFencedAt(pre + PlainFence + payload + PlainFence + post, |pre|, |pre| + 3 + |payload|, payload);
  }

  /** An opening fence with no fence after it is an error, whether or not it
      is a json fence. */
  lemma UnclosedFence(pre: string, rest: string)
    requires FirstAtEnd(pre, PlainFence) && OnlyAtStart(PlainFence + rest, PlainFence)
    ensures FencedPayload(pre + PlainFence + rest).Err?
  {
    var text := pre + PlainFence + rest;
    var tail := PlainFence + rest;
    assert text[0..|pre| + |PlainFence|] == pre + PlainFence;
    FindMarker(text, 0, pre, PlainFence);
    forall j | |pre| < j
      ensures !OccursAt(text, PlainFence, j)
    {
      if j + 3 <= |text| {
        assert text[|pre|..|text|] == tail;
        SliceOfSlice(text, |pre|, |text|, j - |pre|, j - |pre| + 3);
        assert !OccursAt(tail, PlainFence, j - |pre|);
      }
    }
    match Find(text, JsonFence, 0)
    case Some(open) =>
      JsonFenceIsFence(text, open);
      assert open == |pre|;
    case None =>
  }

  // ── Errors ──────────────────────────────────────────────

  /** Errors of the ValueError family (JSONDecodeError is a ValueError): the
      ones both payload parsers catch. */
  predicate IsValueError(error: string) {
    StartsWith(error, ValueErrorTag) || StartsWith(error, JsonErrorTag)
  }

  const ValueErrorTag := "ValueError"
  const JsonErrorTag := "JSONDecodeError"
  const NotJson := JsonErrorTag + ": payload is not valid JSON"
  const NotAFloat := ValueErrorTag + ": could not convert string to float"

  lemma CaughtErrors()
    ensures IsValueError(Unclosed) && IsValueError(NotJson) && IsValueError(NotAFloat)
  {
    StartsWithConcat(ValueErrorTag, ": substring not found");
    StartsWithConcat(JsonErrorTag, ": payload is not valid JSON");
    StartsWithConcat(ValueErrorTag, ": could not convert string to float");
  }

  /** `.get` on a value that is not an object is not in the caught family. */
  lemma AttributeErrorEscapes()
    ensures !IsValueError(NotAnObject)
  {
    assert NotAnObject[0] == 'A';
    assert NotAnObject[..|ValueErrorTag|][0] == 'A';
    assert NotAnObject[..|JsonErrorTag|][0] == 'A';
  }


  /** Python's `float(x)` on a JSON value. A string is rejected (ValueError)
      even when it spells a number; None, lists and dicts raise TypeError. */
  function ToFloat(j: Json): (r: Result<real>)
    ensures j.JReal? || j.JInt? || j.JBool? <==> r.Ok?
    ensures j.JStr? ==> r.Err? && IsValueError(r.error)
    ensures j.JReal? ==> r == Ok(j.r)
  {
    match j
    case JReal(x) => Ok(x)
    case JInt(i) => Ok(i as real)
    case JBool(b) => Ok(if b then 1.0 else 0.0)
    case JStr(_) => CaughtErrors(); Err(NotAFloat)
    case _ => Err("TypeError: float() argument must be a string or a real number")
  }
}

=== FILE: performance.dfy ===
/** Per-expert statistics across debates (`update_panel_performance` in
    think_tank/memory.py) and the performance file that holds them. */
module Performance {
  import opened Results
  import opened Json
  import opened Schemas
  import opened RealMath
  import opened Memory

  /** performance.json: records keyed by expert id. */
  type Records = map<string, ExpertPerformance>

  // ── The performance file ────────────────────────────────

  /** `load_performance`: a missing file is empty; a top-level value that is
      not a dict has no `.items` and raises AttributeError. */
  function LoadPerformance(s: Store): (r: Result<Records>)
    ensures s.performance.None? ==> r == Ok(map[])
    ensures r.Ok? && s.performance.Some? ==> s.performance.value.JObj? && r.value.Keys == s.performance.value.fields.Keys
    ensures r.Ok? && s.performance.Some? ==> forall k :: k in r.value ==> PerformanceFromJson(s.performance.value.fields[k]) == Ok(r.value[k])
  {
    match s.performance
    case None => Ok(map[])
    case Some(JObj(fields)) => DecodeFields(fields, PerformanceFromJson)
    case Some(_) => Err("AttributeError: value has no attribute 'items'")
  }

  /** `save_performance`'s content. */
  function PerformanceFile(perf: Records): Json {
    JObj(EncodeFields(perf, PerformanceToJson))
  }

  lemma PerformanceFileRoundTrip(s: Store, perf: Records)
    requires s.performance == Some(PerformanceFile(perf))
    ensures LoadPerformance(s) == Ok(perf)
  {
    forall p | true
      ensures PerformanceFromJson(PerformanceToJson(p)) == Ok(p)
    {
      PerformanceRoundTrip(p);
    }
    DecodeEncodeFields(perf, PerformanceToJson, PerformanceFromJson);
  }

  // ── Challenge index ─────────────────────────────────────

  /** `all_targets`: every target id of every move of the debate, of any type. */
  function TargetIndex(moves: seq<Move>): (r: set<string>)
    ensures forall i, j :: 0 <= i < |moves| && 0 <= j < |moves[i].targets| ==> moves[i].targets[j] in r
    ensures forall t :: t in r ==> exists i, j :: 0 <= i < |moves| && 0 <= j < |moves[i].targets| && moves[i].targets[j] == t
  {
    if |moves| == 0 then {}
    else
      var last := moves[|moves| - 1];
      var rest := TargetIndex(moves[..|moves| - 1]);
      assert forall i :: 0 <= i < |moves| - 1 ==> moves[..|moves| - 1][i] == moves[i];
      rest + set j | 0 <= j < |last.targets| :: last.targets[j]
  }

  /** How many of the claims have been targeted: each claim counts at most
      once, however many moves target it. */
  function Targeted(claims: seq<Claim>, index: set<string>): (r: nat)
    ensures r <= |claims|
    ensures r == |claims| <==> forall i :: 0 <= i < |claims| ==> claims[i].id in index
    ensures r == 0 <==> forall i :: 0 <= i < |claims| ==> claims[i].id !in index
  {
    if |claims| == 0 then 0
    else
      var rest := Targeted(claims[1..], index);
      assert forall i :: 1 <= i < |claims| ==> claims[i] == claims[1..][i - 1];
      (if claims[0].id in index then 1 else 0) + rest
  }

  // ── One move ────────────────────────────────────────────

  /** Moves that count towards an expert's statistics. */
  predicate Counted(m: Move) {
    m.moveType != "error" && m.moveType != "synthesize"
  }

  function ConfidenceSum(claims: seq<Claim>): real {
    if |claims| == 0 then 0.0 else claims[0].confidence + ConfidenceSum(claims[1..])
  }

  /** The record created for an unseen expert. */
  function Zero(id: string): ExpertPerformance {
    ExpertPerformance(id, 0, 0, 0.0, 0, 0)
  }

  /** The running-average update: `(avg * prev + mean * n) / total`, where
      `mean` is the average confidence of the move's `n` claims. */
  function RunningMean(avg: real, prev: int, claims: seq<Claim>): real {
    var n := |claims|;
    var total := prev + n;
    if n > 0 && total > 0 then
      var mean := ConfidenceSum(claims) / (n as real);
      (avg * (prev as real) + mean * (n as real)) / (total as real)
    else avg
  }

  /** One counted move credited to its author's record. */
  function Credit(p: ExpertPerformance, m: Move, index: set<string>): (r: ExpertPerformance)
    ensures r.expertId == p.expertId
    ensures r.debatesParticipated == p.debatesParticipated + 1
    ensures r.totalClaims == p.totalClaims + |m.claims|
    ensures r.challengesMade == p.challengesMade + |m.targets|
    ensures r.challengesReceived == p.challengesReceived + Targeted(m.claims, index)
    ensures |m.claims| == 0 ==> r.avgConfidence == p.avgConfidence
  {
    p.(debatesParticipated := p.debatesParticipated + 1,
       totalClaims := p.totalClaims + |m.claims|,
       avgConfidence := RunningMean(p.avgConfidence, p.totalClaims, m.claims),
       challengesMade := p.challengesMade + |m.targets|,
       challengesReceived := p.challengesReceived + Targeted(m.claims, index))
  }

  /** The record an expert starts from: the stored one, or a zeroed one. */
  function Base(perf: Records, a: string): ExpertPerformance {
    if a in perf then perf[a] else Zero(a)
  }

  /** One iteration of the move loop. */
  function Step(perf: Records, m: Move, index: set<string>): (r: Records)
    ensures !Counted(m) ==> r == perf
    ensures Counted(m) ==> r == perf[m.agentId := Credit(Base(perf, m.agentId), m, index)]
    ensures forall a :: a != m.agentId ==> (a in r <==> a in perf) && (a in r ==> r[a] == perf[a])
  {
    if !Counted(m) then perf
    else perf[m.agentId := Credit(Base(perf, m.agentId), m, index)]
  }

  /** The move loop, in move order. */
  function Fold(perf: Records, moves: seq<Move>, index: set<string>): Records {
    if |moves| == 0 then perf
    else Step(Fold(perf, moves[..|moves| - 1], index), moves[|moves| - 1], index)
  }

  /** `update_panel_performance` on the loaded records: the index covers the
      whole debate before any record is touched. */
  function UpdatePerformance(perf: Records, moves: seq<Move>): Records {
    Fold(perf, moves, TargetIndex(moves))
  }

  /** `update_panel_performance` with the file read and written back. */
  function UpdatePanelPerformance(s: Store, state: DebateState): (r: Result<Store>)
    ensures r.Ok? <==> LoadPerformance(s).Ok?
    ensures r.Ok? ==> LoadPerformance(r.value) == Ok(UpdatePerformance(LoadPerformance(s).value, state.moves))
    ensures r.Ok? ==> r.value.bootstrap == s.bootstrap && r.value.lessons == s.lessons && r.value.forecasts == s.forecasts
  {
    var perf :- LoadPerformance(s);
    var updated := s.(performance := Some(PerformanceFile(UpdatePerformance(perf, state.moves))));
    PerformanceFileRoundTrip(updated, UpdatePerformance(perf, state.moves));
    Ok(updated)
  }

  // ── Reference tallies ───────────────────────────────────

  /** What an expert's counted moves add up to, computed independently of
      the record map. */
  datatype Totals = Totals(moves: nat, claims: int, made: int, received: int, confidence: real)

  const NoTotals := Totals(0, 0, 0, 0, 0.0)

  function Tally(moves: seq<Move>, a: string, index: set<string>): (r: Totals)
    ensures r.moves == 0 ==> r == NoTotals
    ensures r.claims >= 0 && r.made >= 0 && r.received >= 0
  {
    if |moves| == 0 then NoTotals
    else
      var t := Tally(moves[..|moves| - 1], a, index);
      var m := moves[|moves| - 1];
      if Counted(m) && m.agentId == a then
        Totals(t.moves + 1, t.claims + |m.claims|, t.made + |m.targets|,
               t.received + Targeted(m.claims, index), t.confidence + ConfidenceSum(m.claims))
      else t
  }

  /** Each counter of an expert's record is its starting value plus the tally
      of the expert's counted moves. An expert gets a record iff it had one or
      made a counted move; an expert without counted moves keeps its record
      unchanged. */
  lemma {:induction false} FoldTallies(perf: Records, moves: seq<Move>, index: set<string>, a: string)
    ensures var r := Fold(perf, moves, index);
      var t := Tally(moves, a, index);
      var b := Base(perf, a);
      && (a in r <==> a in perf || t.moves > 0)
      && (a in r ==>
            && r[a].expertId == b.expertId
            && r[a].debatesParticipated == b.debatesParticipated + t.moves
            && r[a].totalClaims == b.totalClaims + t.claims
            && r[a].challengesMade == b.challengesMade + t.made
            && r[a].challengesReceived == b.challengesReceived + t.received)
      && (t.moves == 0 && a in perf ==> r[a] == perf[a])
    decreases |moves|
  {
    if |moves| > 0 {
      var prefix := moves[..|moves| - 1];
      var m := moves[|moves| - 1];
      var before := Fold(perf, prefix, index);
      FoldTallies(perf, prefix, index, a);
      if Counted(m) && m.agentId == a {
        var c := Credit(Base(before, a), m, index);
        assert Fold(perf, moves, index)[a] == c;
        assert a in before ==> Base(before, a) == before[a];
        assert a !in before ==> Base(before, a) == Base(perf, a);
      }
    }
  }

  // ── The running mean ────────────────────────────────────

  /** One update keeps `average × count` equal to the previous product plus
      the new confidences. */
  lemma RunningMeanProduct(avg: real, prev: int, claims: seq<Claim>)
    requires prev >= 0
    ensures RunningMean(avg, prev, claims) * ((prev + |claims|) as real)
         == avg * (prev as real) + ConfidenceSum(claims)
  {
    var n := |claims|;
    var total := prev + n;
    if n > 0 {
      var sum := ConfidenceSum(claims);
      var mean := sum / (n as real);
      QuotientTimesDivisor(sum, n as real, mean);
      var weighted := avg * (prev as real);
      var numerator := weighted + mean * (n as real);
      assert numerator == weighted + sum;
      var rm := numerator / (total as real);
      assert RunningMean(avg, prev, claims) == rm;
      QuotientTimesDivisor(numerator, total as real, rm);
    } else {
      assert claims == [];
    }
  }

  lemma {:induction false} ConfidenceSumBounds(claims: seq<Claim>)
    requires forall i :: 0 <= i < |claims| ==> 0.0 <= claims[i].confidence <= 1.0
    ensures 0.0 <= ConfidenceSum(claims) <= |claims| as real
    decreases |claims|
  {
    if |claims| > 0 {
      assert forall i :: 0 <= i < |claims| - 1 ==> claims[1..][i] == claims[i + 1];
      ConfidenceSumBounds(claims[1..]);
    }
  }

  /** With confidences in [0, 1] the average stays in [0, 1]. */
  lemma RunningMeanInUnit(avg: real, prev: int, claims: seq<Claim>)
    requires 0.0 <= avg <= 1.0 && prev >= 0
    requires forall i :: 0 <= i < |claims| ==> 0.0 <= claims[i].confidence <= 1.0
    ensures 0.0 <= RunningMean(avg, prev, claims) <= 1.0
  {
    var n := |claims|;
    var total := prev + n;
    if n > 0 {
      var sum := ConfidenceSum(claims);
      var mean := sum / (n as real);
      QuotientTimesDivisor(sum, n as real, mean);
      ConfidenceSumBounds(claims);
      var weighted := avg * (prev as real);
      ProductScalesDown(avg, prev as real, weighted);
      var numerator := weighted + mean * (n as real);
      assert numerator == weighted + sum;
      assert 0.0 <= numerator <= total as real;
      var rm := numerator / (total as real);
      assert RunningMean(avg, prev, claims) == rm;
      FractionInUnit(numerator, total as real, rm);
    }
  }

  /** `avg_confidence × total_claims`: the sum of confidences the average stands for. */
  function Product(p: ExpertPerformance): real {
    p.avgConfidence * (p.totalClaims as real)
  }

  lemma CreditProduct(p: ExpertPerformance, m: Move, index: set<string>)
    requires p.totalClaims >= 0
    ensures Product(Credit(p, m, index)) == Product(p) + ConfidenceSum(m.claims)
  {
    RunningMeanProduct(p.avgConfidence, p.totalClaims, m.claims);
  }

  /** Over a whole debate, an expert's `avg_confidence × total_claims` grows by
      exactly the sum of the confidences of its counted claims. */
  lemma {:induction false} FoldMeanProduct(perf: Records, moves: seq<Move>, index: set<string>, a: string)
    requires Base(perf, a).totalClaims >= 0
    ensures var r := Fold(perf, moves, index);
      a in r ==> Product(r[a]) == Product(Base(perf, a)) + Tally(moves, a, index).confidence
    decreases |moves|
  {
    if |moves| > 0 {
      var prefix := moves[..|moves| - 1];
      var m := moves[|moves| - 1];
      var before := Fold(perf, prefix, index);
      var t := Tally(prefix, a, index);
      FoldMeanProduct(perf, prefix, index, a);
      FoldTallies(perf, prefix, index, a);
      if Counted(m) && m.agentId == a {
        var p := Base(before, a);
        assert Product(p) == Product(Base(perf, a)) + t.confidence by {
          if a !in before {
            assert p == Base(perf, a);
            assert t == NoTotals;
          }
        }
        CreditProduct(p, m, index);
        assert Fold(perf, moves, index)[a] == Credit(p, m, index);
      }
    }
  }

  /** Over a whole debate, an expert's average confidence stays in [0, 1]
      when it starts there and every counted claim's confidence is in [0, 1]. */
  lemma {:induction false} FoldMeanInUnit(perf: Records, moves: seq<Move>, index: set<string>, a: string)
    requires Base(perf, a).totalClaims >= 0
    requires 0.0 <= Base(perf, a).avgConfidence <= 1.0
    requires forall i, j :: 0 <= i < |moves| && 0 <= j < |moves[i].claims| ==> 0.0 <= moves[i].claims[j].confidence <= 1.0
    ensures var r := Fold(perf, moves, index);
      a in r ==> 0.0 <= r[a].avgConfidence <= 1.0
    decreases |moves|
  {
    if |moves| > 0 {
      var prefix := moves[..|moves| - 1];
      var m := moves[|moves| - 1];
      var before := Fold(perf, prefix, index);
      assert forall i :: 0 <= i < |prefix| ==> prefix[i] == moves[i];
      FoldMeanInUnit(perf, prefix, index, a);
      FoldTallies(perf, prefix, index, a);
      if Counted(m) && m.agentId == a {
        var p := Base(before, a);
        assert forall j :: 0 <= j < |m.claims| ==> 0.0 <= m.claims[j].confidence <= 1.0;
        assert p.totalClaims >= 0 && 0.0 <= p.avgConfidence <= 1.0;
        RunningMeanInUnit(p.avgConfidence, p.totalClaims, m.claims);
      }
    }
  }
}

=== FILE: realmath.dfy ===
// Facts about real multiplication and division used by the Brier score and
// the running confidence average. Each product is named by a variable of its
// own (`s == a * b`), the shape in which the solver handles them reliably.

module RealMath {

  lemma ProductPositive(a: real, b: real, s: real)
    requires s == a * b && a > 0.0 && b > 0.0
    ensures s > 0.0
  {
  }

  lemma ProductNonPositive(a: real, b: real, s: real)
    requires s == a * b && a <= 0.0 && b >= 0.0
    ensures s <= 0.0
  {
  }

  lemma ProductNonNegative(a: real, b: real, s: real)
    requires s == a * b && a >= 0.0 && b >= 0.0
    ensures s >= 0.0
  {
  }

  /** A factor in [0, 1] scales a non-negative number down. */
  lemma ProductScalesDown(a: real, b: real, s: real)
    requires s == a * b && 0.0 <= a <= 1.0 && b >= 0.0
    ensures 0.0 <= s <= b
  {
    ProductNonNegative(a, b, s);
    var t := (a - 1.0) * b;
    ProductNonPositive(a - 1.0, b, t);
    assert t == s - b;
  }

  lemma NegatedProduct(a: real, b: real, s: real)
    requires s == a * b
    ensures s == (-a) * (-b)
  {
  }

  /** The square of `x`: never negative, zero only at zero, at most one on [-1, 1]. */
  function Square(x: real): (r: real)
    ensures r >= 0.0
    ensures r == 0.0 <==> x == 0.0
    ensures -1.0 <= x <= 1.0 ==> r <= 1.0
  {
    var s := x * x;
    if x > 0.0 then
      ProductPositive(x, x, s);
      if x <= 1.0 then ProductScalesDown(x, x, s); s else s
    else if x < 0.0 then
      NegatedProduct(x, x, s);
      ProductPositive(-x, -x, s);
      if -1.0 <= x then ProductScalesDown(-x, -x, s); s else s
    else
      s
  }

  /** A part of a positive whole, divided by the whole, lies in [0, 1]. */
  lemma FractionInUnit(x: real, t: real, q: real)
    requires t > 0.0 && q == x / t && 0.0 <= x <= t
    ensures 0.0 <= q <= 1.0
  {
    assert q * t == x;
    if q < 0.0 {
      ProductPositive(-q, t, -q * t);
      assert false;
    }
    if q > 1.0 {
      ProductPositive(q - 1.0, t, (q - 1.0) * t);
      assert false;
    }
  }

  /** Scaling a quotient back by its divisor gives the dividend. */
  lemma QuotientTimesDivisor(x: real, t: real, q: real)
    requires t > 0.0 && q == x / t
    ensures q * t == x
  {
  }
}

=== FILE: results.dfy ===
/** Option and Result wrappers shared by every module of the model. A `Result`
    stands for a Python call that either returns a value or raises; the error
    string names the exception. Both support Dafny's `:-` operator. */
module Results {

  datatype Option<+T> = None | Some(value: T) {
    function GetOr(default: T): T {
      if Some? then value else default
    }
  }

  datatype Result<+T> = Ok(value: T) | Err(error: string) {
    predicate IsFailure() {
      Err?
    }

    function PropagateFailure<U>(): Result<U>
      requires Err?
    {
      Err(error)
    }

    function Extract(): T
      requires Ok?
    {
      value
    }
  }
}

=== FILE: runner.dfy ===
/** The debate loop (think_tank/runner.py): the roster of agents, one turn
    per listed agent per round, error moves for failed turns, and the memory
    steps around the debate. The model client is the abstract `llm`; files
    written along the way (per-move JSON, state, report, cost) are not
    modelled. */
module Runner {
  import opened Results
  import opened Text
  import opened Json
  import opened Schemas
  import opened Agent
  import opened Memory
  import opened Performance

  // ── The roster ──────────────────────────────────────────

  const SynthesizerId := "synthesizer"

  const SynthesizerExpert := Expert(
    SynthesizerId, "Synthesis Engine", "Debate Synthesizer",
    "Neutral facilitator that consolidates all expert contributions.", "", "", "")

  /** The last expert with the id, or nothing. */
  function LastWithId(es: seq<Expert>, id: string): (r: Option<nat>)
    ensures r.Some? ==> r.value < |es| && es[r.value].id == id
    ensures r.Some? ==> forall j :: r.value < j < |es| ==> es[j].id != id
    ensures r.None? ==> forall j :: 0 <= j < |es| ==> es[j].id != id
  {
    if |es| == 0 then None
    else if es[|es| - 1].id == id then Some(|es| - 1)
    else LastWithId(es[..|es| - 1], id)
  }

  /** The panel's agents keyed by expert id: a later expert with the same id
      replaces an earlier one. */
  function PanelAgents(es: seq<Expert>, model: string): (r: map<string, Participant>)
    ensures forall id :: id in r <==> LastWithId(es, id).Some?
    ensures forall id :: id in r ==> r[id] == Participant(es[LastWithId(es, id).value], false, model)
  {
    if |es| == 0 then map[]
    else PanelAgents(es[..|es| - 1], model)[es[|es| - 1].id := Participant(es[|es| - 1], false, model)]
  }

  /** Every entry's expert carries the entry's key. */
  predicate WellKeyed(table: map<string, Participant>) {
    forall id :: id in table ==> table[id].expert.id == id
  }

  /** `self.agents`: the panel's experts on `model`, then the synthesizer on
      `synthModel`, which takes the id "synthesizer" whatever the panel says. */
  function AgentTable(panel: Panel, model: string, synthModel: string): (r: map<string, Participant>)
    ensures forall id :: id in r <==> id == SynthesizerId || id in ListIds(panel)
    ensures r[SynthesizerId] == Participant(SynthesizerExpert, true, synthModel)
    ensures forall id :: id in r && id != SynthesizerId ==>
      !r[id].isSynthesizer && r[id].model == model && LastWithId(panel.experts, id).Some?
      && r[id].expert == panel.experts[LastWithId(panel.experts, id).value]
    ensures WellKeyed(r)
  {
    var r := PanelAgents(panel.experts, model)[SynthesizerId := Participant(SynthesizerExpert, true, synthModel)];
    forall id
      ensures id in r <==> id == SynthesizerId || id in ListIds(panel)
    {
      if id in ListIds(panel) {
        var i :| 0 <= i < |ListIds(panel)| && ListIds(panel)[i] == id;
        assert panel.experts[i].id == id;
      }
      if LastWithId(panel.experts, id).Some? {
        assert ListIds(panel)[LastWithId(panel.experts, id).value] == id;
      }
    }
    r
  }

  /** With distinct expert ids the roster holds exactly what `get_expert`
      finds. */
  lemma DistinctIdsAgreeWithGetExpert(panel: Panel, model: string, synthModel: string, id: string)
    requires forall i, j :: 0 <= i < j < |panel.experts| ==> panel.experts[i].id != panel.experts[j].id
    requires id != SynthesizerId && id in ListIds(panel)
    ensures GetExpert(panel, id).Some?
    ensures AgentTable(panel, model, synthModel)[id].expert == GetExpert(panel, id).value
  {
    var last := LastWithId(panel.experts, id).value;
    var e := GetExpert(panel, id).value;
    var i :| 0 <= i < |panel.experts| && panel.experts[i] == e
             && forall j :: 0 <= j < i ==> panel.experts[j].id != id;
    assert i == last;
  }

  // ── Turns ───────────────────────────────────────────────

  /** One listed agent in one round. */
  datatype Turn = Turn(round: RoundSpec, agentId: string)

  function RoundTurns(rnd: RoundSpec): (r: seq<Turn>)
    ensures |r| == |rnd.agents|
    ensures forall j :: 0 <= j < |r| ==> r[j] == Turn(rnd, rnd.agents[j])
  {
    seq(|rnd.agents|, j requires 0 <= j < |rnd.agents| => Turn(rnd, rnd.agents[j]))
  }

  /** The turns of a debate in order: rounds in order, agents in listed order. */
  function Turns(rounds: seq<RoundSpec>): seq<Turn> {
    if |rounds| == 0 then [] else Turns(rounds[..|rounds| - 1]) + RoundTurns(rounds[|rounds| - 1])
  }

  /** The turns of consecutive rounds follow each other. */
  lemma {:induction false} TurnsSplit(a: seq<RoundSpec>, b: seq<RoundSpec>)
    ensures Turns(a + b) == Turns(a) + Turns(b)
    decreases |b|
  {
    if |b| == 0 {
      assert a + b == a;
    } else {
      var init := b[..|b| - 1];
      assert (a + b)[..|a + b| - 1] == a + init;
      assert (a + b)[|a + b| - 1] == b[|b| - 1];
      TurnsSplit(a, init);
    }
  }

  /** The number of agent slots over all rounds. */
  function Slots(rounds: seq<RoundSpec>): nat {
    if |rounds| == 0 then 0 else Slots(rounds[..|rounds| - 1]) + |rounds[|rounds| - 1].agents|
  }

  lemma {:induction false} TurnsCount(rounds: seq<RoundSpec>)
    ensures |Turns(rounds)| == Slots(rounds)
  {
    if |rounds| > 0 {
      TurnsCount(rounds[..|rounds| - 1]);
    }
  }

  /** The turns whose agent is in the roster, in order. */
  function Resolved(table: map<string, Participant>, turns: seq<Turn>): (r: seq<Turn>)
    ensures |r| <= |turns|
    ensures forall k :: 0 <= k < |r| ==> r[k].agentId in table
    ensures (forall k :: 0 <= k < |turns| ==> turns[k].agentId in table) ==> r == turns
  {
    if |turns| == 0 then []
    else
      var init := turns[..|turns| - 1];
      var last := turns[|turns| - 1];
      assert turns == init + [last];
      if last.agentId in table then Resolved(table, init) + [last] else Resolved(table, init)
  }

  // ── One turn ────────────────────────────────────────────

  /** Everything a turn reads besides the moves so far. `play` is the
      agents' `make_move` (see `AgentPlay`), `now` the clock. */
  datatype Context = Context(
    spec: DebateSpec, table: map<string, Participant>, memoryContext: string,
    play: (Participant, TurnRequest) -> Result<Move>, now: string)

  /** `make_move` with the model client and JSON decoder fixed: the client
      is asked with the prompt built from the request. */
  function AgentPlay(llm: (Participant, Prompt) -> Result<Response>, decode: string -> Option<Json>, now: string)
    : (Participant, TurnRequest) -> Result<Move>
  {
    (p: Participant, req: TurnRequest) => MakeMove(p, req, llm(p, BuildPrompt(p, req)), decode, now)
  }

  /** `f"M{move_counter:03d}"`. */
  function MoveId(counter: nat): (r: string)
    ensures |r| >= 4 && r[0] == 'M' && AllDigits(r[1..])
    ensures DigitsValue(r[1..]) == counter
  {
    var r := "M" + ZeroPadded(counter, 3);
    assert r[1..] == ZeroPadded(counter, 3);
    ZeroPaddedValue(counter, 3);
    r
  }

  /** Different counters give different move ids. */
  lemma MoveIdInjective(i: nat, j: nat)
    requires MoveId(i) == MoveId(j)
    ensures i == j
  {
  }

  const ErrorPrefix := "Agent error: "

  /** The move recorded when `make_move` raises. */
  function ErrorMove(moveId: string, agentId: string, p: Participant, round: int, error: string, now: string): (r: Move)
    ensures r.moveId == moveId && r.agentId == agentId && r.round == round
    ensures r.moveType == "error" && r.claims == [] && r.targets == []
    ensures r.inputTokens == 0 && r.outputTokens == 0
    ensures r.agentTitle == DisplayTitle(p.expert)
    ensures StartsWith(r.content, ErrorPrefix) && r.content[|ErrorPrefix|..] == error
  {
    StartsWithConcat(ErrorPrefix, error);
    Move(moveId, agentId, DisplayTitle(p.expert), round, "error", ErrorPrefix + error, [], [], now, 0, 0)
  }

  /** The arguments the runner passes to `make_move`. */
  function Request(c: Context, prior: seq<Move>, counter: nat, t: Turn): TurnRequest {
    TurnRequest(t.round, c.spec.context, prior, MoveId(counter), c.memoryContext, c.spec.synthesizerPrompt)
  }

  /** A `make_move` whose moves keep the id, author and round it is given. */
  ghost predicate KeepsIdentity(play: (Participant, TurnRequest) -> Result<Move>) {
    forall p: Participant, req: TurnRequest :: play(p, req).Ok? ==>
      && play(p, req).value.moveId == req.moveId
      && play(p, req).value.agentId == p.expert.id
      && play(p, req).value.round == req.round.number
  }

  lemma AgentPlayKeepsIdentity(llm: (Participant, Prompt) -> Result<Response>, decode: string -> Option<Json>, now: string)
    ensures KeepsIdentity(AgentPlay(llm, decode, now))
  {
    var play := AgentPlay(llm, decode, now);
    forall p: Participant, req: TurnRequest | play(p, req).Ok?
      ensures play(p, req).value.moveId == req.moveId
      ensures play(p, req).value.agentId == p.expert.id
      ensures play(p, req).value.round == req.round.number
    {
      assert play(p, req) == MakeMove(p, req, llm(p, BuildPrompt(p, req)), decode, now);
    }
  }

  /** The move a resolved turn records: the agent's move, or an error move
      when the call or the parse raised. */
  function TurnMove(c: Context, prior: seq<Move>, counter: nat, t: Turn): (r: Move)
    requires t.agentId in c.table
    ensures KeepsIdentity(c.play) ==> r.moveId == MoveId(counter) && r.round == t.round.number
    ensures KeepsIdentity(c.play) && WellKeyed(c.table) ==> r.agentId == t.agentId
  {
    var p := c.table[t.agentId];
    match c.play(p, Request(c, prior, counter, t))
    case Ok(m) => m
    case Err(e) => ErrorMove(MoveId(counter), t.agentId, p, t.round.number, e, c.now)
  }

  /** A turn's move is the agent's own move when `make_move` returns, and
      an error move carrying the exception text when it raises; the agent
      is given the moves before it. */
  lemma TurnOutcome(spec: DebateSpec, table: map<string, Participant>, memoryContext: string,
                    llm: (Participant, Prompt) -> Result<Response>, decode: string -> Option<Json>, now: string,
                    prior: seq<Move>, counter: nat, t: Turn)
    requires t.agentId in table
    ensures var c := Context(spec, table, memoryContext, AgentPlay(llm, decode, now), now);
      var p := table[t.agentId];
      var req := Request(c, prior, counter, t);
      var made := MakeMove(p, req, llm(p, BuildPrompt(p, req)), decode, now);
      && req.prior == prior && req.moveId == MoveId(counter)
      && (made.Ok? ==> TurnMove(c, prior, counter, t) == made.value)
      && (made.Err? ==> TurnMove(c, prior, counter, t)
                        == ErrorMove(MoveId(counter), t.agentId, p, t.round.number, made.error, now))
  {
  }

  /** The loop's running values. */
  datatype Progress = Progress(moves: seq<Move>, counter: nat, inputTokens: int, outputTokens: int)

  const Start := Progress([], 1, 0, 0)

  /** One pass of the inner loop: an agent missing from the roster is
      skipped without using a move number. */
  function TakeTurn(c: Context, pr: Progress, t: Turn): (r: Progress)
    ensures t.agentId !in c.table ==> r == pr
    ensures t.agentId in c.table ==>
      r.moves == pr.moves + [TurnMove(c, pr.moves, pr.counter, t)] && r.counter == pr.counter + 1
  {
    if t.agentId !in c.table then pr
    else
      var m := TurnMove(c, pr.moves, pr.counter, t);
      Progress(pr.moves + [m], pr.counter + 1, pr.inputTokens + m.inputTokens, pr.outputTokens + m.outputTokens)
  }

  /** The loop over turns, as a fold. */
  function RunTurns(c: Context, pr: Progress, turns: seq<Turn>): Progress {
    if |turns| == 0 then pr else TakeTurn(c, RunTurns(c, pr, turns[..|turns| - 1]), turns[|turns| - 1])
  }

  function InputTokens(m: Move): int { m.inputTokens }
  function OutputTokens(m: Move): int { m.outputTokens }

  /** From the start, the counter stays one past the move count, there is
      one move per resolved turn, and the token totals are the sums over the
      moves. */
  lemma {:induction false} RunCounts(c: Context, turns: seq<Turn>)
    ensures var r := RunTurns(c, Start, turns);
      && r.counter == |r.moves| + 1
      && |r.moves| == |Resolved(c.table, turns)|
      && r.inputTokens == SumOver(r.moves, InputTokens)
      && r.outputTokens == SumOver(r.moves, OutputTokens)
  {
    if |turns| > 0 {
      var init := turns[..|turns| - 1];
      var t := turns[|turns| - 1];
      RunCounts(c, init);
      var prev := RunTurns(c, Start, init);
      if t.agentId in c.table {
        var m := TurnMove(c, prev.moves, prev.counter, t);
        SumOverAppend(prev.moves, m, InputTokens);
        SumOverAppend(prev.moves, m, OutputTokens);
      }
    }
  }

  /** The move a turn produces, as a value: the agent's reply to the moves
      so far under the given move number. */
  function Play(c: Context): (seq<Move>, nat, Turn) --> Move {
    (prior: seq<Move>, counter: nat, t: Turn) requires t.agentId in c.table => TurnMove(c, prior, counter, t)
  }

  /** Move k is what `f` produces for the k-th item after seeing exactly the
      k earlier moves, under move number k + 1. */
  ghost predicate Replays<Y>(f: (seq<Move>, nat, Y) --> Move, moves: seq<Move>, ys: seq<Y>) {
    && |moves| == |ys|
    && forall k :: 0 <= k < |moves| ==>
         f.requires(moves[..k], k + 1, ys[k]) && moves[k] == f(moves[..k], k + 1, ys[k])
  }

  /** One more item extends a replay by the move it produces. */
  lemma ReplayStep<Y>(f: (seq<Move>, nat, Y) --> Move, moves: seq<Move>, ys: seq<Y>, y: Y)
    requires Replays(f, moves, ys) && f.requires(moves, |moves| + 1, y)
    ensures Replays(f, moves + [f(moves, |moves| + 1, y)], ys + [y])
  {
    var ms := moves + [f(moves, |moves| + 1, y)];
    forall k | 0 <= k < |ms|
      ensures f.requires(ms[..k], k + 1, (ys + [y])[k]) && ms[k] == f(ms[..k], k + 1, (ys + [y])[k])
    {
      if k < |moves| {
        assert ms[..k] == moves[..k];
      } else {
        assert ms[..k] == moves;
      }
    }
  }

  /** The run replays its resolved turns. */
  lemma {:induction false} RunReplays(c: Context, turns: seq<Turn>)
    ensures Replays(Play(c), RunTurns(c, Start, turns).moves, Resolved(c.table, turns))
  {
    if |turns| > 0 {
      var init := turns[..|turns| - 1];
      var t := turns[|turns| - 1];
      RunReplays(c, init);
      RunCounts(c, init);
      var prev := RunTurns(c, Start, init);
      if t.agentId in c.table {
        ReplayStep(Play(c), prev.moves, Resolved(c.table, init), t);
      }
    }
  }

  /** Moves are numbered M001, M002, … in order, so no two share an id. */
  lemma MoveIdsSequential(c: Context, turns: seq<Turn>)
    requires KeepsIdentity(c.play)
    ensures var r := RunTurns(c, Start, turns);
      forall k :: 0 <= k < |r.moves| ==> r.moves[k].moveId == MoveId(k + 1)
    ensures var r := RunTurns(c, Start, turns);
      forall i, j :: 0 <= i < j < |r.moves| ==> r.moves[i].moveId != r.moves[j].moveId
  {
    RunReplays(c, turns);
  }

  /** With a well-keyed roster, move k belongs to the agent of the k-th
      resolved turn and carries that turn's round number. */
  lemma MovesFollowTurns(c: Context, turns: seq<Turn>)
    requires KeepsIdentity(c.play) && WellKeyed(c.table)
    ensures |RunTurns(c, Start, turns).moves| == |Resolved(c.table, turns)|
    ensures var r := RunTurns(c, Start, turns);
      var rs := Resolved(c.table, turns);
      forall k :: 0 <= k < |r.moves| ==>
        r.moves[k].agentId == rs[k].agentId && r.moves[k].round == rs[k].round.number
  {
    RunReplays(c, turns);
  }

  lemma RunTurnsSnoc(c: Context, pr: Progress, turns: seq<Turn>, t: Turn)
    ensures RunTurns(c, pr, turns + [t]) == TakeTurn(c, RunTurns(c, pr, turns), t)
  {
    assert (turns + [t])[..|turns|] == turns;
  }

  /** `run`'s nested loops over rounds and their agents. */
  method RunRounds(c: Context, rounds: seq<RoundSpec>) returns (pr: Progress)
    ensures pr == RunTurns(c, Start, Turns(rounds))
  {
    pr := Start;
    var i := 0;
    while i < |rounds|
      invariant 0 <= i <= |rounds|
      invariant pr == RunTurns(c, Start, Turns(rounds[..i]))
    {
      var rnd := rounds[i];
      var j := 0;
      assert Turns(rounds[..i]) + RoundTurns(rnd)[..0] == Turns(rounds[..i]);
      while j < |rnd.agents|
        invariant 0 <= j <= |rnd.agents|
        invariant pr == RunTurns(c, Start, Turns(rounds[..i]) + RoundTurns(rnd)[..j])
      {
        var t := Turn(rnd, rnd.agents[j]);
        ghost var done := Turns(rounds[..i]) + RoundTurns(rnd)[..j];
        pr := TakeTurn(c, pr, t);
        RunTurnsSnoc(c, Start, done, t);
        assert RoundTurns(rnd)[..j + 1] == RoundTurns(rnd)[..j] + [t];
        assert Turns(rounds[..i]) + RoundTurns(rnd)[..j + 1] == done + [t];
        j := j + 1;
      }
      assert RoundTurns(rnd)[..j] == RoundTurns(rnd);
      assert rounds[..i + 1][..i] == rounds[..i];
      i := i + 1;
    }
    assert rounds[..i] == rounds;
  }

  // ── The whole run ───────────────────────────────────────

  /** What the run is given besides the spec, panel and memory: the model
      client, the JSON decoder, the clock readings, and the extraction
      call's reply and generated lesson id. */
  datatype Environment = Environment(
    llm: (Participant, Prompt) -> Result<Response>, decode: string -> Option<Json>,
    startedAt: string, finishedAt: string, now: string,
    extractionReply: Result<string>, lessonId: string)

  datatype Outcome = Outcome(state: DebateState, store: Store)

  /** The memory steps after the debate: extraction, then performance, in
      one `try`. A raised extraction skips the performance update; a caught
      parse failure does not; a failing performance update leaves its file. */
  function AfterDebate(s: Store, state: DebateState, env: Environment): (r: Store)
    ensures r.forecasts == s.forecasts && r.bootstrap == s.bootstrap
    ensures ExtractLessons(s, state.specTitle, env.extractionReply, env.decode, env.lessonId, env.now).Raised? ==> r == s
    ensures var e := ExtractLessons(s, state.specTitle, env.extractionReply, env.decode, env.lessonId, env.now);
      e.Saved? ==> r.lessons == e.store.lessons
    ensures var e := ExtractLessons(s, state.specTitle, env.extractionReply, env.decode, env.lessonId, env.now);
      e.Skipped? ==> r.lessons == s.lessons
    ensures var e := ExtractLessons(s, state.specTitle, env.extractionReply, env.decode, env.lessonId, env.now);
      var s1 := if e.Saved? then e.store else s;
      !e.Raised? && LoadPerformance(s1).Ok? ==>
        LoadPerformance(r) == Ok(UpdatePerformance(LoadPerformance(s1).value, state.moves))
    ensures var e := ExtractLessons(s, state.specTitle, env.extractionReply, env.decode, env.lessonId, env.now);
      var s1 := if e.Saved? then e.store else s;
      !e.Raised? && LoadPerformance(s1).Err? ==> r.performance == s1.performance
  {
    var afterLessons := match ExtractLessons(s, state.specTitle, env.extractionReply, env.decode, env.lessonId, env.now)
      case Saved(store, _) => Some(store)
      case Skipped(_) => Some(s)
      case Raised(_) => None;
    match afterLessons
    case None => s
    case Some(s1) =>
      match UpdatePanelPerformance(s1, state)
      case Ok(s2) => s2
      case Err(_) => s1
  }

  /** With readable lesson files and a reply that parses, the post-debate
      step appends the new lessons to the learned file and folds the debate
      into the performance file, or leaves that file when it cannot be read. */
  lemma AfterDebateRecords(s: Store, state: DebateState, env: Environment, boot: seq<Lesson>, learned: seq<Lesson>)
    requires s.bootstrap == Some(LessonFile(boot)) && s.lessons == Some(LessonFile(learned))
    requires env.extractionReply.Ok?
    requires ParseLessons(env.extractionReply.value, env.decode, state.specTitle, env.lessonId, env.now).Ok?
    ensures var r := AfterDebate(s, state, env);
      var added := ParseLessons(env.extractionReply.value, env.decode, state.specTitle, env.lessonId, env.now).value;
      && LoadJsonList(r.lessons, LessonDecoder(env.now)) == Ok(learned + added)
      && r.bootstrap == s.bootstrap && r.forecasts == s.forecasts
      && (LoadPerformance(s).Ok? ==> LoadPerformance(r) == Ok(UpdatePerformance(LoadPerformance(s).value, state.moves)))
      && (LoadPerformance(s).Err? ==> r.performance == s.performance)
  {
    ExtractionAppends(s, state.specTitle, env.extractionReply, env.decode, env.lessonId, env.now, boot, learned);
    var e := ExtractLessons(s, state.specTitle, env.extractionReply, env.decode, env.lessonId, env.now);
    assert e.store.performance == s.performance;
    assert LoadPerformance(e.store) == LoadPerformance(s);
  }

  /** `DebateRunner.run`: a failing lessons read aborts the run before any
      turn; otherwise the state holds the replayed turns, and the memory is
      updated afterwards when in use. */
  function RunDebate(spec: DebateSpec, panel: Panel, model: string, synthModel: string,
                     useMemory: bool, store: Store, env: Environment): (r: Result<Outcome>)
    ensures useMemory ==> (r.Err? <==> LoadContext(store, env.now).Err?)
    ensures !useMemory ==> r.Ok? && r.value.store == store
    ensures r.Ok? ==> r.value.store.forecasts == store.forecasts
    ensures r.Ok? ==> var st := r.value.state;
      && st.specTitle == spec.title && st.panelName == panel.name
      && st.numExperts == |panel.experts| && st.numRounds == |spec.rounds|
      && st.startedAt == env.startedAt && st.finishedAt == env.finishedAt
      && |st.moves| == |Resolved(AgentTable(panel, model, synthModel), Turns(spec.rounds))|
      && (forall k :: 0 <= k < |st.moves| ==> st.moves[k].moveId == MoveId(k + 1))
      && st.totalInputTokens == SumOver(st.moves, InputTokens)
      && st.totalOutputTokens == SumOver(st.moves, OutputTokens)
  {
    var memoryContext :- if useMemory then LoadContext(store, env.now) else Ok("");
    var c := Context(spec, AgentTable(panel, model, synthModel), memoryContext, AgentPlay(env.llm, env.decode, env.now), env.now);
    var pr := RunTurns(c, Start, Turns(spec.rounds));
    RunCounts(c, Turns(spec.rounds));
    AgentPlayKeepsIdentity(env.llm, env.decode, env.now);
    MoveIdsSequential(c, Turns(spec.rounds));
    var state := DebateState(spec.title, panel.name, model, synthModel, |panel.experts|, |spec.rounds|,
                             pr.moves, env.startedAt, env.finishedAt, pr.inputTokens, pr.outputTokens);
    Ok(Outcome(state, if useMemory then AfterDebate(store, state, env) else store))
  }

  /** The returned state does not depend on what the memory steps do. */
  lemma StateIgnoresExtraction(spec: DebateSpec, panel: Panel, model: string, synthModel: string,
                               useMemory: bool, store: Store, env: Environment,
                               reply: Result<string>, lessonId: string)
    requires RunDebate(spec, panel, model, synthModel, useMemory, store, env).Ok?
    ensures var other := env.(extractionReply := reply, lessonId := lessonId);
      RunDebate(spec, panel, model, synthModel, useMemory, store, other).Ok?
      && RunDebate(spec, panel, model, synthModel, useMemory, store, other).value.state
         == RunDebate(spec, panel, model, synthModel, useMemory, store, env).value.state
  {
  }

  /** When every listed agent is on the roster, every slot yields a move. */
  lemma EverySlotMoves(spec: DebateSpec, panel: Panel, model: string, synthModel: string,
                       useMemory: bool, store: Store, env: Environment)
    requires forall i, j :: 0 <= i < |spec.rounds| && 0 <= j < |spec.rounds[i].agents| ==>
      spec.rounds[i].agents[j] == SynthesizerId || spec.rounds[i].agents[j] in ListIds(panel)
    requires RunDebate(spec, panel, model, synthModel, useMemory, store, env).Ok?
    ensures |RunDebate(spec, panel, model, synthModel, useMemory, store, env).value.state.moves| == Slots(spec.rounds)
  {
    var table := AgentTable(panel, model, synthModel);
    AllTurnsListed(spec.rounds, table);
    TurnsCount(spec.rounds);
  }

  lemma {:induction false} AllTurnsListed(rounds: seq<RoundSpec>, table: map<string, Participant>)
    requires forall i, j :: 0 <= i < |rounds| && 0 <= j < |rounds[i].agents| ==> rounds[i].agents[j] in table
    ensures forall k :: 0 <= k < |Turns(rounds)| ==> Turns(rounds)[k].agentId in table
  {
    if |rounds| > 0 {
      var init := rounds[..|rounds| - 1];
      AllTurnsListed(init, table);
      var last := rounds[|rounds| - 1];
      assert forall j :: 0 <= j < |last.agents| ==> last.agents[j] in table;
    }
  }
}

=== FILE: schemas.dfy ===
/** The records of the debate system (think_tank/schemas.py) and their
    conversion to and from JSON values (`to_dict` / `from_dict`). */
module Schemas {
  import opened Results
  import opened Text
  import opened Json
  import opened RealMath

  // ── Records ─────────────────────────────────────────────

  datatype Expert = Expert(
    id: string, name: string, title: string,
    background: string, bias: string, lens: string, domain: string)

  datatype Evidence = Evidence(source: string, quote: string)

  datatype Claim = Claim(
    id: string, text: string, confidence: real,
    evidence: seq<Evidence>, assumptions: seq<string>, stance: string)

  /** One agent's contribution in one round. `moveType` is one of
      "claim", "object", "defend", "synthesize", "error" by convention. */
  datatype Move = Move(
    moveId: string, agentId: string, agentTitle: string, round: int,
    moveType: string, content: string, claims: seq<Claim>, targets: seq<string>,
    timestamp: string, inputTokens: int, outputTokens: int)

  datatype RoundSpec = RoundSpec(number: int, focus: string, question: string, agents: seq<string>)

  datatype DebateSpec = DebateSpec(title: string, context: string, rounds: seq<RoundSpec>, synthesizerPrompt: string)

  datatype Panel = Panel(name: string, description: string, experts: seq<Expert>)

  datatype DebateState = DebateState(
    specTitle: string, panelName: string, model: string, synthModel: string,
    numExperts: int, numRounds: int, moves: seq<Move>,
    startedAt: string, finishedAt: string,
    totalInputTokens: int, totalOutputTokens: int)

  datatype Lesson = Lesson(
    id: string, text: string, sourceDebate: string, sourceRound: int,
    category: string, confidence: real, createdAt: string)

  datatype Forecast = Forecast(
    id: string, text: string, probability: real, deadline: string,
    sourceDebate: string, sourceClaimId: string, resolved: bool,
    outcome: Option<bool>, resolvedAt: string, createdAt: string)

  datatype ExpertPerformance = ExpertPerformance(
    expertId: string, debatesParticipated: int, totalClaims: int,
    avgConfidence: real, challengesReceived: int, challengesMade: int)

  // ── Expert and Panel ────────────────────────────────────

  /** `Expert.display_title`: "name (title)". */
  function DisplayTitle(e: Expert): (r: string)
    ensures |r| == |e.name| + |e.title| + 3
    ensures r[..|e.name|] == e.name
    ensures r[|e.name|..|e.name| + 2] == " ("
    ensures r[|e.name| + 2..|r| - 1] == e.title
    ensures r[|r| - 1] == ')'
  {
    e.name + " (" + e.title + ")"
  }

  /** `Panel.list_ids`: the expert ids in panel order. */
  function ListIds(p: Panel): (r: seq<string>)
    ensures |r| == |p.experts|
    ensures forall i :: 0 <= i < |r| ==> r[i] == p.experts[i].id
  {
    seq(|p.experts|, i requires 0 <= i < |p.experts| => p.experts[i].id)
  }

  /** The position of the first element whose key is `id`: the search both
      `Panel.get_expert` and the forecast store perform. */
  function FirstWith<T>(xs: seq<T>, key: T -> string, id: string): (r: Option<nat>)
    ensures r.Some? ==> r.value < |xs| && key(xs[r.value]) == id
    ensures r.Some? ==> forall j :: 0 <= j < r.value ==> key(xs[j]) != id
    ensures r.None? ==> forall j :: 0 <= j < |xs| ==> key(xs[j]) != id
  {
    if |xs| == 0 then None
    else if key(xs[0]) == id then Some(0)
    else match FirstWith(xs[1..], key, id)
      case None => None
      case Some(k) => Some(k + 1)
  }

  function ExpertId(e: Expert): string {
    e.id
  }

  function ForecastId(f: Forecast): string {
    f.id
  }

  /** `Panel.get_expert`: the first expert with the id, or nothing. */
  function GetExpert(p: Panel, id: string): (r: Option<Expert>)
    ensures r.Some? <==> id in ListIds(p)
    ensures r.Some? ==> r.value.id == id
    ensures r.Some? ==> exists i :: 0 <= i < |p.experts| && p.experts[i] == r.value
                                    && forall j :: 0 <= j < i ==> p.experts[j].id != id
  {
    match FirstWith(p.experts, ExpertId, id)
    case None => None
    case Some(i) => Some(p.experts[i])
  }

  // ── Derived values ──────────────────────────────────────

  /** Sum of an integer quantity over a list of moves. */
  function SumOver(ms: seq<Move>, f: Move -> int): int {
    if |ms| == 0 then 0 else f(ms[0]) + SumOver(ms[1..], f)
  }

  lemma {:induction false} SumOverAppend(ms: seq<Move>, m: Move, f: Move -> int)
    ensures SumOver(ms + [m], f) == SumOver(ms, f) + f(m)
  {
    if |ms| == 0 {
      assert ms + [m] == [m];
    } else {
      assert (ms + [m])[1..] == ms[1..] + [m];
      SumOverAppend(ms[1..], m, f);
    }
  }

  lemma {:induction false} SumOverNonNegative(ms: seq<Move>, f: Move -> int)
    requires forall i :: 0 <= i < |ms| ==> f(ms[i]) >= 0
    ensures SumOver(ms, f) >= 0
  {
    if |ms| > 0 {
      assert forall i :: 0 <= i < |ms| - 1 ==> ms[1..][i] == ms[i + 1];
      SumOverNonNegative(ms[1..], f);
    }
  }

  function ClaimCount(m: Move): int {
    |m.claims|
  }

  /** `DebateState.total_claims`. */
  function TotalClaims(ms: seq<Move>): int {
    SumOver(ms, ClaimCount)
  }

  /** All claims of the moves, in move order. */
  function AllClaims(ms: seq<Move>): seq<Claim> {
    if |ms| == 0 then [] else ms[0].claims + AllClaims(ms[1..])
  }

  /** `total_claims` is the number of claims across all moves. */
  lemma {:induction false} TotalClaimsCountsClaims(ms: seq<Move>)
    ensures TotalClaims(ms) == |AllClaims(ms)|
  {
    if |ms| > 0 {
      TotalClaimsCountsClaims(ms[1..]);
    }
  }

  /** Appending a move adds exactly its claim count. */
  lemma TotalClaimsAppend(ms: seq<Move>, m: Move)
    ensures TotalClaims(ms + [m]) == TotalClaims(ms) + |m.claims|
  {
    SumOverAppend(ms, m, ClaimCount);
  }

  /** 1 for an outcome that happened, 0 otherwise. */
  function Actual(outcome: bool): real {
    if outcome then 1.0 else 0.0
  }

  /** `Forecast.brier_score`: defined only for a resolved forecast with an outcome. */
  function BrierScore(f: Forecast): (r: Option<real>)
    ensures r.Some? <==> f.resolved && f.outcome.Some?
    ensures r.Some? ==> r.value >= 0.0
    ensures r.Some? && 0.0 <= f.probability <= 1.0 ==> r.value <= 1.0
    ensures r.Some? ==> (r.value == 0.0 <==> f.probability == Actual(f.outcome.value))
  {
    if !f.resolved || f.outcome.None? then None
    else
      Some(Square(f.probability - Actual(f.outcome.value)))
  }

  lemma BrierExamples(f: Forecast)
    requires f.resolved && f.probability == 0.9
    ensures f.outcome == Some(true) ==> BrierScore(f) == Some(0.01)
    ensures f.outcome == Some(false) ==> BrierScore(f) == Some(0.81)
    ensures f.outcome == None ==> BrierScore(f) == None
  {
  }

  // ── to_dict / from_dict ─────────────────────────────────

  function EvidenceToJson(e: Evidence): Json {
    JObj(map["source" := JStr(e.source), "quote" := JStr(e.quote)])
  }

  /** `Evidence(**e)`: every key must be a field of Evidence and "source" is required. */
  function EvidenceFromJson(j: Json): (r: Result<Evidence>)
    ensures r.Ok? ==> j.JObj? && "source" in j.fields && j.fields.Keys <= {"source", "quote"}
  {
    if !j.JObj? then Err("TypeError: argument after ** must be a mapping")
    else if !(j.fields.Keys <= {"source", "quote"}) then Err("TypeError: unexpected keyword argument")
    else
      var source :- Required(j.fields, "source", AsString);
      var quote :- GetStr(j.fields, "quote", "");
      Ok(Evidence(source, quote))
  }

  function ClaimToJson(c: Claim): Json {
    JObj(map[
      "id" := JStr(c.id), "text" := JStr(c.text), "confidence" := JReal(c.confidence),
      "evidence" := JArr(EncodeAll(c.evidence, EvidenceToJson)),
      "assumptions" := StrList(c.assumptions), "stance" := JStr(c.stance)])
  }

  /** The fields of a claim object have the claim's types, where present. */
  predicate ClaimFieldsOk(o: Fields) {
    && StrOk(o, "id") && StrOk(o, "text") && RealOk(o, "confidence")
    && ListOk(o, "evidence", EvidenceFromJson) && ListOk(o, "assumptions", AsString)
    && StrOk(o, "stance")
  }

  /** The claim part of `Move.from_dict`: each field is read from its key, an
      absent key gives the default (confidence 0.7, stance "neutral", empty
      strings and lists), and other keys are ignored. */
  function ClaimFromJson(j: Json): (r: Result<Claim>)
    ensures r.Ok? <==> j.JObj? && ClaimFieldsOk(j.fields)
    ensures r.Ok? ==> && StrAt(j.fields, "id", "", r.value.id)
                      && StrAt(j.fields, "text", "", r.value.text)
                      && RealAt(j.fields, "confidence", 0.7, r.value.confidence)
    ensures r.Ok? ==> && ListAt(j.fields, "evidence", EvidenceFromJson, r.value.evidence)
                      && ListAt(j.fields, "assumptions", AsString, r.value.assumptions)
                      && StrAt(j.fields, "stance", "neutral", r.value.stance)
    ensures j.JObj? && j.fields == map[] ==> r == Ok(Claim("", "", 0.7, [], [], "neutral"))
  {
    var o :- AsObject(j);
    var id :- GetStr(o, "id", "");
    var text :- GetStr(o, "text", "");
    var confidence :- GetReal(o, "confidence", 0.7);
    var evidence :- GetList(o, "evidence", EvidenceFromJson);
    var assumptions :- GetList(o, "assumptions", AsString);
    var stance :- GetStr(o, "stance", "neutral");
    Ok(Claim(id, text, confidence, evidence, assumptions, stance))
  }

  function MoveToJson(m: Move): Json {
    JObj(map[
      "move_id" := JStr(m.moveId), "agent_id" := JStr(m.agentId),
      "agent_title" := JStr(m.agentTitle), "round" := JInt(m.round),
      "move_type" := JStr(m.moveType), "content" := JStr(m.content),
      "claims" := JArr(EncodeAll(m.claims, ClaimToJson)),
      "targets" := StrList(m.targets), "timestamp" := JStr(m.timestamp),
      "input_tokens" := JInt(m.inputTokens), "output_tokens" := JInt(m.outputTokens)])
  }

  /** The fields of a move object have the move's types, where present. */
  predicate MoveFieldsOk(o: Fields) {
    && StrOk(o, "move_id") && StrOk(o, "agent_id") && StrOk(o, "agent_title")
    && IntOk(o, "round") && StrOk(o, "move_type") && StrOk(o, "content")
    && ListOk(o, "claims", ClaimFromJson) && ListOk(o, "targets", AsString)
    && StrOk(o, "timestamp") && IntOk(o, "input_tokens") && IntOk(o, "output_tokens")
  }

  /** `Move.from_dict`: each field is read from its key, an absent key gives
      the default (move_type "claim", round 0, empty strings and lists, zero
      tokens), and other keys are ignored. */
  function MoveFromJson(j: Json): (r: Result<Move>)
    ensures r.Ok? <==> j.JObj? && MoveFieldsOk(j.fields)
    ensures r.Ok? ==> && StrAt(j.fields, "move_id", "", r.value.moveId)
                      && StrAt(j.fields, "agent_id", "", r.value.agentId)
                      && StrAt(j.fields, "agent_title", "", r.value.agentTitle)
                      && IntAt(j.fields, "round", 0, r.value.round)
                      && StrAt(j.fields, "move_type", "claim", r.value.moveType)
                      && StrAt(j.fields, "content", "", r.value.content)
    ensures r.Ok? ==> && ListAt(j.fields, "claims", ClaimFromJson, r.value.claims)
                      && ListAt(j.fields, "targets", AsString, r.value.targets)
                      && StrAt(j.fields, "timestamp", "", r.value.timestamp)
                      && IntAt(j.fields, "input_tokens", 0, r.value.inputTokens)
                      && IntAt(j.fields, "output_tokens", 0, r.value.outputTokens)
    ensures j.JObj? && j.fields == map[] ==> r == Ok(Move("", "", "", 0, "claim", "", [], [], "", 0, 0))
  {
    var o :- AsObject(j);
    var moveId :- GetStr(o, "move_id", "");
    var agentId :- GetStr(o, "agent_id", "");
    var agentTitle :- GetStr(o, "agent_title", "");
    var round :- GetInt(o, "round", 0);
    var moveType :- GetStr(o, "move_type", "claim");
    var content :- GetStr(o, "content", "");
    var claims :- GetList(o, "claims", ClaimFromJson);
    var targets :- GetList(o, "targets", AsString);
    var timestamp :- GetStr(o, "timestamp", "");
    var inputTokens :- GetInt(o, "input_tokens", 0);
    var outputTokens :- GetInt(o, "output_tokens", 0);
    Ok(Move(moveId, agentId, agentTitle, round, moveType, content, claims, targets,
            timestamp, inputTokens, outputTokens))
  }

  lemma EvidenceRoundTrip(e: Evidence)
    ensures EvidenceFromJson(EvidenceToJson(e)) == Ok(e)
  {
  }

  lemma ClaimRoundTrip(c: Claim)
    ensures ClaimFromJson(ClaimToJson(c)) == Ok(c)
  {
    var o := ClaimToJson(c).fields;
    forall e ensures EvidenceFromJson(EvidenceToJson(e)) == Ok(e) {
      EvidenceRoundTrip(e);
    }
    GetListRoundTrip(o, "evidence", c.evidence, EvidenceToJson, EvidenceFromJson);
    StrListRoundTrip(o, "assumptions", c.assumptions);
  }

  /** Every field of a move, including nested claims and evidence in order,
      survives `to_dict` followed by `from_dict`. */
  lemma MoveRoundTrip(m: Move)
    ensures MoveFromJson(MoveToJson(m)) == Ok(m)
  {
    var o := MoveToJson(m).fields;
    MoveHeaderKeys(m, o);
    MoveBodyKeys(m, o);
    ReadsMoveFields(m, o);
  }

  ghost predicate HoldsMoveHeader(m: Move, o: Fields) {
    && "move_id" in o && o["move_id"] == JStr(m.moveId)
    && "agent_id" in o && o["agent_id"] == JStr(m.agentId)
    && "agent_title" in o && o["agent_title"] == JStr(m.agentTitle)
    && "round" in o && o["round"] == JInt(m.round)
    && "move_type" in o && o["move_type"] == JStr(m.moveType)
    && "content" in o && o["content"] == JStr(m.content)
  }

  ghost predicate HoldsMoveBody(m: Move, o: Fields) {
    && "claims" in o && o["claims"] == JArr(EncodeAll(m.claims, ClaimToJson))
    && "targets" in o && o["targets"] == StrList(m.targets)
    && "timestamp" in o && o["timestamp"] == JStr(m.timestamp)
    && "input_tokens" in o && o["input_tokens"] == JInt(m.inputTokens)
    && "output_tokens" in o && o["output_tokens"] == JInt(m.outputTokens)
  }

  lemma MoveHeaderKeys(m: Move, o: Fields)
    requires o == MoveToJson(m).fields
    ensures HoldsMoveHeader(m, o)
  {
  }

  lemma MoveBodyKeys(m: Move, o: Fields)
    requires o == MoveToJson(m).fields
    ensures HoldsMoveBody(m, o)
  {
  }

  lemma ReadsMoveFields(m: Move, o: Fields)
    requires HoldsMoveHeader(m, o) && HoldsMoveBody(m, o)
    ensures MoveFromJson(JObj(o)) == Ok(m)
  {
    forall c ensures ClaimFromJson(ClaimToJson(c)) == Ok(c) {
      ClaimRoundTrip(c);
    }
    GetListRoundTrip(o, "claims", m.claims, ClaimToJson, ClaimFromJson);
    StrListRoundTrip(o, "targets", m.targets);
  }

  /** `DebateState.to_dict`: the stored fields, the moves, and the derived
      counts "total_moves" and "total_claims". */
  function DebateStateToJson(s: DebateState): (r: Json)
    ensures r.JObj? && "total_moves" in r.fields && "total_claims" in r.fields
    ensures r.fields["total_moves"] == JInt(|s.moves|)
    ensures r.fields["total_claims"] == JInt(TotalClaims(s.moves))
  {
    JObj(map[
      "spec_title" := JStr(s.specTitle), "panel_name" := JStr(s.panelName),
      "model" := JStr(s.model), "synth_model" := JStr(s.synthModel),
      "num_experts" := JInt(s.numExperts), "num_rounds" := JInt(s.numRounds),
      "total_moves" := JInt(|s.moves|), "total_claims" := JInt(TotalClaims(s.moves)),
      "total_input_tokens" := JInt(s.totalInputTokens),
      "total_output_tokens" := JInt(s.totalOutputTokens),
      "started_at" := JStr(s.startedAt), "finished_at" := JStr(s.finishedAt),
      "moves" := JArr(EncodeAll(s.moves, MoveToJson))])
  }

  /** `DebateState.from_dict`; the derived keys are not read. */
  function DebateStateFromJson(j: Json): (r: Result<DebateState>)
    ensures r.Ok? ==> j.JObj?
  {
    var o :- AsObject(j);
    var specTitle :- GetStr(o, "spec_title", "");
    var panelName :- GetStr(o, "panel_name", "");
    var model :- GetStr(o, "model", "");
    var synthModel :- GetStr(o, "synth_model", "");
    var numExperts :- GetInt(o, "num_experts", 0);
    var numRounds :- GetInt(o, "num_rounds", 0);
    var startedAt :- GetStr(o, "started_at", "");
    var finishedAt :- GetStr(o, "finished_at", "");
    var totalIn :- GetInt(o, "total_input_tokens", 0);
    var totalOut :- GetInt(o, "total_output_tokens", 0);
    var moves :- GetList(o, "moves", MoveFromJson);
    Ok(DebateState(specTitle, panelName, model, synthModel, numExperts, numRounds, moves,
                   startedAt, finishedAt, totalIn, totalOut))
  }

  /** A debate state survives a save and reload with every stored field and
      the exact move order; the derived keys play no part. */
  lemma DebateStateRoundTrip(s: DebateState)
    ensures DebateStateFromJson(DebateStateToJson(s)) == Ok(s)
  {
    var o := DebateStateToJson(s).fields;
    StoredKeys(s, o);
    ReadsStoredFields(s, o);
  }

  ghost predicate HoldsStoredFields(s: DebateState, o: Fields) {
    HoldsHeaderFields(s, o) && HoldsRunFields(s, o)
  }

  ghost predicate HoldsHeaderFields(s: DebateState, o: Fields) {
    && "spec_title" in o && o["spec_title"] == JStr(s.specTitle)
    && "panel_name" in o && o["panel_name"] == JStr(s.panelName)
    && "model" in o && o["model"] == JStr(s.model)
    && "synth_model" in o && o["synth_model"] == JStr(s.synthModel)
    && "num_experts" in o && o["num_experts"] == JInt(s.numExperts)
    && "num_rounds" in o && o["num_rounds"] == JInt(s.numRounds)
  }

  ghost predicate HoldsRunFields(s: DebateState, o: Fields) {
    && "total_input_tokens" in o && o["total_input_tokens"] == JInt(s.totalInputTokens)
    && "total_output_tokens" in o && o["total_output_tokens"] == JInt(s.totalOutputTokens)
    && "started_at" in o && o["started_at"] == JStr(s.startedAt)
    && "finished_at" in o && o["finished_at"] == JStr(s.finishedAt)
    && "moves" in o && o["moves"] == JArr(EncodeAll(s.moves, MoveToJson))
  }

  lemma StoredKeys(s: DebateState, o: Fields)
    requires o == DebateStateToJson(s).fields
    ensures HoldsStoredFields(s, o)
  {
    HeaderKeys(s, o);
    RunKeys(s, o);
  }

  lemma HeaderKeys(s: DebateState, o: Fields)
    requires o == DebateStateToJson(s).fields
    ensures HoldsHeaderFields(s, o)
  {
  }

  lemma RunKeys(s: DebateState, o: Fields)
    requires o == DebateStateToJson(s).fields
    ensures HoldsRunFields(s, o)
  {
  }

  lemma DerivedKeyUpdate(s: DebateState, o: Fields, k: string, v: Json)
    requires HoldsStoredFields(s, o)
    requires k == "total_moves" || k == "total_claims"
    ensures HoldsStoredFields(s, o[k := v])
  {
  }

  lemma ReadsStoredFields(s: DebateState, o: Fields)
    requires HoldsStoredFields(s, o)
    ensures DebateStateFromJson(JObj(o)) == Ok(s)
  {
    forall m ensures MoveFromJson(MoveToJson(m)) == Ok(m) {
      MoveRoundTrip(m);
    }
    GetListRoundTrip(o, "moves", s.moves, MoveToJson, MoveFromJson);
  }

  /** Reloading ignores whatever the derived keys hold. */
  lemma DerivedKeysIgnored(s: DebateState, totalMoves: Json, totalClaims: Json)
    ensures DebateStateFromJson(JObj(DebateStateToJson(s).fields["total_moves" := totalMoves]["total_claims" := totalClaims])) == Ok(s)
  {
    var o0 := DebateStateToJson(s).fields;
    StoredKeys(s, o0);
    var o1 := o0["total_moves" := totalMoves];
    DerivedKeyUpdate(s, o0, "total_moves", totalMoves);
    DerivedKeyUpdate(s, o1, "total_claims", totalClaims);
    ReadsStoredFields(s, o1["total_claims" := totalClaims]);
  }

  function LessonToJson(l: Lesson): Json {
    JObj(map[
      "id" := JStr(l.id), "text" := JStr(l.text), "source_debate" := JStr(l.sourceDebate),
      "source_round" := JInt(l.sourceRound), "category" := JStr(l.category),
      "confidence" := JReal(l.confidence), "created_at" := JStr(l.createdAt)])
  }

  /** `Lesson.from_dict`: unknown keys are dropped; id, text and source_debate
      are required; `now` is the clock reading used for a missing created_at. */
  function LessonFromJson(j: Json, now: string): (r: Result<Lesson>)
    ensures r.Ok? ==> j.JObj? && "id" in j.fields && "text" in j.fields && "source_debate" in j.fields
    ensures r.Ok? && "created_at" !in j.fields ==> r.value.createdAt == now
    ensures r.Ok? && "created_at" in j.fields ==> j.fields["created_at"] == JStr(r.value.createdAt)
  {
    var o :- AsObject(j);
    var id :- Required(o, "id", AsString);
    var text :- Required(o, "text", AsString);
    var sourceDebate :- Required(o, "source_debate", AsString);
    var sourceRound :- GetInt(o, "source_round", 0);
    var category :- GetStr(o, "category", "");
    var confidence :- GetReal(o, "confidence", 0.8);
    var createdAt :- GetStr(o, "created_at", now);
    Ok(Lesson(id, text, sourceDebate, sourceRound, category, confidence, createdAt))
  }

  lemma LessonRoundTrip(l: Lesson, now: string)
    ensures LessonFromJson(LessonToJson(l), now) == Ok(l)
  {
  }

  /** The stored fields of a forecast. */
  function ForecastFields(f: Forecast): Fields {
    map[
      "id" := JStr(f.id), "text" := JStr(f.text), "probability" := JReal(f.probability),
      "deadline" := JStr(f.deadline), "source_debate" := JStr(f.sourceDebate),
      "source_claim_id" := JStr(f.sourceClaimId), "resolved" := JBool(f.resolved),
      "outcome" := (if f.outcome.Some? then JBool(f.outcome.value) else JNull),
      "resolved_at" := JStr(f.resolvedAt), "created_at" := JStr(f.createdAt)]
  }

  function BrierJson(f: Forecast): Json {
    if BrierScore(f).Some? then JReal(BrierScore(f).value) else JNull
  }

  /** `Forecast.to_dict`: every field plus the derived "brier_score". */
  function ForecastToJson(f: Forecast): (r: Json)
    ensures r.JObj? && "brier_score" in r.fields
    ensures r.fields["brier_score"] == BrierJson(f)
  {
    JObj(ForecastFields(f)["brier_score" := BrierJson(f)])
  }

  /** `Forecast.from_dict`: unknown keys (brier_score among them) are dropped. */
  function ForecastFromJson(j: Json, now: string): (r: Result<Forecast>)
    ensures r.Ok? ==> j.JObj? && "probability" in j.fields && "deadline" in j.fields
    ensures r.Ok? && "resolved" !in j.fields ==> !r.value.resolved
  {
    var o :- AsObject(j);
    var id :- Required(o, "id", AsString);
    var text :- Required(o, "text", AsString);
    var probability :- Required(o, "probability", AsReal);
    var deadline :- Required(o, "deadline", AsString);
    var sourceDebate :- Required(o, "source_debate", AsString);
    var sourceClaimId :- GetStr(o, "source_claim_id", "");
    var resolved :- GetBool(o, "resolved", false);
    var outcome :- GetOptBool(o, "outcome");
    var resolvedAt :- GetStr(o, "resolved_at", "");
    var createdAt :- GetStr(o, "created_at", now);
    Ok(Forecast(id, text, probability, deadline, sourceDebate, sourceClaimId,
                resolved, outcome, resolvedAt, createdAt))
  }

  ghost predicate HoldsForecastHead(f: Forecast, o: Fields) {
    && "id" in o && o["id"] == JStr(f.id)
    && "text" in o && o["text"] == JStr(f.text)
    && "probability" in o && o["probability"] == JReal(f.probability)
    && "deadline" in o && o["deadline"] == JStr(f.deadline)
    && "source_debate" in o && o["source_debate"] == JStr(f.sourceDebate)
  }

  ghost predicate HoldsForecastTail(f: Forecast, o: Fields) {
    && "source_claim_id" in o && o["source_claim_id"] == JStr(f.sourceClaimId)
    && "resolved" in o && o["resolved"] == JBool(f.resolved)
    && "outcome" in o && o["outcome"] == (if f.outcome.Some? then JBool(f.outcome.value) else JNull)
    && "resolved_at" in o && o["resolved_at"] == JStr(f.resolvedAt)
    && "created_at" in o && o["created_at"] == JStr(f.createdAt)
  }

  lemma ForecastHeadKeys(f: Forecast, score: Json, o: Fields)
    requires o == ForecastFields(f)["brier_score" := score]
    ensures HoldsForecastHead(f, o)
  {
  }

  lemma ForecastTailKeys(f: Forecast, score: Json, o: Fields)
    requires o == ForecastFields(f)["brier_score" := score]
    ensures HoldsForecastTail(f, o)
  {
  }

  lemma ReadsForecastFields(f: Forecast, now: string, o: Fields)
    requires HoldsForecastHead(f, o) && HoldsForecastTail(f, o)
    ensures ForecastFromJson(JObj(o), now) == Ok(f)
  {
  }

  /** Whatever the stored "brier_score" holds, reading ignores it. */
  lemma BrierKeyIgnored(f: Forecast, now: string, score: Json)
    ensures ForecastFromJson(JObj(ForecastFields(f)["brier_score" := score]), now) == Ok(f)
  {
    var o := ForecastFields(f)["brier_score" := score];
    ForecastHeadKeys(f, score, o);
    ForecastTailKeys(f, score, o);
    ReadsForecastFields(f, now, o);
  }

  /** The stored Brier score is dropped on reload and recomputed from the fields. */
  lemma ForecastRoundTrip(f: Forecast, now: string)
    ensures ForecastFromJson(ForecastToJson(f), now) == Ok(f)
  {
    BrierKeyIgnored(f, now, BrierJson(f));
  }

  function PerformanceToJson(p: ExpertPerformance): Json {
    JObj(map[
      "expert_id" := JStr(p.expertId), "debates_participated" := JInt(p.debatesParticipated),
      "total_claims" := JInt(p.totalClaims), "avg_confidence" := JReal(p.avgConfidence),
      "challenges_received" := JInt(p.challengesReceived),
      "challenges_made" := JInt(p.challengesMade)])
  }

  /** `ExpertPerformance.from_dict`: expert_id is required, counters default to zero. */
  function PerformanceFromJson(j: Json): (r: Result<ExpertPerformance>)
    ensures r.Ok? ==> j.JObj? && "expert_id" in j.fields
    ensures r.Ok? ==> j.fields["expert_id"] == JStr(r.value.expertId)
  {
    var o :- AsObject(j);
    var expertId :- Required(o, "expert_id", AsString);
    var debates :- GetInt(o, "debates_participated", 0);
    var totalClaims :- GetInt(o, "total_claims", 0);
    var avg :- GetReal(o, "avg_confidence", 0.0);
    var received :- GetInt(o, "challenges_received", 0);
    var made :- GetInt(o, "challenges_made", 0);
    Ok(ExpertPerformance(expertId, debates, totalClaims, avg, received, made))
  }

  /** A record holding only an expert id reads back with every counter at zero. */
  lemma PerformanceDefaults(id: string)
    ensures PerformanceFromJson(JObj(map["expert_id" := JStr(id)])) == Ok(ExpertPerformance(id, 0, 0, 0.0, 0, 0))
  {
  }

  lemma PerformanceRoundTrip(p: ExpertPerformance)
    ensures PerformanceFromJson(PerformanceToJson(p)) == Ok(p)
  {
  }
}

=== FILE: text.dfy ===
/** String operations the source performs with Python built-ins: `in` and
    `str.index`, `str.strip`, slicing `s[:n]`, `str.lower`, `str.replace`,
    `"\n".join`, and decimal rendering of integers (`str(n)`, `f"{n:03d}"`). */
module Text {
  import opened Results

  /** The characters Python's `str.isspace` accepts, which `str.strip()` removes. */
  predicate IsSpace(c: char) {
    || c == ' ' || c == '\t' || c == '\n' || c == '\r'
    || c == '\U{0B}' || c == '\U{0C}'
    || ('\U{1C}' <= c <= '\U{1F}')
    || c == '\U{85}' || c == '\U{A0}' || c == '\U{1680}'
    || ('\U{2000}' <= c <= '\U{200A}')
    || c == '\U{2028}' || c == '\U{2029}' || c == '\U{202F}' || c == '\U{205F}' || c == '\U{3000}'
  }

  predicate AllSpace(s: string) {
    forall k :: 0 <= k < |s| ==> IsSpace(s[k])
  }

  /** Python's `s[:n]` for a non-negative `n`. */
  function Take(s: string, n: nat): (r: string)
    ensures |r| == if |s| < n then |s| else n
    ensures r == s[..|r|]
  {
    if |s| <= n then s else s[..n]
  }

  /** Python's `s.startswith(prefix)`. */
  predicate StartsWith(s: string, prefix: string) {
    |prefix| <= |s| && s[..|prefix|] == prefix
  }

  lemma StartsWithConcat(a: string, b: string)
    ensures StartsWith(a + b, a)
  {
    assert (a + b)[..|a|] == a;
  }

  /** Python's `xs[-n:]` for a positive `n`. */
  function Last<T>(xs: seq<T>, n: nat): (r: seq<T>)
    ensures |r| == if |xs| < n then |xs| else n
    ensures r == xs[|xs| - |r|..]
  {
    if |xs| <= n then xs else xs[|xs| - n..]
  }

  /** `sub` occurs in `s` starting at index `i`. */
  predicate OccursAt(s: string, sub: string, i: int) {
    0 <= i && i + |sub| <= |s| && s[i..i + |sub|] == sub
  }

  ghost predicate IsSubstring(sub: string, s: string) {
    exists k :: OccursAt(s, sub, k)
  }

  /** Python's `s.index(sub, from)`, with `None` where Python raises
      ValueError: the first occurrence of `sub` at or after `from`. */
  function Find(s: string, sub: string, from: nat): (r: Option<nat>)
    ensures r.Some? ==> from <= r.value && OccursAt(s, sub, r.value)
    ensures r.Some? ==> forall j :: from <= j < r.value ==> !OccursAt(s, sub, j)
    ensures r.None? ==> forall j :: from <= j ==> !OccursAt(s, sub, j)
    decreases |s| - from
  {
    if from + |sub| > |s| then None
    else if s[from..from + |sub|] == sub then Some(from)
    else Find(s, sub, from + 1)
  }

  /** Python's `sub in s`. */
  predicate Contains(s: string, sub: string) {
    Find(s, sub, 0).Some?
  }

  lemma ContainsIsSubstring(s: string, sub: string)
    ensures Contains(s, sub) <==> IsSubstring(sub, s)
  {
    if IsSubstring(sub, s) {
      var k :| OccursAt(s, sub, k);
      assert 0 <= k;
    }
  }

  lemma OccursInConcat(a: string, sub: string, b: string)
    ensures OccursAt(a + sub + b, sub, |a|)
  {
    assert (a + sub + b)[|a|..|a| + |sub|] == sub;
  }

  /** An occurrence survives appending. */
  lemma OccursInLonger(s: string, sub: string, i: int, b: string)
    requires OccursAt(s, sub, i)
    ensures OccursAt(s + b, sub, i)
  {
    assert (s + b)[i..i + |sub|] == s[i..i + |sub|];
  }

  /** Regrouping a five-part concatenation into three parts. */
  lemma Regroup(a: string, b: string, c: string, d: string, e: string)
    ensures a + b + c + d + e == (a + b) + (c + d) + e
    ensures a + b + c + d + e == (a + b) + ((c + d) + e)
  {
  }

  /** The middle part of a three-part concatenation, as a slice. */
  lemma MiddleSlice(x: string, y: string, z: string)
    ensures (x + y + z)[|x|..|x| + |y|] == y
  {
    assert forall i :: 0 <= i < |y| ==> (x + y + z)[|x|..|x| + |y|][i] == y[i];
  }

  /** The front of the middle part of a three-part concatenation, as a slice. */
  lemma MiddleFrontSlice(x: string, y: string, w: string, z: string)
    ensures (x + (y + w) + z)[|x|..|x| + |y|] == y
  {
    assert forall i :: 0 <= i < |y| ==> (x + (y + w) + z)[|x|..|x| + |y|][i] == y[i];
  }

  /** A slice of a slice is a slice of the whole. */
  lemma SliceOfSlice(t: string, lo: nat, hi: nat, i: nat, j: nat)
    requires lo <= hi <= |t| && i <= j <= hi - lo
    ensures t[lo..hi][i..j] == t[lo + i..lo + j]
  {
    assert forall x :: 0 <= x < j - i ==> t[lo..hi][i..j][x] == t[lo + i..lo + j][x];
  }

  function LeadingSpaces(s: string): (n: nat)
    ensures n <= |s|
    ensures forall k :: 0 <= k < n ==> IsSpace(s[k])
    ensures n < |s| ==> !IsSpace(s[n])
  {
    if |s| == 0 || !IsSpace(s[0]) then 0 else 1 + LeadingSpaces(s[1..])
  }

  function TrailingSpaces(s: string): (n: nat)
    ensures n <= |s|
    ensures forall k :: |s| - n <= k < |s| ==> IsSpace(s[k])
    ensures n < |s| ==> !IsSpace(s[|s| - n - 1])
  {
    if |s| == 0 || !IsSpace(s[|s| - 1]) then 0 else 1 + TrailingSpaces(s[..|s| - 1])
  }

  /** Python's `s.strip()`: the longest slice of `s` that neither starts nor
      ends with whitespace, obtained by removing only whitespace. */
  function Strip(s: string): (r: string)
    ensures |r| <= |s|
    ensures r != [] ==> !IsSpace(r[0]) && !IsSpace(r[|r| - 1])
    ensures exists i :: 0 <= i <= |s| - |r| && r == s[i..i + |r|] && AllSpace(s[..i]) && AllSpace(s[i + |r|..])
  {
    var i := LeadingSpaces(s);
    if i == |s| then
      assert s[0..0] == [] && AllSpace(s[..0]) && AllSpace(s[0..]);
      ""
    else
      var t := TrailingSpaces(s);
      var r := s[i..|s| - t];
      assert AllSpace(s[..i]) && AllSpace(s[i + |r|..]);
      r
  }

  lemma StripIdempotent(s: string)
    ensures Strip(Strip(s)) == Strip(s)
  {
    var r := Strip(s);
    if r != [] {
      assert LeadingSpaces(r) == 0;
      assert TrailingSpaces(r) == 0;
      assert r[0..|r|] == r;
    }
  }

  /** ASCII part of Python's `str.lower`. */
  function LowerChar(c: char): char {
    if 'A' <= c <= 'Z' then (c as int + 32) as char else c
  }

  function Lower(s: string): (r: string)
    ensures |r| == |s|
  {
    seq(|s|, i requires 0 <= i < |s| => LowerChar(s[i]))
  }

  /** Python's `s.replace(" ", "_")`. */
  function SpacesToUnderscores(s: string): (r: string)
    ensures |r| == |s|
    ensures forall i :: 0 <= i < |r| ==> r[i] != ' '
  {
    seq(|s|, i requires 0 <= i < |s| => if s[i] == ' ' then '_' else s[i])
  }

  // ── Decimal rendering ───────────────────────────────────

  predicate IsDigit(c: char) {
    '0' <= c <= '9'
  }

  predicate AllDigits(s: string) {
    forall k :: 0 <= k < |s| ==> IsDigit(s[k])
  }

  function DigitChar(d: nat): (c: char)
    requires d < 10
    ensures IsDigit(c)
  {
    ('0' as int + d) as char
  }

  /** Python's `str(n)` for a natural number. */
  function NatToString(n: nat): (r: string)
    ensures |r| >= 1 && AllDigits(r)
    ensures r[0] == '0' ==> n == 0
  {
    if n < 10 then [DigitChar(n)] else NatToString(n / 10) + [DigitChar(n % 10)]
  }

  /** The number a string of decimal digits denotes; leading zeros are allowed. */
  function DigitsValue(s: string): nat
    requires AllDigits(s)
  {
    if |s| == 0 then 0 else DigitsValue(s[..|s| - 1]) * 10 + (s[|s| - 1] as int - '0' as int)
  }

  lemma {:induction false} NatToStringRoundTrip(n: nat)
    ensures DigitsValue(NatToString(n)) == n
  {
    if n >= 10 {
      var s := NatToString(n);
      assert s[..|s| - 1] == NatToString(n / 10);
      NatToStringRoundTrip(n / 10);
    }
  }

  lemma {:induction false} LeadingZeroIgnored(s: string)
    requires AllDigits(s)
    ensures DigitsValue(['0'] + s) == DigitsValue(s)
    decreases |s|
  {
    if |s| > 0 {
      assert (['0'] + s)[..|s|] == ['0'] + s[..|s| - 1];
      LeadingZeroIgnored(s[..|s| - 1]);
    }
  }

  function Zeros(n: nat): (r: string)
    ensures |r| == n && AllDigits(r)
  {
    if n == 0 then "" else "0" + Zeros(n - 1)
  }

  lemma {:induction false} ZerosIgnored(n: nat, s: string)
    requires AllDigits(s)
    ensures DigitsValue(Zeros(n) + s) == DigitsValue(s)
  {
    if n > 0 {
      var rest := Zeros(n - 1) + s;
      assert Zeros(n) + s == ['0'] + rest;
      LeadingZeroIgnored(rest);
      ZerosIgnored(n - 1, s);
    } else {
      assert Zeros(n) + s == s;
    }
  }

  /** Python's `f"{n:0{width}d}"` for a natural number. */
  function ZeroPadded(n: nat, width: nat): (r: string)
    ensures AllDigits(r)
    ensures |r| == if |NatToString(n)| < width then width else |NatToString(n)|
  {
    var d := NatToString(n);
    if |d| < width then Zeros(width - |d|) + d else d
  }

  lemma ZeroPaddedValue(n: nat, width: nat)
    ensures DigitsValue(ZeroPadded(n, width)) == n
  {
    var d := NatToString(n);
    NatToStringRoundTrip(n);
    if |d| < width {
      ZerosIgnored(width - |d|, d);
      assert ZeroPadded(n, width) == Zeros(width - |d|) + d;
    } else {
      assert ZeroPadded(n, width) == d;
    }
  }

  /** Python's `str(i)` for any integer. */
  function IntToString(i: int): (r: string)
    ensures |r| >= 1
  {
    if i < 0 then "-" + NatToString(-i) else NatToString(i)
  }

  // ── Joining ─────────────────────────────────────────────

  /** Python's `sep.join(parts)`. */
  function Join(parts: seq<string>, sep: string): string {
    if |parts| == 0 then ""
    else if |parts| == 1 then parts[0]
    else parts[0] + sep + Join(parts[1..], sep)
  }

  /** Every part appears in the joined text. */
  lemma {:induction false} JoinContainsPart(parts: seq<string>, sep: string, i: nat)
    requires i < |parts|
    ensures IsSubstring(parts[i], Join(parts, sep))
    decreases |parts|
  {
    if |parts| == 1 {
      assert OccursAt(Join(parts, sep), parts[0], 0);
    } else if i == 0 {
      OccursInConcat("", parts[0], sep + Join(parts[1..], sep));
      assert "" + parts[0] + (sep + Join(parts[1..], sep)) == Join(parts, sep);
    } else {
      JoinContainsPart(parts[1..], sep, i - 1);
      var k :| OccursAt(Join(parts[1..], sep), parts[i], k);
      var pre := parts[0] + sep;
      assert Join(parts, sep) == pre + Join(parts[1..], sep);
      assert OccursAt(Join(parts, sep), parts[i], |pre| + k) by {
        assert Join(parts, sep)[|pre| + k..|pre| + k + |parts[i]|] == Join(parts[1..], sep)[k..k + |parts[i]|];
      }
    }
  }

  /** A substring of a substring is a substring. */
  lemma SubstringTransitive(a: string, b: string, c: string)
    requires IsSubstring(a, b) && IsSubstring(b, c)
    ensures IsSubstring(a, c)
  {
    var i :| OccursAt(b, a, i);
    var j :| OccursAt(c, b, j);
    forall k | 0 <= k < |a|
      ensures c[j + i + k] == a[k]
    {
      assert a[k] == b[i..i + |a|][k] == b[i + k];
      assert b[i + k] == c[j..j + |b|][i + k];
    }
    assert c[j + i..j + i + |a|] == a;
    assert OccursAt(c, a, j + i);
  }
}
